=== FILE: README.md ===
# post_zephir_processing, modelled in Dafny

This project models the checking half of HathiTrust's post-Zephir processing.
Each night, Zephir catalog records are turned into a set of datestamped files:
catalog files, rights files, delete lists, dollar-dup lists and hathifiles.
The Ruby code models four things about those files:

- **The run-date calendar.** `Date#last_of_month?` and `first_of_month?`, and `Dates#all_dates`, which runs from the first of the month to the run date.
- **Derivative naming.** Every file kind has a directory and a template, and a datestamp that is the run date or the day before. This covers `Derivative` and its subclasses.
- **The missing-date finders and the journal.** `Derivatives`, `MonthlyInventory` and `PostZephirDerivatives` find the earliest run date of the month whose files are not all on disk. `Journal` stores the dates to verify as `journal.yml`.
- **The verifiers.** `Verifier` keeps an error log and checks that files exist and can be read. Seven subclasses check the outputs of one run date: post-Zephir files, rights in the database, hathifile contents and line counts, the hathifiles database, the web listing, redirects, and the Solr catalog index. `bin/verify.rb` runs all seven and logs an exception from one of them as fatal without stopping the others.

Everything is a pure function over immutable data:

- A `FileSystem` value records which paths exist, which can be read, what each file holds after decompression, and what each directory lists.
- The environment is a map.
- The answers of the databases, of Solr, of `grep` and of `JSON.parse` are inputs of each verifier's `World`.
- Each verifier's run for a date is a `Report`: the error entries it logs, and the exception that ended it, if any.

Modules, from the bottom up:

- **Basics.**
  - `Wrappers`: Option, Result and the Ruby exceptions.
  - `Text`: digits, `chomp`, `strip`, `split` and `each_line`.
  - `Calendar`: the proleptic Gregorian calendar.
  - `Paths`: `File.join` and `File.basename`.
  - `Location`: directory expressions over `ENV`.
  - `FileSystem`.
  - `Json`: JSON values and `[]`.
- **Dates and names.**
  - `Dates`, `Datestamp` (`strftime` and `Date.parse`) and `Template` (the case-insensitive `sub`).
  - `Derivative`, which covers `lib/derivative.rb` and `lib/derivative/*.rb`.
- **The finders and the journal.** `DateSeqs` (`sort`, `uniq`, `-` and `min`), `Inventory`, `Derivatives`, `MonthlyInventory`, `PostZephirDerivatives` and `Journal`.
- **The verifiers.** `Verifier`, then `PostZephirVerifier`, `PopulateRightsVerifier`, `HathifileContents`, `HathifilesVerifier`, `HathifilesDatabaseVerifier`, `HathifilesListingVerifier`, `RedirectsVerifier` and `CatalogIndexVerifier`, and finally `RescuedLog` and `RunVerifiers` for `bin/verify.rb`.

## Model

| member | source | states |
|---|---|---|
| Dates.LastOfMonthIsLastDay | lib/dates.rb:7-9 | `last_of_month?` holds exactly on the month's last day, the 29th of February in a leap year |
| Dates.FirstOfMonthIsAfterMonthChange | lib/dates.rb:11-13 | `first_of_month?` holds exactly when the previous day lies in another month |
| Dates.OneLastDayPerMonth | lib/dates.rb:7-9 | every month has exactly one day on which `last_of_month?` holds |
| Dates.FirstOfMonthIsCycleStart | lib/dates.rb:38-42 | `first_of_month` is a 1st in the reference date's month, not after it, and the latest such 1st |
| Dates.AllDatesShape | lib/dates.rb:32-36 | `all_dates` is non-empty, starts on the 1st, ends on the reference date, goes in one-day steps, is strictly ascending and stays in one month |
| Dates.AllDatesIsInterval | lib/dates.rb:34-36 | `all_dates` holds exactly the dates from the first of the month to the reference date |
| Dates.AllDatesOnFirst | lib/dates.rb:34-42 | on a 1st the window is that date alone, on any later day it holds more than one date |
| Derivative.New | lib/derivative/delete.rb:5-8 | a derivative is built for any kind and date, except that deletes and dollar-dup files refuse `full: true` with `ArgumentError` (also lib/derivative/dollar_dup.rb:5-8) |
| Derivative.DerivativesForDate | lib/derivative/catalog.rb:5-21 | the update file is always expected and comes first; the full file is expected exactly on the 1st, and never for deletes and dollar-dup; `HTBibExport` has no list (also the same method in rights.rb, hathifile.rb, hathifile_www.rb, delete.rb, dollar_dup.rb) |
| Derivative.IngestBibrecordsForDate | lib/derivative/ingest_bibrecord.rb:15-24 | the two ingest files are expected exactly on the last day of a month, and nothing on other days |
| Derivative.DatestampIsRunDateOrDayBefore | lib/derivative.rb:16-25 | a hathifile carries its run date, every Zephir-derived file the day before, whose next day is the run date |
| Derivative.DatestampedFileShape | lib/derivative.rb:34-37 | the two case-insensitive `sub` calls replace the template's one placeholder by the datestamp and keep the text around it |
| Derivative.CatalogFileName | lib/derivative/catalog.rb:36-42 | catalog files are `zephir_full_<stamp>_vufind.json.gz` or `zephir_upd_<stamp>.json.gz`, stamped the day before |
| Derivative.RightsFileName | lib/derivative/rights.rb:27-32 | rights files are `zephir_<full/upd>_<stamp>.rights`, stamped the day before |
| Derivative.DeleteFileName | lib/derivative/delete.rb:19-28 | the deletes file is `zephir_upd_<stamp>_delete.txt.gz`, stamped the day before |
| Derivative.DollarDupFileName | lib/derivative/dollar_dup.rb:19-28 | the dollar-dup file is `vufind_incremental_<yyyy-mm-dd>_dollar_dup.txt.gz`, stamped the day before |
| Derivative.HTBibExportFileName | lib/derivative/ht_bib_export.rb:13-31 | the Zephir exports are `ht_bib_export_<full/incr>_<yyyy-mm-dd>.json.gz`, stamped the day before |
| Derivative.HathifileFileName | lib/derivative/hathifile.rb:23-28 | hathifiles are `hathi_<full/upd>_<stamp>.txt.gz`, stamped with the run date (also lib/derivative/hathifile_www.rb:27-32) |
| Derivative.DatestampedFileIsFileName | lib/derivative.rb:27-37 | a stamped file name never holds a directory separator |
| Derivative.FullCatalogIsNamedAfterPreviousMonth | lib/derivative/catalog.rb:13-25 | the full catalog of a 1st-of-month run is named after the last day of the previous month |
| Derivative.PathAndBasename | lib/derivative.rb:27-32 | a path exists exactly when the kind's directory resolves; it is that directory joined with the file name, and its base name is the file name |
| Derivative.OnlyWebHathifilesChange | lib/derivative/hathifile_www.rb:27-32 | as written, a web hathifile's path always raises `TypeError` because its location is the Symbol `:WWW_DIR`; every other kind's path is unaffected by reading the Symbol as a variable |
| Derivative.RightsLocation | lib/derivative/rights.rb:29 | the rights directory is `RIGHTS_ARCHIVE`, else `archive` under `RIGHTS_DIR`, else `KeyError` from `ENV.fetch` |
| Derivative.RightsPath | lib/derivative/rights.rb:27-32 | a rights path exists exactly when one of the two variables is set, and otherwise fails with `KeyError("RIGHTS_DIR")` |
| Derivative.EnvVarKindPath | lib/derivative/catalog.rb:45-55 | a kind located by one variable gets the variable joined with the file name, or `TypeError` from `File.join(nil, ...)` when unset |
| Derivative.CatalogCopiesShareName | lib/derivative/catalog.rb:45-55 | the archive and prep copies of a catalog file share their name and differ only by directory |
| Datestamp.CompactRoundTrip | lib/journal.rb:34-36 | `strftime("%Y%m%d")` of a date with a four-digit year is eight digits, and `Date.parse` reads it back as the same date (also lib/derivative.rb:34-37) |
| Datestamp.ParseCompactInverse | lib/journal.rb:22-26 | every eight-digit string that `Date.parse` accepts is the compact form of the date it yields |
| Datestamp.HyphenatedRoundTrip | lib/derivative/dollar_dup.rb:23-28 | `strftime("%Y-%m-%d")` is ten characters and parses back to the same date |
| Datestamp.CompactInjective | lib/derivative.rb:34-37 | two different dates never get the same compact stamp |
| Datestamp.StampsHaveNoLetters | lib/derivative.rb:34-37 | neither stamp form holds anything but digits and minus signs |
| Template.FindFrom | lib/derivative.rb:34-37 | the search finds the first case-insensitive occurrence of the pattern at or after a position, or reports that there is none |
| Template.SubFirstKeepsContext | lib/derivative.rb:34-37 | `sub` leaves a text without the pattern unchanged, and otherwise replaces the first occurrence only, keeping the text on both sides |
| Template.StampWithoutPlaceholder | lib/derivative.rb:34-37 | a template without a placeholder is returned unchanged by `datestamped_file` |
| Template.StampCompactTemplate | lib/derivative.rb:34-37 | a `YYYYMMDD` placeholder, in any case, becomes the compact datestamp and nothing else changes |
| Template.StampHyphenatedTemplate | lib/derivative.rb:34-37 | a `YYYY-MM-DD` placeholder, in any case, becomes the hyphenated datestamp and nothing else changes |
| Journal.DestinationPath | lib/journal.rb:16-18 | the journal lives at `journal.yml` under `DATA_ROOT`; without `DATA_ROOT`, `File.join` raises `TypeError` |
| Journal.ParseEntry | lib/journal.rb:22-26 | a Date entry is kept; a String entry succeeds exactly when it is an eight-digit or a `YYYY-MM-DD` date, and yields that date; otherwise `Date::Error` |
| Journal.Parsed | lib/journal.rb:22-26 | the conversion fails exactly when some entry does not parse, and otherwise converts each entry in place |
| Journal.New | lib/journal.rb:22-26 | the stored dates are the converted entries, ascending, as a permutation that keeps duplicates |
| Journal.Written | lib/journal.rb:28-36 | `write!` emits one line per stored date, in stored order, each an eight-digit stamp that parses back to its date |
| Journal.EmptyJournal | lib/journal.rb:22-26 | an empty list of dates gives an empty journal |
| Journal.DatesAreSorted | lib/journal.rb:22-26 | Date entries come out as their sorted permutation, and already ascending dates come out unchanged |
| Journal.WriteThenRead | lib/journal.rb:11-36 | a journal written by `write!` and read back by `from_yaml` holds the same dates |
| Journal.ReadThenWrite | lib/journal.rb:11-36 | eight-digit lines in date order, read back and written again, are the same lines |
| Verifier.EntryNamesClass | lib/verifier.rb:74-78 | every log entry starts with the class name and `": "`, and the message is recovered from it |
| Verifier.ErrorAppendsOne | lib/verifier.rb:74-78 | `error` appends exactly one entry and leaves the earlier entries as they were |
| Verifier.ThenLaws | lib/verifier.rb:74-78 | a run that has raised logs nothing more, and steps of a run group either way |
| Verifier.ForEach | lib/verifier.rb:18-22 | a loop raises exactly when one of its steps raises, and then stops at the first such step |
| Verifier.ForEachClean | lib/verifier.rb:18-22 | a loop logs nothing and raises nothing exactly when each of its steps is silent |
| Verifier.ForEachFlags | lib/verifier.rb:74-78 | a loop that flags each bad element logs one entry per bad element, in order, and never raises |
| Verifier.FlaggedEntries | lib/verifier.rb:74-78 | every bad element gets its entry, and every entry belongs to a bad element |
| Verifier.VerifyFile | lib/verifier.rb:32-49 | `verify_file` is true exactly for a readable file and then logs nothing; a missing file gets exactly "not found", an existing unreadable one exactly "not readable" |
| Verifier.VerifyFileFlags | lib/verifier.rb:32-49 | `verify_file` logs one entry exactly when the file is not readable |
| Verifier.WhenVerified | lib/verifier.rb:32-35 | `next unless verify_file` runs the rest of the step only for a readable file; a path that cannot be computed raises |
| Verifier.ForEachVerifyPath | lib/verifier.rb:32-49 | a loop of `verify_file` calls raises exactly when some path cannot be computed, and otherwise logs one entry per unreadable file |
| Verifier.GzipLineCount | lib/verifier.rb:51-54 | the line count is defined exactly for a file that opens, and counts a last line without newline too |
| Verifier.VerifyParseableNdj | lib/verifier.rb:58-69 | the check is true exactly when every line parses, logging nothing; otherwise it logs exactly one "contains unparseable JSON" entry; an unopenable file raises |
| Verifier.RunJournal | lib/verifier.rb:18-22 | `run` raises when the journal does not load, and otherwise runs `run_for_date` for each journal date in ascending order |
| Verifier.RunVisitsWrittenDates | lib/verifier.rb:18-22 | a journal written by the producing run is verified date by date, in date order (also lib/journal.rb:11-36) |
| FileSystem.Read | lib/verifier.rb:51-54 | opening a file succeeds exactly when it is present and readable, and otherwise raises naming the path |
| FileSystem.Lines | lib/verifier.rb:58-69 | `each_line` yields lines that put back together give the whole file |
| Paths.BasenameOfJoin | lib/derivative.rb:27-32 | `File.basename` of a file name joined to any directory is that file name |
| Paths.JoinInjective | lib/derivative.rb:27-32 | in one directory, different file names give different paths |
| Location.JoinValue | lib/derivative.rb:27-32 | `File.join` succeeds exactly on a String directory and joins it with the name |
| Location.PathIsDirectoryAndName | lib/derivative.rb:27-32 | a path exists exactly when the location resolves to a directory, and is that directory joined with the name |
| Location.SymbolNeverJoins | lib/derivative/hathifile_www.rb:29 | as written, a bare Symbol location never makes a path: `File.join` raises `TypeError` |
| Location.SymbolsMatterOnlyWhenPresent | lib/derivative.rb:27-32 | reading Symbols as variables changes nothing for a location that holds none |
| Location.EnvVarPath | lib/derivative/catalog.rb:45-55 | `File.join(ENV[k], name)` is the variable joined with the name when set, and raises `TypeError` for nil otherwise |
| DateSeqs.Sort | lib/journal.rb:22-26 | `sort` gives an ascending permutation of the dates, duplicates kept (also lib/derivatives.rb:91) |
| DateSeqs.AscendingPermutationIsUnique | lib/journal.rb:22-26 | two ascending arrangements of the same dates are equal, so the sorted journal is determined by its entries |
| DateSeqs.SortOfAscending | lib/journal.rb:22-26 | sorting dates that are already ascending changes nothing |
| DateSeqs.Uniq | lib/derivatives.rb:91 | `uniq` keeps exactly the elements of its input, each once |
| DateSeqs.UniqOfDistinct | lib/derivatives.rb:91 | `uniq` of an array without repetitions is that array |
| DateSeqs.SortUniq | lib/derivatives.rb:91 | `sort.uniq` is strictly ascending and holds exactly the input's dates (also lib/monthly_inventory.rb:85) |
| DateSeqs.StrictlyAscendingIsUnique | lib/derivatives.rb:91 | a strictly ascending list of dates is determined by its elements |
| DateSeqs.Minus | lib/derivatives.rb:55 | `required - present` holds exactly the required dates that are not present |
| DateSeqs.Least | lib/derivatives.rb:56-58 | `min` is nil exactly for an empty array, and is otherwise a member not after any other |
| DateSeqs.EarliestMissing | lib/derivatives.rb:51-59 | `earliest.min` is nil exactly when no category misses a required date, and otherwise a date missing from some category that is not after any missing date (also lib/monthly_inventory.rb:54-61) |
| Inventory.StampIn | lib/derivatives.rb:18-38 | `pattern.match(name)` with `^` and `$` as line anchors gives nil exactly when no line of the name is prefix, eight digits and suffix, and eight digits otherwise |
| Inventory.StampInLeftmost | lib/derivatives.rb:88 | the group `m[1]` comes from the leftmost match |
| Inventory.StampInComplete | lib/derivatives.rb:18-38 | every eight-digit group between the prefix and the suffix is matched |
| Inventory.StampInOneLine | lib/derivatives.rb:18-38 | for a name without a newline the pattern matches exactly when the name is prefix, eight digits and suffix |
| Inventory.StampInLines | lib/derivatives.rb:88 | in a name of several lines, the group read is that of the first line the pattern matches |
| Inventory.NamesOnAnyLine | lib/derivatives.rb:88 | a name whose first line, or first matching line, is a date's file name is read as that date |
| Inventory.StampDate | lib/derivatives.rb:88 | a name the pattern rejects contributes nothing, a matched group that is no date raises `Date::Error`, and a matched date is the one its first matching line was written for |
| Inventory.StampDateOfNames | lib/derivatives.rb:88 | a name whose first matching line is a date's file name is read back as that date |
| Inventory.StampDateOfNamed | lib/derivatives.rb:88 | the file name of a date is matched and read back as that date |
| Inventory.DatesInNames | lib/derivatives.rb:87-88 | the `filter_map` raises `Date::Error` exactly when a listed name holds an invalid stamp |
| Inventory.DatesOfNames | lib/derivatives.rb:87-88 | the `filter_map` yields exactly the dates some listed name names |
| Inventory.Select | lib/derivatives.rb:89 | `select` keeps exactly the dates the selection accepts (also lib/monthly_inventory.rb:83) |
| Inventory.ScanDirs | lib/derivatives.rb:84-90 | the directory loop skips nonexistent directories and yields exactly the selected dates some entry of an existing directory names |
| Inventory.DirectoryInventory | lib/derivatives.rb:82-92 | `directory_inventory` is strictly ascending and holds exactly the selected dates some entry of the directories names (also lib/monthly_inventory.rb:76-86) |
| Inventory.ListedWhenPresent | lib/derivatives.rb:84-90 | a directory holding a date's file makes the date listed |
| Inventory.ListedExactly | lib/derivatives.rb:84-90 | when no entry holds a newline, a date is listed exactly when some existing directory holds its file |
| Inventory.NoDirectoriesNoDates | lib/derivatives.rb:84-85 | with none of the directories present, the inventory is empty |
| Derivatives.EntryWithNewlineCounts | lib/derivatives.rb:16-38 | an entry whose first line is a category's file for a date, or whose second line is after an unmatched first line, counts for that date |
| Derivatives.DirectoriesNamed | lib/derivatives.rb:66-75 | each location key becomes its environment variable or the production default, in `DIR_DATA` order (also lib/derivatives.rb:95-97) |
| Derivatives.RequiredDates | lib/derivatives.rb:54 | a full category requires only the first date of the window, the other categories every date of it |
| Derivatives.Inventories | lib/derivatives.rb:53-55 | the inventories are built category by category; it raises exactly when some category's inventory does, and then with the error of the first category that fails, every earlier one having loaded |
| Derivatives.EarliestMissingDate | lib/derivatives.rb:51-59 | the result is nil exactly when every required date of every category has a file; otherwise it is a date of the window that some category misses, not after any missing date; an invalid stamp raises |
| Derivatives.EarliestOfMissing | lib/derivatives.rb:51-59 | the minimum over the inventories is the minimum over the files missing on disk |
| Derivatives.MissingMeansMissingFrom | lib/derivatives.rb:55 | a date is missing from a category's inventory exactly when its required file is in none of the category's directories |
| Derivatives.TemplatesMatchPatterns | lib/derivatives.rb:15-41 | the file a producing run writes for a run date is the name the category's pattern matches for the day before, and the category is full exactly when that file is (also lib/derivative/catalog.rb:36-42) |
| Derivatives.NothingOnDisk | lib/derivatives.rb:51-59 | with no directory on disk the first of the month is the earliest missing date |
| MonthlyInventory.DirectoriesSearched | lib/monthly_inventory.rb:20-22 | rights files are looked for in the rights directory and its archive, update and delete files in the prep directory (also lib/monthly_inventory.rb:34-48, 78) |
| MonthlyInventory.Inventories | lib/monthly_inventory.rb:25-29 | the three inventories are built in order; it raises exactly when some part's inventory does, and then with the error of the first part that fails, every earlier one having loaded |
| MonthlyInventory.EarliestMissingDate | lib/monthly_inventory.rb:54-61 | nil exactly when every date from the 1st to the reference date has all three files; otherwise a date some part misses, not after any missing date |
| MonthlyInventory.EarliestOfMissing | lib/monthly_inventory.rb:54-61 | the minimum over the inventories is the minimum over the files missing on disk |
| MonthlyInventory.NothingOnDisk | lib/monthly_inventory.rb:54-61 | with no directory on disk the first of the month is the earliest missing date |
| PostZephirDerivatives.Expected | lib/post_zephir_derivatives.rb:23-31 | a date expects the prep update first, then each class's derivatives in order |
| PostZephirDerivatives.ExpectedMembers | lib/post_zephir_derivatives.rb:23-31 | a date expects exactly the update file of each class, plus the full prep and full rights files on the 1st |
| PostZephirDerivatives.ExpectedPath | lib/post_zephir_derivatives.rb:32 | a rights path exists exactly when `RIGHTS_ARCHIVE` or `RIGHTS_DIR` is set, else `KeyError`; the other paths exactly when `CATALOG_PREP` is set, else `TypeError` |
| PostZephirDerivatives.ChecksRaiseOnlyUnconfigured | lib/post_zephir_derivatives.rb:29-37 | a date's check raises exactly when the environment lacks a directory, and raises what the first path in order raises |
| PostZephirDerivatives.CheckFindsMissing | lib/post_zephir_derivatives.rb:30-36 | a date's check that completes says whether some expected file of the date does not exist |
| PostZephirDerivatives.EarliestFlagged | lib/post_zephir_derivatives.rb:28-38 | the outer loop raises exactly when some date's check does, with the error of the first such date, every earlier check having completed; otherwise it returns nil exactly when no date is flagged, else the earliest flagged date |
| PostZephirDerivatives.EarliestMissingDate | lib/post_zephir_derivatives.rb:22-39 | the result raises exactly when a directory is unset; otherwise it is nil exactly when every expected file of every window date exists, and else the earliest window date with a file missing |
| HathifileContents.VerifyFields | lib/verifier/hathifiles_contents.rb:92-100 | `verify_fields` logs one error per field that does not match its column, in column order, and never raises |
| HathifileContents.CheckLine | lib/verifier/hathifiles_contents.rb:84-88 | a line whose field count is not 26 gets exactly one column-count error and no field errors; a line is silent exactly when it has 26 fields each matching its column (also lib/verifier/hathifiles_contents.rb:102-109) |
| HathifileContents.FieldsClean | lib/verifier/hathifiles_contents.rb:92-100 | with 26 fields, the field check is silent exactly when every field matches its column |
| HathifileContents.FreeTextAlwaysMatches | lib/verifier/hathifiles_contents.rb:19-20 | the `^.*$` columns accept any field without newlines |
| HathifileContents.LinesVerdict | lib/verifier/hathifiles_contents.rb:81-89 | the loop over the lines is silent exactly when every line is well formed |
| HathifileContents.Run | lib/verifier/hathifiles_contents.rb:79-90 | `run` counts every line, malformed or not, so `line_count` equals the file's line count; an unopenable file raises before anything is counted |
| HathifileContents.RunVerdict | lib/verifier/hathifiles_contents.rb:79-90 | a file is silent exactly when every line has 26 fields, each matching its column |
| HathifileContents.WellFormedLine | lib/verifier/hathifiles_contents.rb:84 | 26 matching tab-free fields joined by tabs pass, with or without a trailing newline |
| HathifilesVerifier.VerifyLinecount | lib/verifier/hathifiles.rb:45-50 | the count error fires exactly when the hathifile has fewer lines than the catalog file; an unopenable catalog file raises |
| HathifilesVerifier.CatalogSourceStamp | lib/verifier/hathifiles.rb:41-43 | the catalog source keeps the hathifile's run date and fullness, so its file is stamped one day earlier |
| HathifilesVerifier.UnreadableHathifile | lib/verifier/hathifiles.rb:29-31 | a hathifile that cannot be verified gets the `verify_file` error alone, with no contents check and no line counts |
| HathifilesVerifier.ReadableHathifile | lib/verifier/hathifiles.rb:29-35 | a hathifile that opens goes on to the contents check and the comparison with its catalog source |
| HathifilesVerifier.ContentsThenCounts | lib/verifier/hathifiles.rb:32-34 | the contents errors come first, then the line-count check with the contents verifier's line count (also lib/verifier/hathifiles.rb:52-63) |
| HathifilesVerifier.HathifileAgainstCatalog | lib/verifier/hathifiles.rb:32-50 | with both files readable, the step never raises and is silent exactly when the contents check is and the hathifile has at least as many lines as the catalog file |
| HathifilesVerifier.MissingCatalogRaises | lib/verifier/hathifiles.rb:33-34 | an unopenable catalog file raises after the contents check, whose errors are kept |
| HathifilesVerifier.NothingPresent | lib/verifier/hathifiles.rb:28-36 | with no hathifile present each expected file is one not-found error: two on a 1st, one on other days |
| HathifilesDatabaseVerifier.FullOnes | lib/verifier/hathifiles_database.rb:48 | the `select` keeps exactly the full derivatives |
| HathifilesDatabaseVerifier.HathifilePath | lib/verifier/hathifiles_database.rb:14-19 | the `hf_log` lookup by `basename` of the path finds the file's own name |
| HathifilesDatabaseVerifier.LogStepFlags | lib/verifier/hathifiles_database.rb:38-44 | one file's log check flags it exactly when it exists and its name has no `hf_log` row |
| HathifilesDatabaseVerifier.LogVerdict | lib/verifier/hathifiles_database.rb:35-45 | the log check never raises, logs one error per existing hathifile without a log row, in order, and is silent exactly when each existing hathifile is logged |
| HathifilesDatabaseVerifier.CountOnFirstOnly | lib/verifier/hathifiles_database.rb:47-50 | only a 1st has a full hathifile, so on other days the count check does nothing |
| HathifilesDatabaseVerifier.CountVerdict | lib/verifier/hathifiles_database.rb:47-57 | on a 1st an existing full file gets one error exactly when it has more lines than `hf` has rows; an absent one is not counted |
| HathifilesDatabaseVerifier.RunForDateVerdict | lib/verifier/hathifiles_database.rb:26-31 | a run date passes exactly when both checks do, and the log errors come first |
| PostZephirVerifier.RunForDateVerdict | lib/verifier/post_zephir.rb:19-27 | a date is silent exactly when all five checks are; an exception in any ends the run; otherwise the errors come in the order catalog archive, catalog prep, dollar-dup, ingest, rights |
| PostZephirVerifier.CountSuppressedRecords | lib/verifier/post_zephir.rb:205-219 | 0 and silent for update files and for a full file whose monthly report is absent; `grep`'s count and silent when the report exists and `grep` exits below 2; 0 with exactly one error, and no raise, for status 2 or more; an uncomputable report path (`ZEPHIR_DATA` unset) raises |
| PostZephirVerifier.CompareWithBibExport | lib/verifier/post_zephir.rb:48-61 | when the suppressed-record count is clean, one mismatch error exactly when the bib export's line count differs from the archive's plus the suppressed records, and nothing otherwise; a raising count ends the comparison with that raise; a count error is kept before the comparison |
| PostZephirVerifier.SuppressedRecordsBalance | lib/verifier/post_zephir.rb:48-61 | with the monthly report present and `grep` succeeding, a full archive file short of its bib export by exactly the suppressed count passes, and one with no allowance for a non-zero count fails (also lib/verifier/post_zephir.rb:205-219) |
| PostZephirVerifier.ArchiveAgainstExport | lib/verifier/post_zephir.rb:39-62 | for a readable archive file and bib export, the check never raises and logs what the JSON check found, then one error when the export does not hold the archive's lines plus the suppressed records |
| PostZephirVerifier.DeleteLineIsRecordId | lib/verifier/post_zephir.rb:91 | a delete-file line is accepted exactly when it is a lone newline or nine digits with or without a trailing newline |
| PostZephirVerifier.CarriageReturnIsUnexpected | lib/verifier/post_zephir.rb:91 | a record id is accepted with or without its newline, but a line ending in a carriage return and newline is not |
| PostZephirVerifier.VerifyDeletesContents | lib/verifier/post_zephir.rb:88-95 | one error per line that is not accepted, in line order; an unopenable file raises |
| PostZephirVerifier.DeletesAt | lib/verifier/post_zephir.rb:77-79 | the delete file step is silent exactly when the file opens and every line is accepted; a missing file is the not-found error alone |
| PostZephirVerifier.CatalogPrepVerdict | lib/verifier/post_zephir.rb:74-84 | `verify_catalog_prep` is silent exactly when the delete file holds only accepted lines and every expected catalog prep file is readable |
| PostZephirVerifier.CatalogPrepWithNothingPresent | lib/verifier/post_zephir.rb:74-84 | with nothing on disk, three not-found errors on a 1st (the delete, update and full files), two on other days |
| PostZephirVerifier.PrepPathsComputed | lib/verifier/post_zephir.rb:75-82 | with `CATALOG_PREP` set every prep path computes; there are two prep files on a 1st and one otherwise |
| PostZephirVerifier.DollarDupMustBeEmpty | lib/verifier/post_zephir.rb:120-127 | the dollar-dup check passes exactly when the file is readable and empty; an unreadable file is one `verify_file` error, a non-empty one exactly one error |
| PostZephirVerifier.IngestOnLastDayOnly | lib/verifier/post_zephir.rb:135-139 | the ingest files are checked only on the last day of a month, and then pass exactly when both are readable; an unset `INGEST_BIBRECORDS` raises |
| PostZephirVerifier.RightsLineOutcome | lib/verifier/post_zephir.rb:177-186 | a rights line of at most five fields logs one error per field that does not match its column, in column order; a sixth field raises `NoMethodError`; an empty line passes |
| PostZephirVerifier.WellFormedRightsLine | lib/verifier/post_zephir.rb:162-186 | five matching fields joined by tabs pass, with or without a newline |
| PostZephirVerifier.RightsFieldsOfJoin | lib/verifier/post_zephir.rb:179-180 | `chomp` and `split("\t", -1)` of five tab-free fields joined by tabs gives the fields back |
| PostZephirVerifier.VerifyRightsFileFormat | lib/verifier/post_zephir.rb:160-188 | an unopenable rights file raises `FileError`; the verdict on a readable file is `RightsFileFormatVerdict` |
| PostZephirVerifier.RightsLineClean | lib/verifier/post_zephir.rb:180-185 | one rights line is silent exactly when it has at most five fields, each matching its column |
| PostZephirVerifier.RightsFileFormatVerdict | lib/verifier/post_zephir.rb:157-188 | a readable rights file raises exactly when some line has a sixth field, and then `NoMethodError`; it is silent exactly when it is empty or every line is valid |
| RedirectsVerifier.RedirectLineShape | lib/verifier/hathifiles_redirects_verifier.rb:9 | the line-anchored pattern matches a line exactly when it is the pair alone or the pair followed by its newline |
| RedirectsVerifier.PairLines | lib/verifier/hathifiles_redirects_verifier.rb:9 | two nine-digit record numbers joined by a tab are accepted with or without the newline, and rejected with a carriage return before it |
| RedirectsVerifier.RedirectLinesVerdict | lib/verifier/hathifiles_redirects_verifier.rb:31-35 | each malformed redirects line is one error naming the file, the line number from 1 and the line, in file order; the check is silent exactly when every line matches (also lib/verifier/hathifiles_redirects_verifier.rb:71-73) |
| RedirectsVerifier.Intersect | lib/verifier/hathifiles_redirects_verifier.rb:49 | `a & b` keeps exactly the elements of `a` that `b` holds |
| RedirectsVerifier.HistoryKeysPresent | lib/verifier/hathifiles_redirects_verifier.rb:49 | the intersection keeps the four keys whole exactly when the object has every one of them; other keys do not matter |
| RedirectsVerifier.HistoryLineMeaning | lib/verifier/hathifiles_redirects_verifier.rb:41-57 | a history line is valid exactly when it parses to a Hash holding all four keys |
| RedirectsVerifier.HistoryLinesVerdict | lib/verifier/hathifiles_redirects_verifier.rb:38-58 | the history check never raises; its errors are exactly one per line that fails to parse or is not an object with the four keys, naming the file, the line number and the line, in file order; it is silent exactly when every line is an object with the four keys |
| RedirectsVerifier.OneFilePairPerMonth | lib/verifier/hathifiles_redirects_verifier.rb:61-67 | every day of a month checks the same two files |
| RedirectsVerifier.FilePaths | lib/verifier/hathifiles_redirects_verifier.rb:61-67 | the files are `redirects_<YYYYMM>.txt.gz` under `REDIRECTS_DIR` and `<YYYYMM>.ndj.gz` under `REDIRECTS_HISTORY_DIR` |
| RedirectsVerifier.UnsetRedirectsDir | lib/verifier/hathifiles_redirects_verifier.rb:61-63 | an unset `REDIRECTS_DIR` raises `TypeError` before anything is checked |
| RedirectsVerifier.BothMissing | lib/verifier/hathifiles_redirects_verifier.rb:23-39 | with neither file present, exactly two not-found errors, the redirects file's first |
| RedirectsVerifier.BothReadable | lib/verifier/hathifiles_redirects_verifier.rb:17-58 | with both files readable the check never raises, and is silent exactly when every redirects line is a pair and every history line an object with the four keys |
| PopulateRightsVerifier.SplitRejoin | lib/verifier/populate_rights.rb:62-67 | splitting an htid at its first dot and rejoining gives it back, and a dot-free namespace splits back off its rejoined htid |
| PopulateRightsVerifier.FoundMeansHasRow | lib/verifier/populate_rights.rb:61-68 | an htid of the slice is among those the query finds exactly when it has a row of its own |
| PopulateRightsVerifier.FindMissing | lib/verifier/populate_rights.rb:60-72 | a nil in the slice raises on `split` before the query; otherwise nothing raises, an htid without a dot being taken to have no row |
| PopulateRightsVerifier.FindMissingFlags | lib/verifier/populate_rights.rb:60-72 | for a slice without nil, one "missing rights_current" error per htid without a row, in slice order |
| PopulateRightsVerifier.HtidOf | lib/verifier/populate_rights.rb:43-44 | the first field of a stripped line is nil exactly for a blank line |
| PopulateRightsVerifier.RightsLineHtid | lib/verifier/populate_rights.rb:43-44 | the htid of a rights line is its first tab-separated field, whatever follows and however the line ends |
| PopulateRightsVerifier.NilRaises | lib/verifier/populate_rights.rb:41-52 | a blank line anywhere in the file makes the check raise `NoMethodError` once its slice is flushed |
| PopulateRightsVerifier.DistinctSlicesFlag | lib/verifier/populate_rights.rb:41-52 | with distinct htids and no blank line, the errors are one per htid without a row, in file order, whatever the slice size |
| PopulateRightsVerifier.SlicesCleanIffAllHaveRows | lib/verifier/populate_rights.rb:41-52 | without blank lines, the check is silent exactly when every htid has a row, whatever the duplicates and the slice size |
| PopulateRightsVerifier.SlicesVerdict | lib/verifier/populate_rights.rb:39-54 | from an empty slice: a nil raises; otherwise silent exactly when every htid has a row; with distinct htids the errors are the htids without a row, in order |
| PopulateRightsVerifier.RightsFileVerdict | lib/verifier/populate_rights.rb:39-54 | for a readable rights file, a blank line raises, and otherwise the file passes exactly when every htid has a row |
| PopulateRightsVerifier.NothingPresent | lib/verifier/populate_rights.rb:29-36 | with no rights file present, one not-found error per expected file: two on a 1st, one on other days |
| PopulateRightsVerifier.AbsentRights | lib/verifier/populate_rights.rb:31-33 | a rights file that is not there is one not-found error and its contents are not read |
| HathifilesListingVerifier.Listings | lib/verifier/hathifiles_listing.rb:37-42 | an uncomputable listing path raises its error, and an unreadable listing file raises `FileError` |
| HathifilesListingVerifier.ListingsAreFilenames | lib/verifier/hathifiles_listing.rb:37-42 | a listing that loads came from a readable file that parses, and holds exactly the `"filename"` values of the array's elements; an empty object lists nothing |
| HathifilesListingVerifier.VerifyFileInJson | lib/verifier/hathifiles_listing.rb:28-32 | a listing that fails to load raises; otherwise one error exactly when the name is not among the `"filename"` values |
| HathifilesListingVerifier.AsWrittenAlwaysRaises | lib/derivative/hathifile_www.rb:27-32 | as written, every run date raises `TypeError` from `File.join` on the Symbol before anything is logged (also lib/verifier/hathifiles_listing.rb:17-20) |
| HathifilesListingVerifier.WebPath | lib/derivative/hathifile_www.rb:27-32 | with `WWW_DIR` read as a variable, a web hathifile's path is its file name under it |
| HathifilesListingVerifier.ListingChecksBoth | lib/verifier/hathifiles_listing.rb:23-26 | each file is checked for readability and then looked up by base name, both findings kept; it is silent exactly when the file is readable and listed |
| HathifilesListingVerifier.ListingVerdict | lib/verifier/hathifiles_listing.rb:17-42 | with the listing loaded, the check never raises and is silent exactly when every web hathifile of the date is readable and listed under its name |
| HathifilesListingVerifier.MissingAndUnlisted | lib/verifier/hathifiles_listing.rb:23-32 | a missing, unlisted file is exactly two errors: not found, then no listing |
| HathifilesListingVerifier.NothingPresent | lib/verifier/hathifiles_listing.rb:17-32 | with nothing present and nothing listed, four errors on a 1st and two on other days |
| CatalogIndexVerifier.QueryChoice | lib/verifier/catalog_index.rb:12-32 | a full file is compared with every undeleted record, an update with the records indexed since the start of its run date |
| CatalogIndexVerifier.SolrShape | lib/verifier/catalog_index.rb:43-62 | a response of Solr's shape answers with its `numFound`, whatever its header and documents |
| CatalogIndexVerifier.ErrorBodyRaises | lib/verifier/catalog_index.rb:43-62 | a parsed body without `"response"` raises `NoMethodError` on nil and logs nothing |
| CatalogIndexVerifier.Less | lib/verifier/catalog_index.rb:29 | `solr_count < linecount` succeeds exactly for an Integer count and then compares; other JSON values raise |
| CatalogIndexVerifier.AnsweredVerdict | lib/verifier/catalog_index.rb:12-32 | with a count from Solr the check never raises, and logs one error exactly when the index holds fewer records than the file has lines |
| CatalogIndexVerifier.UnparseableVerdict | lib/verifier/catalog_index.rb:56-61 | an unparseable response is logged first and counts as an empty index, so a file with lines also gets the count error |
| CatalogIndexVerifier.UnreadableCatalog | lib/verifier/catalog_index.rb:64-78 | a catalog file that cannot be verified is the `verify_file` error alone, and Solr is not asked |
| CatalogIndexVerifier.StepVerdict | lib/verifier/catalog_index.rb:64-78 | for a readable file with a count, the step is silent exactly when the index covers the file's lines |
| CatalogIndexVerifier.RunForDateVerdict | lib/verifier/catalog_index.rb:64-78 | with every file readable and every answer a count, the date passes exactly when the index covers each catalog archive file |
| RescuedLog.RescuedKeepsAll | bin/verify.rb:27-32 | the rescued log holds every error of every run, and one fatal line per run that raised, in order |
| RescuedLog.RescuedQuiet | bin/verify.rb:27-32 | the log is empty exactly when every run is silent |
| RunVerifiers.QuietIffAllClean | bin/verify.rb:17-34 | a run logs nothing exactly when each of the seven verifiers logs nothing and raises nothing |
| RunVerifiers.RunAllKeepsEveryRun | bin/verify.rb:17-34 | an exception in one verifier does not stop the others: all their errors and one fatal line per raising verifier are kept |
| RunVerifiers.Reports | bin/verify.rb:18-28 | the seven verifiers each run once, in the declared order, with a fresh log and the same date |
| RunVerifiers.DotenvLoad | bin/verify.rb:14 | `Dotenv.load` adds the file's variables and keeps every variable already set |
| RunVerifiers.LoadedEnvironment | bin/verify.rb:14 | an unset `ROOTDIR` raises `KeyError`; otherwise the verifiers see the environment after `Dotenv.load` of `$ROOTDIR/config/env` |
| RunVerifiers.ScriptLoadsFirst | bin/verify.rb:14-38 | the environment is loaded before anything runs: without `ROOTDIR` no verifier runs |
| RunVerifiers.TodayByDefault | bin/verify.rb:37-38 | without a command-line argument today is checked |
| RunVerifiers.AsWrittenIgnoresFiles | bin/verify.rb:37-38 | as written, a command-line date makes every verifier raise `NoMethodError` at once: one fatal line per verifier and no errors, whatever the files hold |
| RunVerifiers.CommandLineDate | bin/verify.rb:37-38 | corrected, a `YYYY-MM-DD` command-line date is checked as that date |
| RunVerifiers.CommandLineNotADate | bin/verify.rb:37-38 | corrected, an argument that is no date stops the script with `Date::Error` before any verifier runs |

## Where the code and its tests disagree

In each case below the model follows the code.

- **Cycle boundary.** `lib/dates.rb:32` calls the window's start the "last of month". The code at `lib/dates.rb:40-42` starts it on the first. `spec/unit/derivatives_spec.rb:49-50` and `spec/integration/derivatives_integration_spec.rb:32-39` expect the previous month's last day. `Dates.FirstOfMonthIsCycleStart` and `Derivatives.NothingOnDisk` state the code's behaviour.
- **Full catalog files.** `lib/derivative/catalog.rb:13` expects a full file on the 1st of a month. `spec/unit/derivative/catalog_spec.rb:30-44` expects it on the last day. `Derivative.DerivativesForDate` states the code's behaviour.
- **Ingest files.** `lib/derivative/ingest_bibrecord.rb:16` uses `last_of_month?`. `spec/unit/derivative/ingest_bibrecord_spec.rb:21-27` and the post-Zephir verifier spec expect the 1st. `Derivative.IngestBibrecordsForDate` and `PostZephirVerifier.IngestOnLastDayOnly` state the code's behaviour.
- **Full delete files.** `lib/derivative/delete.rb:6` raises `ArgumentError` for `full: true`. `spec/unit/derivative/delete_spec.rb:53-56` expects a path instead. `Derivative.New` models the raise.
- **Dollar-dup datestamp.** `lib/derivative/dollar_dup.rb:19-21` stamps the day before. `spec/unit/derivative/dollar_dup_spec.rb:47-49` expects the run date's own stamp for run date 2023-11-30. `Derivative.DollarDupFileName` states the day before.
- **Journal duplicates.** `lib/journal.rb:22-26` sorts the dates but does not remove duplicates. `Journal.New` keeps them; its contract is a permutation, not a set.
- **The web hathifile directory.** `lib/derivative/hathifile_www.rb:29` gives the location as the Symbol `:WWW_DIR`. See "Findings".

## Left out

- HTTP, Faraday and URI building for the Solr queries: each query's response is an input, and so is the local time zone's rendering of the start of a day (`utcStart`).
- SQL: the `hf_log` names, the `hf` row count and the `rights_current` rows are inputs.
- gzip decompression, YAML loading and the parsing of JSON text. A file is its decompressed text; `JSON.parse` is an input function, `None` standing for `JSON::ParserError`.
- The logger and its `info` messages: they do not change any result.
- The parsing of the `config/env` file that `Dotenv.load` reads: the variables it defines are an input, none for a missing file.
- Invalid UTF-8: file contents are `string` values, so they are assumed to be valid UTF-8. The files are opened with `encoding: "utf-8"` (lib/verifier.rb:60, lib/verifier/hathifiles_contents.rb:81, lib/verifier/hathifiles_redirects_verifier.rb:31,41), and `match?` on a line with an invalid byte sequence raises `ArgumentError` (lib/verifier/hathifiles_contents.rb:96, lib/verifier/hathifiles_redirects_verifier.rb:32, lib/verifier/post_zephir.rb:91). That raise is not modelled.
- `PopulateRightsVerifier.FindMissing`: an htid without a dot is treated as having no row, and so it is reported as missing. `split(".", 2)` makes it a one-element array, and the two-column `IN` of `.where([:namespace, :id] => split_htids)` (lib/verifier/populate_rights.rb:62-65) is most likely rejected by the database with an error; that error is not modelled.
- The shell pipeline, FTP transfers and file moves of the producing side, and the one-off analysis scripts.
- The older duplicates of the verifiers (`lib/verifier/*_verifier.rb`, except the redirects verifier) and `lib/derivative/hathifile_derivative.rb`: `bin/verify.rb` does not load them.
- `lib/verifier/hathifiles_redirects.rb`, which `bin/verify.rb:11` requires, is not part of this model. `RedirectsVerifier` models `lib/verifier/hathifiles_redirects_verifier.rb` in its place.
- `Verifier::HathifileContents` is not in the list `run_verifiers` runs. It is modelled only as the contents check the hathifiles verifier calls.
- Ruby's switch to the Julian calendar before 15 October 1582: dates are proleptic Gregorian.
- `@all_dates ||=` and `@listings ||=` memoisation: the files do not change during a run, so every call gives the same value.
- `hf_log` lookups compare strings exactly; MySQL's collation is left out.
- `Datestamp.CompactRoundTrip`: round trips only years 0 to 9999, the years `%Y` writes with exactly four digits.
- `Journal.ParseEntry`: `Date.parse` is modelled only for eight-digit `YYYYMMDD` text and `YYYY-MM-DD` text. Any other text is `Date::Error`, although Ruby accepts many more forms.
- `CatalogIndexVerifier.Less`: JSON numbers are Integers only, so a Float `numFound` is not modelled.
- The hathifile field patterns are modelled for fields without newlines. `chomp` and `split` on a line that `each_line` yields guarantee this.
- Running `grep` on the monthly report: its exit status, its error text, and its output already read by `chomp.to_i` are inputs.

## Findings

| source | as written | input that shows it | evidently intended | confidence | as-written member | corrected member |
|---|---|---|---|---|---|---|
| lib/derivative/hathifile_www.rb:29 | the location of a web hathifile is the Symbol `:WWW_DIR`, and `File.join` raises `TypeError` on it, so the listing verifier raises before it checks anything | any run date, for example 2024-12-02 with `WWW_DIR` set | the directory in `ENV["WWW_DIR"]`, where `json_path` (lib/derivative/hathifile_www.rb:23-25) reads the listing | not executed | HathifilesListingVerifier.AsWrittenAlwaysRaises | HathifilesListingVerifier.ListingVerdict |
| bin/verify.rb:37 | `ARGV[0]` is passed on as a String, so every verifier raises `NoMethodError` on its first date method (`first_of_month?`, or `strftime` for redirects), and nothing is checked | the argument `2024-12-02` | the argument parsed as a date, as `Journal` parses one | not executed | RunVerifiers.AsWrittenIgnoresFiles | RunVerifiers.CommandLineDate |

The as-written behaviour for a String date is stated, not derived: the verifier models take a `Date`, so `RunVerifiers.StringDateReports` lists the exception each verifier raises first. Every `derivatives_for_date` calls `date.first_of_month?` (for example lib/derivative/catalog.rb:13 and lib/derivative/rights.rb:13), and the redirects verifier calls `date.strftime` in `redirects_file` (lib/verifier/hathifiles_redirects_verifier.rb:62).

=== FILE: calendar.dfy ===
/** Calendar dates in the proleptic Gregorian calendar: the part of Ruby's
    `Date` the pipeline uses (year, month, day, leap years, the next and the
    previous day, adding a number of days, and ordering). */
module Calendar {

  /** A year/month/day triple, valid or not. */
  datatype Ymd = Ymd(year: int, month: int, day: int)

  predicate IsLeapYear(y: int) {
    (y % 4 == 0 && y % 100 != 0) || y % 400 == 0
  }

  function DaysInMonth(y: int, m: int): (n: int)
    requires 1 <= m <= 12
    ensures 28 <= n <= 31
    ensures n == 29 <==> m == 2 && IsLeapYear(y)
  {
    if m == 2 then (if IsLeapYear(y) then 29 else 28)
    else if m == 4 || m == 6 || m == 9 || m == 11 then 30
    else 31
  }

  predicate IsValid(t: Ymd) {
    1 <= t.month <= 12 && 1 <= t.day <= DaysInMonth(t.year, t.month)
  }

  /** A Ruby `Date`: always a real calendar day. */
  type Date = t: Ymd | IsValid(t) witness Ymd(2000, 1, 1)

  /** Chronological order: `a` is strictly earlier than `b`. */
  predicate Before(a: Ymd, b: Ymd) {
    a.year < b.year
    || (a.year == b.year && a.month < b.month)
    || (a.year == b.year && a.month == b.month && a.day < b.day)
  }

  predicate NotAfter(a: Ymd, b: Ymd) {
    !Before(b, a)
  }

  predicate SameMonth(a: Ymd, b: Ymd) {
    a.year == b.year && a.month == b.month
  }

  /** `Date#next_day`. */
  function NextDay(d: Date): Date {
    if d.day < DaysInMonth(d.year, d.month) then Ymd(d.year, d.month, d.day + 1)
    else if d.month < 12 then Ymd(d.year, d.month + 1, 1)
    else Ymd(d.year + 1, 1, 1)
  }

  /** `Date#prev_day`. */
  function PrevDay(d: Date): Date {
    if d.day > 1 then Ymd(d.year, d.month, d.day - 1)
    else if d.month > 1 then Ymd(d.year, d.month - 1, DaysInMonth(d.year, d.month - 1))
    else Ymd(d.year - 1, 12, 31)
  }

  /** `date + n`: `n` days later (earlier for negative `n`). */
  function Shift(d: Date, n: int): Date
    decreases if n < 0 then -n else n
  {
    if n == 0 then d
    else if n > 0 then Shift(NextDay(d), n - 1)
    else Shift(PrevDay(d), n + 1)
  }

  /** The next day and the previous day undo each other. */
  lemma NextPrevInverse(d: Date)
    ensures PrevDay(NextDay(d)) == d
    ensures NextDay(PrevDay(d)) == d
  {
  }

  /** The next day is the immediate successor: later than `d`, and no date
      lies strictly between the two. */
  lemma NextDayIsSuccessor(d: Date)
    ensures Before(d, NextDay(d))
    ensures forall e: Date :: Before(d, e) ==> NotAfter(NextDay(d), e)
  {
  }

  /** The previous day is the immediate predecessor. */
  lemma PrevDayIsPredecessor(d: Date)
    ensures Before(PrevDay(d), d)
    ensures forall e: Date :: Before(e, d) ==> NotAfter(e, PrevDay(d))
  {
  }

  /** Going back one day with `Shift` is the previous day, and shifting by
      zero changes nothing. */
  lemma ShiftSmall(d: Date)
    ensures Shift(d, 0) == d
    ensures Shift(d, -1) == PrevDay(d)
    ensures Shift(d, 1) == NextDay(d)
  {
  }
}

=== FILE: catalog_index.dfy ===
/** `Verifier::CatalogIndex` (lib/verifier/catalog_index.rb): the catalog
    index (Solr) must hold at least as many records as each catalog archive
    file of the run date. The Solr queries are inputs: an answer is the
    `numFound` of the response, or a body that does not parse. */
module CatalogIndexVerifier {
  import opened Wrappers
  import opened Text
  import opened Calendar
  import opened Dates
  import opened Datestamp
  import L = Location
  import opened Json
  import opened FileSystem
  import opened Verifier
  import D = Derivative

  const C: Class := CatalogIndex

  /** What a query returns: the response body parsed, or a body that
      `JSON.parse` rejects, with the URL it came from, the body and the
      parser's message. */
  datatype SolrResponse =
    | Parsed(json: Json)
    | Unparseable(url: string, body: string, reason: string)

  /** What the check looks at: the environment, the files, the Solr
      response to each filter query, and
      `date.to_time.utc.strftime("%FT%TZ")`, which depends on the local
      time zone. */
  datatype World = World(env: L.Environment, fs: FileSystem, solr: string -> SolrResponse, utcStart: Date -> string)

  /** `CatalogArchive.derivatives_for_date(date:)` */
  function Of(d: Date): seq<D.Derivative> {
    D.DerivativesForDate(D.CatalogArchive, d).value
  }

  /** The filter query and its description in the error message: all
      undeleted records for a full file, the records indexed since the run
      date for an update. */
  function Query(w: World, x: D.Derivative): (string, string) {
    if x.full then ("deleted:false", "existed")
    else ("time_of_index:[" + w.utcStart(x.date) + " TO NOW]", "had time_of_indexing on " + Hyphenated(x.date))
  }

  /** `JSON.parse(body)["response"]["numFound"]` of a parsed response. */
  function NumFound(j: Json): Result<Json> {
    var response :- Index(j, "response");
    Index(response, "numFound")
  }

  /** `solr_result_count(filter_query)`: the value found, and the error
      logged when the response does not parse, which then counts as 0. */
  function SolrCount(w: World, fq: string): Result<(Json, Report)> {
    match w.solr(fq)
    case Parsed(j) =>
      var n :- NumFound(j);
      Success((n, Clean))
    case Unparseable(url, body, reason) =>
      Success((Number(0), Logged(C, "could not parse response from " + url + ": " + body + " (" + reason + ")")))
  }

  /** The count Solr answers a query with, when its response parses and
      holds an Integer `numFound`. */
  function Answer(w: World, fq: string): Option<int> {
    match w.solr(fq)
    case Parsed(j) => (match NumFound(j) case Success(Number(n)) => Some(n) case _ => None)
    case _ => None
  }

  /** `value < lines`: an Integer compares; nil, true, false and an Array
      have no `<`; a String is Comparable but not with an Integer; a Hash
      compares only with a Hash. */
  function Less(v: Json, lines: nat): (r: Result<bool>)
    ensures r.Success? <==> v.Number?
    ensures v.Number? ==> r.value == (v.n < lines)
  {
    match v
    case Number(n) => Success(n < lines)
    case Null => Failure(NoMethodError("undefined method '<' for nil"))
    case Bool(b) => Failure(NoMethodError("undefined method '<' for " + (if b then "true" else "false")))
    case Array(_) => Failure(NoMethodError("undefined method '<' for an instance of Array"))
    case Str(_) => Failure(ArgumentError("comparison of String with " + Decimal(lines) + " failed"))
    case Object(_) => Failure(TypeError("no implicit conversion of Integer into Hash"))
  }

  /** `Integer#to_s` */
  function IntegerText(n: int): string {
    if n < 0 then "-" + Decimal(-n) else Decimal(n)
  }

  function CountError(path: string, lines: nat, indexed: int, desc: string): string {
    path + " had " + Decimal(lines) + " records, but only " + IntegerText(indexed) + " " + desc + " in solr"
  }

  /** `verify_index_count(derivative:)` for the file at `path`. */
  function VerifyIndexCount(w: World, x: D.Derivative, path: string): Report {
    match GzipLineCount(w.fs, path)
    case Failure(e) => Raised(e)
    case Success(lines) =>
      var (fq, desc) := Query(w, x);
      match SolrCount(w, fq)
      case Failure(e) => Raised(e)
      case Success((v, log)) =>
        match Less(v, lines)
        case Failure(e) => Then(log, Raised(e))
        case Success(short) => Then(log, Flag(C, short, CountError(path, lines, v.n, desc)))
  }

  /** The loop body of `run_for_date`: only a verified file is counted. */
  function IndexStep(w: World): D.Derivative -> Report {
    x => WhenVerified(C, w.fs, D.PathAsWritten(w.env, x), path => VerifyIndexCount(w, x, path))
  }

  function RunForDate(w: World, d: Date): Report {
    ForEach(Of(d), IndexStep(w))
  }

  // ---------------------------------------------------------------------
  // Properties

  /** A full file is compared with every undeleted record; an update with
      the records indexed since the start of its run date. */
  lemma QueryChoice(w: World, x: D.Derivative)
    ensures x.full <==> Query(w, x).0 == "deleted:false"
    ensures !x.full ==> Query(w, x).0[..15] == "time_of_index:[" && w.utcStart(x.date) <= Query(w, x).0[15..]
  {
    if !x.full {
      assert Query(w, x).0[14] == '[';
      assert "deleted:false"[7] == ':';
    }
  }

  /** A response of the shape Solr sends answers with its `numFound`,
      whatever its header and documents. */
  lemma SolrShape(header: Json, k: int, docs: Json)
    ensures NumFound(Object([("responseHeader", header),
      ("response", Object([("numFound", Number(k)), ("start", Number(0)), ("docs", docs)]))])) == Success(Number(k))
  {
    var inner := [("numFound", Number(k)), ("start", Number(0)), ("docs", docs)];
    assert inner[..2][..1] == [("numFound", Number(k))];
    assert Lookup(inner[..2][..1], "numFound") == Number(k);
    assert Lookup(inner[..2], "numFound") == Number(k);
    assert Lookup(inner, "numFound") == Number(k);
  }

  /** A response that parses but holds no `"response"` (an error body)
      raises on the nil it finds, and nothing is logged. */
  lemma ErrorBodyRaises(w: World, x: D.Derivative, path: string, e: Json)
    requires Lines(w.fs, path).Success?
    requires w.solr(Query(w, x).0) == Parsed(Object([("error", e)]))
    ensures VerifyIndexCount(w, x, path) == Raised(NoMethodError("undefined method '[]' for nil"))
  {
    assert Lookup([("error", e)], "response") == Null;
  }

  /** With a count from Solr, the check never raises and logs one error
      exactly when the index holds fewer records than the file has lines. */
  lemma AnsweredVerdict(w: World, x: D.Derivative, path: string)
    requires Lines(w.fs, path).Success?
    requires Answer(w, Query(w, x).0).Some?
    ensures var lines := |Lines(w.fs, path).value|;
      var indexed := Answer(w, Query(w, x).0).value;
      VerifyIndexCount(w, x, path) == Flag(C, indexed < lines, CountError(path, lines, indexed, Query(w, x).1))
  {
    var indexed := Answer(w, Query(w, x).0).value;
    var lines := |Lines(w.fs, path).value|;
    AnswerCounts(w, Query(w, x).0);
    assert GzipLineCount(w.fs, path) == Success(lines);
    ThenLaws(Flag(C, indexed < lines, CountError(path, lines, indexed, Query(w, x).1)), Clean, Clean);
  }

  /** A count from Solr is the value `solr_result_count` returns, and
      nothing is logged. */
  lemma AnswerCounts(w: World, fq: string)
    requires Answer(w, fq).Some?
    ensures SolrCount(w, fq) == Success((Number(Answer(w, fq).value), Clean))
  {
  }

  /** A response that does not parse is logged, and then counts as an
      empty index: a file with lines gets the count error as well. */
  lemma UnparseableVerdict(w: World, x: D.Derivative, path: string)
    requires Lines(w.fs, path).Success?
    requires w.solr(Query(w, x).0).Unparseable?
    ensures var lines := |Lines(w.fs, path).value|;
      var a := w.solr(Query(w, x).0);
      && VerifyIndexCount(w, x, path).raised.None?
      && VerifyIndexCount(w, x, path).errors[0] == Entry(C, "could not parse response from " + a.url + ": " + a.body + " (" + a.reason + ")")
      && |VerifyIndexCount(w, x, path).errors| == if lines == 0 then 1 else 2
  {
  }

  /** A catalog file that cannot be verified is reported by `verify_file`
      alone, and Solr is not asked. */
  lemma UnreadableCatalog(w: World, x: D.Derivative, path: string)
    requires D.PathAsWritten(w.env, x) == Success(path)
    requires !Readable(w.fs, path)
    ensures IndexStep(w)(x) == Logged(C, FileProblem(w.fs, path))
  {
    VerifyFileFlags(C, w.fs, path);
  }

  /** The file of `x` has a path and can be read, and Solr answers its
      query with a count. */
  predicate Answered(w: World, x: D.Derivative) {
    D.PathAsWritten(w.env, x).Success? && Lines(w.fs, D.PathAsWritten(w.env, x).value).Success?
    && Answer(w, Query(w, x).0).Some?
  }

  /** The index holds at least as many records as the file has lines. */
  predicate Covered(w: World, x: D.Derivative)
    requires Answered(w, x)
  {
    |Lines(w.fs, D.PathAsWritten(w.env, x).value).value| <= Answer(w, Query(w, x).0).value
  }

  lemma StepVerdict(w: World, x: D.Derivative)
    requires Answered(w, x)
    ensures IndexStep(w)(x) == Clean <==> Covered(w, x)
  {
    var path := D.PathAsWritten(w.env, x).value;
    assert Readable(w.fs, path);
    assert IndexStep(w)(x) == VerifyIndexCount(w, x, path);
    AnsweredVerdict(w, x, path);
  }

  /** With every catalog file readable and every answer a count, the run
      date passes exactly when the index holds at least as many records as
      each file has lines. */
  lemma RunForDateVerdict(w: World, d: Date)
    requires forall x :: x in Of(d) ==> Answered(w, x)
    ensures RunForDate(w, d) == Clean <==> forall x :: x in Of(d) ==> Covered(w, x)
  {
    var xs := Of(d);
    forall i | 0 <= i < |xs| ensures IndexStep(w)(xs[i]) == Clean <==> Covered(w, xs[i]) {
      StepVerdict(w, xs[i]);
    }
    ForEachClean(xs, IndexStep(w));
  }
}

=== FILE: date_seqs.dfy ===
/** The array operations the finders and the journal apply to dates:
    `sort`, `uniq`, `Array#-`, `min`, and "the earliest date missing from
    any of several categories". */
module DateSeqs {
  import opened Wrappers
  import opened Calendar

  /** Chronological order is total: of two different dates one is earlier. */
  lemma BeforeIsTotal(a: Date, b: Date)
    ensures a == b || Before(a, b) || Before(b, a)
    ensures !(Before(a, b) && Before(b, a))
    ensures NotAfter(a, b) && NotAfter(b, a) ==> a == b
  {
  }

  lemma NotAfterIsTransitive(a: Date, b: Date, c: Date)
    requires NotAfter(a, b) && NotAfter(b, c)
    ensures NotAfter(a, c)
  {
  }

  lemma FirstIsMember<T>(s: seq<T>)
    ensures |s| > 0 ==> s[0] in s
  {
  }

  predicate Ascending(s: seq<Date>) {
    forall i, j :: 0 <= i < j < |s| ==> NotAfter(s[i], s[j])
  }

  predicate StrictlyAscending(s: seq<Date>) {
    forall i, j :: 0 <= i < j < |s| ==> Before(s[i], s[j])
  }

  /** No element occurs twice. */
  predicate Distinct<T(==)>(s: seq<T>) {
    forall i, j :: 0 <= i < j < |s| ==> s[i] != s[j]
  }

  /** Places `x` in an ascending sequence. */
  function Insert(x: Date, s: seq<Date>): (r: seq<Date>)
    requires Ascending(s)
    ensures Ascending(r)
    ensures multiset(r) == multiset(s) + multiset{x}
  {
    if |s| == 0 then [x]
    else if NotAfter(x, s[0]) then [x] + s
    else
      var t := Insert(x, s[1..]);
      assert s == [s[0]] + s[1..];
      forall k | 0 <= k < |t| ensures NotAfter(s[0], t[k]) {
        assert t[k] in multiset(t);
        if t[k] != x {
          assert t[k] in multiset(s[1..]);
          var j :| 0 <= j < |s[1..]| && s[1..][j] == t[k];
          assert s[1 + j] == t[k];
        }
      }
      [s[0]] + t
  }

  /** `Array#sort` on dates. */
  function Sort(s: seq<Date>): (r: seq<Date>)
    ensures Ascending(r)
    ensures multiset(r) == multiset(s)
    ensures |r| == |s|
  {
    if |s| == 0 then []
    else
      assert s == [s[0]] + s[1..];
      var r := Insert(s[0], Sort(s[1..]));
      assert |r| == |multiset(r)|;
      r
  }

  /** The first element of an ascending sequence is a least element of its
      contents. */
  lemma HeadIsLeast(s: seq<Date>, x: Date)
    requires Ascending(s) && |s| > 0 && x in multiset(s)
    ensures NotAfter(s[0], x)
  {
    var j :| 0 <= j < |s| && s[j] == x;
    if j > 0 {
      assert NotAfter(s[0], s[j]);
    }
  }

  /** There is only one ascending arrangement of a collection of dates, so
      `sort` is determined by its contents alone. */
  lemma {:induction false} AscendingPermutationIsUnique(a: seq<Date>, b: seq<Date>)
    requires Ascending(a) && Ascending(b)
    requires multiset(a) == multiset(b)
    ensures a == b
    decreases |a|
  {
    assert |b| == |multiset(b)| == |multiset(a)| == |a|;
    if |a| > 0 {
      AscendingHeadsAgree(a, b);
      TailsShareElements(a, b);
      AscendingPermutationIsUnique(a[1..], b[1..]);
      assert a == [a[0]] + a[1..] && b == [b[0]] + b[1..];
    }
  }

  /** Two ascending arrangements of one collection start alike. */
  lemma AscendingHeadsAgree(a: seq<Date>, b: seq<Date>)
    requires Ascending(a) && Ascending(b)
    requires multiset(a) == multiset(b) && |a| > 0 && |b| > 0
    ensures a[0] == b[0]
  {
    assert a[0] in multiset(b) && b[0] in multiset(a);
    HeadIsLeast(a, b[0]);
    HeadIsLeast(b, a[0]);
    BeforeIsTotal(a[0], b[0]);
  }

  lemma TailsShareElements<T>(a: seq<T>, b: seq<T>)
    requires |a| > 0 && |b| > 0 && a[0] == b[0] && multiset(a) == multiset(b)
    ensures multiset(a[1..]) == multiset(b[1..])
  {
    assert a == [a[0]] + a[1..] && b == [b[0]] + b[1..];
    assert multiset(a) == multiset{a[0]} + multiset(a[1..]);
    assert multiset(b) == multiset{b[0]} + multiset(b[1..]);
    assert multiset(a[1..]) == multiset(a) - multiset{a[0]};
  }

  /** Sorting an already ascending sequence changes nothing. */
  lemma SortOfAscending(s: seq<Date>)
    requires Ascending(s)
    ensures Sort(s) == s
  {
    AscendingPermutationIsUnique(Sort(s), s);
  }

  /** `Array#uniq`: the first occurrence of each element, in order. */
  function Uniq<T(==,!new)>(s: seq<T>): (r: seq<T>)
    ensures Distinct(r)
    ensures forall x :: x in r <==> x in s
    ensures |r| <= |s|
  {
    if |s| == 0 then []
    else
      var u := Uniq(s[..|s| - 1]);
      assert forall x :: x in s <==> x in s[..|s| - 1] || x == s[|s| - 1];
      if s[|s| - 1] in u then u else u + [s[|s| - 1]]
  }

  /** `uniq` of something without repetitions is the identity. */
  lemma {:induction false} UniqOfDistinct<T(!new)>(s: seq<T>)
    requires Distinct(s)
    ensures Uniq(s) == s
  {
    if |s| > 0 {
      var p := s[..|s| - 1];
      assert Distinct(p);
      UniqOfDistinct(p);
      assert s[|s| - 1] !in p;
      assert s == p + [s[|s| - 1]];
    }
  }

  /** `sort.uniq` of dates is strictly ascending. */
  lemma {:induction false} UniqOfAscending(s: seq<Date>)
    requires Ascending(s)
    ensures StrictlyAscending(Uniq(s))
  {
    if |s| > 0 {
      var p := s[..|s| - 1];
      var last := s[|s| - 1];
      assert Ascending(p);
      UniqOfAscending(p);
      var u := Uniq(p);
      if last !in u {
        forall k | 0 <= k < |u| ensures Before(u[k], last) {
          assert u[k] in p;
          var j :| 0 <= j < |p| && p[j] == u[k];
          assert NotAfter(s[j], s[|s| - 1]);
          BeforeIsTotal(u[k], last);
        }
      }
    }
  }

  /** `Array#sort.uniq` */
  function SortUniq(s: seq<Date>): (r: seq<Date>)
    ensures StrictlyAscending(r)
    ensures forall x :: x in r <==> x in s
  {
    UniqOfAscending(Sort(s));
    assert forall x :: x in Sort(s) <==> x in multiset(s);
    Uniq(Sort(s))
  }

  /** A strictly ascending sequence is determined by its elements. */
  lemma {:induction false} StrictlyAscendingIsUnique(a: seq<Date>, b: seq<Date>)
    requires StrictlyAscending(a) && StrictlyAscending(b)
    requires forall x :: x in a <==> x in b
    ensures a == b
    decreases |a|
  {
    if |a| == 0 {
      FirstIsMember(b);
    } else {
      assert a[0] in b;
      assert |b| > 0;
      assert b[0] in a;
      var i :| 0 <= i < |b| && b[i] == a[0];
      var j :| 0 <= j < |a| && a[j] == b[0];
      assert i > 0 ==> Before(b[0], b[i]);
      assert j > 0 ==> Before(a[0], a[j]);
      BeforeIsTotal(a[0], b[0]);
      assert a[0] == b[0];
      forall x ensures x in a[1..] <==> x in b[1..] {
        if x in a[1..] {
          var k :| 1 <= k < |a| && a[k] == x;
          assert Before(a[0], a[k]);
          assert x in b;
        }
        if x in b[1..] {
          var k :| 1 <= k < |b| && b[k] == x;
          assert Before(b[0], b[k]);
          assert x in a;
        }
      }
      StrictlyAscendingIsUnique(a[1..], b[1..]);
    }
  }

  /** `Array#-`: the elements of `a` that are not in `b`, in order,
      repetitions kept. */
  function Minus<T(==,!new)>(a: seq<T>, b: seq<T>): (r: seq<T>)
    ensures forall x :: x in r <==> x in a && x !in b
    ensures |r| <= |a|
  {
    if |a| == 0 then []
    else
      assert forall x :: x in a <==> x == a[0] || x in a[1..];
      (if a[0] in b then [] else [a[0]]) + Minus(a[1..], b)
  }

  /** `Array#min`: nil for an empty array. */
  function Least(s: seq<Date>): (r: Option<Date>)
    ensures r.None? <==> |s| == 0
    ensures r.Some? ==> r.value in s
    ensures r.Some? ==> forall x :: x in s ==> NotAfter(r.value, x)
  {
    if |s| == 0 then None
    else
      match Least(s[1..])
      case None => Some(s[0])
      case Some(m) =>
        BeforeIsTotal(s[0], m);
        assert forall x :: x in s ==> x == s[0] || x in s[1..];
        if NotAfter(s[0], m) then Some(s[0]) else Some(m)
  }

  /** A date required in a category but not present in it. */
  predicate MissingFrom(required: seq<Date>, present: seq<Date>, x: Date) {
    x in required && x !in present
  }

  /** Per category among the first `n`, the earliest missing date, for the
      categories that miss any: `earliest << delta.min if delta.any?`. */
  function EarliestPerCategory(required: seq<seq<Date>>, present: seq<seq<Date>>, n: nat): (r: seq<Date>)
    requires |required| == |present| && n <= |required|
  {
    if n == 0 then []
    else
      var delta := Minus(required[n - 1], present[n - 1]);
      EarliestPerCategory(required, present, n - 1) + (if |delta| > 0 then [Least(delta).value] else [])
  }

  /** Each candidate is missing somewhere, and below every missing date
      there is a candidate. */
  lemma {:induction false} EarliestPerCategoryCovers(required: seq<seq<Date>>, present: seq<seq<Date>>, n: nat)
    requires |required| == |present| && n <= |required|
    ensures forall c :: c in EarliestPerCategory(required, present, n) ==>
      exists i :: 0 <= i < n && MissingFrom(required[i], present[i], c)
    ensures forall i, x: Date :: 0 <= i < n && MissingFrom(required[i], present[i], x) ==>
      exists c :: c in EarliestPerCategory(required, present, n) && NotAfter(c, x)
  {
    if n > 0 {
      var delta := Minus(required[n - 1], present[n - 1]);
      var prev := EarliestPerCategory(required, present, n - 1);
      EarliestPerCategoryCovers(required, present, n - 1);
      var r := EarliestPerCategory(required, present, n);
      assert r == prev + (if |delta| > 0 then [Least(delta).value] else []);
      forall c | c in r ensures exists i :: 0 <= i < n && MissingFrom(required[i], present[i], c) {
        if c in prev {
          var i :| 0 <= i < n - 1 && MissingFrom(required[i], present[i], c);
        } else {
          assert MissingFrom(required[n - 1], present[n - 1], c);
        }
      }
      forall i, x: Date | 0 <= i < n && MissingFrom(required[i], present[i], x)
        ensures exists c :: c in r && NotAfter(c, x)
      {
        if i == n - 1 {
          assert x in delta;
          assert Least(delta).value in r;
        } else {
          var c :| c in prev && NotAfter(c, x);
          assert c in r;
        }
      }
    }
  }

  /** The least candidate is below every missing date. */
  lemma LeastCandidateIsBelow(candidates: seq<Date>, x: Date)
    requires exists c :: c in candidates && NotAfter(c, x)
    ensures Least(candidates).Some? && NotAfter(Least(candidates).value, x)
  {
    var c :| c in candidates && NotAfter(c, x);
    NotAfterIsTransitive(Least(candidates).value, c, x);
  }

  /** `earliest.min` over the categories: nil exactly when every category
      has everything it requires; otherwise a missing date below which no
      category misses anything. */
  function EarliestMissing(required: seq<seq<Date>>, present: seq<seq<Date>>): (r: Option<Date>)
    requires |required| == |present|
    ensures r.None? <==> forall i, x: Date :: 0 <= i < |required| ==> !MissingFrom(required[i], present[i], x)
    ensures r.Some? ==> exists i :: 0 <= i < |required| && MissingFrom(required[i], present[i], r.value)
    ensures r.Some? ==> forall i, x: Date :: 0 <= i < |required| && MissingFrom(required[i], present[i], x) ==> NotAfter(r.value, x)
  {
    var candidates := EarliestPerCategory(required, present, |required|);
    EarliestPerCategoryCovers(required, present, |required|);
    forall i, x: Date | 0 <= i < |required| && MissingFrom(required[i], present[i], x)
      ensures Least(candidates).Some? && NotAfter(Least(candidates).value, x)
    {
      LeastCandidateIsBelow(candidates, x);
    }
    Least(candidates)
  }
}

=== FILE: dates.dfy ===
/** The monthly cycle window (lib/dates.rb): the first and last day of a
    month, and the run dates "of interest" for a reference date, which are
    the first of its month up to the reference date itself. The window
    starts on the 1st: that is what the code does, whatever its comment says
    about the last of the month. */
module Dates {
  import opened Calendar

  /** `Date#first_of_month?` */
  predicate IsFirstOfMonth(d: Date) {
    d.day == 1
  }

  /** `Date#last_of_month?`: the next day falls in another month. */
  predicate IsLastOfMonth(d: Date) {
    NextDay(d).month != d.month
  }

  /** `Dates#first_of_month`: day 1 of the reference date's month. */
  function FirstOfMonth(d: Date): Date {
    Ymd(d.year, d.month, 1)
  }

  /** Days 1 to `n` of month `m` of year `y`, in order. */
  function MonthPrefix(y: int, m: int, n: int): (r: seq<Date>)
    requires 1 <= m <= 12 && 0 <= n <= DaysInMonth(y, m)
    ensures |r| == n
    ensures forall i :: 0 <= i < n ==> r[i] == Ymd(y, m, i + 1)
  {
    if n == 0 then [] else MonthPrefix(y, m, n - 1) + [Ymd(y, m, n)]
  }

  /** `Dates#all_dates`: `(first_of_month..date).to_a.sort`. */
  function AllDates(d: Date): seq<Date> {
    MonthPrefix(d.year, d.month, d.day)
  }

  /** `last_of_month?` holds exactly on the month's last day, which is the
      29th of February in a leap year. */
  lemma LastOfMonthIsLastDay(d: Date)
    ensures IsLastOfMonth(d) <==> d.day == DaysInMonth(d.year, d.month)
    ensures d.month == 2 && IsLeapYear(d.year) ==> (IsLastOfMonth(d) <==> d.day == 29)
  {
  }

  /** Dually, `first_of_month?` holds exactly when the previous day falls in
      another month. */
  lemma FirstOfMonthIsAfterMonthChange(d: Date)
    ensures IsFirstOfMonth(d) <==> PrevDay(d).month != d.month
  {
  }

  /** Every month has exactly one last day. */
  lemma OneLastDayPerMonth(y: int, m: int)
    requires 1 <= m <= 12
    ensures IsLastOfMonth(Ymd(y, m, DaysInMonth(y, m)))
    ensures forall d: Date :: SameMonth(d, Ymd(y, m, 1)) && IsLastOfMonth(d) ==> d.day == DaysInMonth(y, m)
  {
  }

  /** The first of the month is the cycle start: a 1st, in `d`'s month, not
      after `d`, and the latest 1st that is not after `d`. */
  lemma FirstOfMonthIsCycleStart(d: Date)
    ensures IsFirstOfMonth(FirstOfMonth(d)) && SameMonth(FirstOfMonth(d), d)
    ensures NotAfter(FirstOfMonth(d), d)
    ensures forall e: Date :: IsFirstOfMonth(e) && NotAfter(e, d) ==> NotAfter(e, FirstOfMonth(d))
  {
  }

  /** The window is non-empty, runs from the first of the month to `d` in
      one-day steps, has `d.day` elements, and stays in `d`'s month. */
  lemma AllDatesShape(d: Date)
    ensures |AllDates(d)| == d.day >= 1
    ensures AllDates(d)[0] == FirstOfMonth(d)
    ensures AllDates(d)[|AllDates(d)| - 1] == d
    ensures forall i :: 0 <= i < |AllDates(d)| - 1 ==> AllDates(d)[i + 1] == NextDay(AllDates(d)[i])
    ensures forall i, j :: 0 <= i < j < |AllDates(d)| ==> Before(AllDates(d)[i], AllDates(d)[j])
    ensures forall e :: e in AllDates(d) ==> SameMonth(e, d)
  {
  }

  /** The window holds exactly the dates of the closed interval from the
      first of the month to `d`. */
  lemma AllDatesIsInterval(d: Date)
    ensures forall e: Date :: e in AllDates(d) <==> NotAfter(FirstOfMonth(d), e) && NotAfter(e, d)
  {
    forall e: Date | NotAfter(FirstOfMonth(d), e) && NotAfter(e, d)
      ensures e in AllDates(d)
    {
      assert AllDates(d)[e.day - 1] == e;
    }
  }

  /** On a 1st the window is the reference date alone; on any later day it
      has more than one date. */
  lemma AllDatesOnFirst(d: Date)
    ensures AllDates(d) == [d] <==> IsFirstOfMonth(d)
    ensures !IsFirstOfMonth(d) ==> |AllDates(d)| > 1
  {
    if IsFirstOfMonth(d) {
      assert AllDates(d)[0] == d;
    }
  }
}

=== FILE: datestamp.dfy ===
/** The two textual forms of a date that appear in file names and in the
    journal: `strftime("%Y%m%d")` and `strftime("%Y-%m-%d")`, the basic and
    extended complete calendar-date representations of ISO 8601:2004
    section 4.1.2.2, and their parsing back into dates. */
module Datestamp {
  import opened Wrappers
  import opened Text
  import opened Calendar

  /** `%Y`: at least four digits, zero-padded; a negative year gets a minus
      sign in front of four padded digits. */
  function FormatYear(y: int): string {
    if y >= 0 then Pad(y, 4) else "-" + Pad(-y, 4)
  }

  /** `strftime("%Y%m%d")` */
  function Compact(d: Date): string {
    FormatYear(d.year) + Pad(d.month, 2) + Pad(d.day, 2)
  }

  /** `strftime("%Y-%m-%d")` */
  function Hyphenated(d: Date): string {
    FormatYear(d.year) + "-" + Pad(d.month, 2) + "-" + Pad(d.day, 2)
  }

  /** Years written with exactly four digits by `%Y`. */
  predicate HasFourDigitYear(d: Ymd) {
    0 <= d.year <= 9999
  }

  /** `Date.parse` of an eight-digit string: year, month and day taken from
      the digits; an impossible date is rejected (`Date::Error`). */
  function ParseCompact(s: string): Option<Date> {
    if |s| == 8 && AllDigits(s) then
      var t := Ymd(DigitsValue(s[..4]), DigitsValue(s[4..6]), DigitsValue(s[6..]));
      if IsValid(t) then Some(t) else None
    else None
  }

  /** `Date.parse` of a `dddd-dd-dd` string. */
  function ParseHyphenated(s: string): Option<Date> {
    if |s| == 10 && s[4] == '-' && s[7] == '-'
      && AllDigits(s[..4]) && AllDigits(s[5..7]) && AllDigits(s[8..]) then
      var t := Ymd(DigitsValue(s[..4]), DigitsValue(s[5..7]), DigitsValue(s[8..]));
      if IsValid(t) then Some(t) else None
    else None
  }

  lemma {:induction false} DigitsValueBound(t: string)
    requires AllDigits(t)
    ensures DigitsValue(t) < Pow10(|t|)
    decreases |t|
  {
    if |t| > 0 {
      DigitsValueBound(t[..|t| - 1]);
    }
  }

  /** Two digit strings of one length that denote the same number are equal. */
  lemma {:induction false} DigitsUnique(a: string, b: string)
    requires AllDigits(a) && AllDigits(b) && |a| == |b|
    requires DigitsValue(a) == DigitsValue(b)
    ensures a == b
    decreases |a|
  {
    if |a| > 0 {
      var n := |a| - 1;
      assert DigitValue(a[n]) == DigitsValue(a) % 10;
      assert DigitValue(b[n]) == DigitsValue(b) % 10;
      DigitsUnique(a[..n], b[..n]);
      assert a == a[..n] + [a[n]];
      assert b == b[..n] + [b[n]];
    }
  }

  /** A digit string is the padded numeral of its own value. */
  lemma PadOfDigits(t: string)
    requires AllDigits(t) && |t| >= 1
    ensures Pad(DigitsValue(t), |t|) == t
  {
    DigitsValueBound(t);
    DigitsUnique(Pad(DigitsValue(t), |t|), t);
  }

  /** A date with a four-digit year is written as eight digits, and
      `Date.parse` gives the date back. */
  lemma CompactRoundTrip(d: Date)
    requires HasFourDigitYear(d)
    ensures |Compact(d)| == 8 && AllDigits(Compact(d))
    ensures ParseCompact(Compact(d)) == Some(d)
  {
    var y, m, n := Pad(d.year, 4), Pad(d.month, 2), Pad(d.day, 2);
    CompactPieces(y, m, n);
    assert Compact(d) == y + m + n;
  }

  lemma CompactPieces(y: string, m: string, n: string)
    requires |y| == 4 && |m| == 2 && |n| == 2
    ensures var s := y + m + n;
      |s| == 8 && s[..4] == y && s[4..6] == m && s[6..] == n
    ensures AllDigits(y) && AllDigits(m) && AllDigits(n) ==> AllDigits(y + m + n)
  {
    var s := y + m + n;
    assert forall i :: 0 <= i < 8 ==> s[i] == if i < 4 then y[i] else if i < 6 then m[i - 4] else n[i - 6];
  }

  /** Conversely, every eight-digit string that parses is the compact form
      of the date it parses to: the two are inverse bijections. */
  lemma ParseCompactInverse(s: string, d: Date)
    requires ParseCompact(s) == Some(d)
    ensures HasFourDigitYear(d)
    ensures Compact(d) == s
  {
    var y, m, n := s[..4], s[4..6], s[6..];
    PadOfDigits(y);
    PadOfDigits(m);
    PadOfDigits(n);
    DigitsValueBound(y);
    CompactPieces(y, m, n);
    assert s == y + m + n;
  }

  /** The hyphenated form is ten characters and parses back to the date. */
  lemma HyphenatedRoundTrip(d: Date)
    requires HasFourDigitYear(d)
    ensures |Hyphenated(d)| == 10
    ensures ParseHyphenated(Hyphenated(d)) == Some(d)
  {
    var y, m, n := Pad(d.year, 4), Pad(d.month, 2), Pad(d.day, 2);
    HyphenatedPieces(y, m, n);
    assert Hyphenated(d) == y + "-" + m + "-" + n;
  }

  lemma HyphenatedPieces(y: string, m: string, n: string)
    requires |y| == 4 && |m| == 2 && |n| == 2
    ensures var s := y + "-" + m + "-" + n;
      |s| == 10 && s[..4] == y && s[4] == '-' && s[5..7] == m && s[7] == '-' && s[8..] == n
  {
  }

  /** Different dates never share a compact form. */
  lemma CompactInjective(a: Date, b: Date)
    requires HasFourDigitYear(a) && HasFourDigitYear(b)
    requires Compact(a) == Compact(b)
    ensures a == b
  {
    CompactRoundTrip(a);
    CompactRoundTrip(b);
  }

  /** Text made of digits and minus signs only. */
  predicate IsStampText(s: string) {
    forall i :: 0 <= i < |s| ==> IsDigit(s[i]) || s[i] == '-'
  }

  lemma StampTextConcat(a: string, b: string)
    requires IsStampText(a) && IsStampText(b)
    ensures IsStampText(a + b)
  {
    forall i | 0 <= i < |a + b| ensures IsDigit((a + b)[i]) || (a + b)[i] == '-' {
      if i < |a| { assert (a + b)[i] == a[i]; } else { assert (a + b)[i] == b[i - |a|]; }
    }
  }

  /** No form of a date contains a letter, so a substituted stamp can never
      be taken for a placeholder. */
  lemma StampsHaveNoLetters(d: Date)
    ensures IsStampText(Compact(d)) && IsStampText(Hyphenated(d))
  {
    var y, m, n := FormatYear(d.year), Pad(d.month, 2), Pad(d.day, 2);
    if d.year < 0 {
      StampTextConcat("-", Pad(-d.year, 4));
    }
    assert IsStampText(y) && IsStampText(m) && IsStampText(n) && IsStampText("-");
    StampTextConcat(y, m);
    StampTextConcat(y + m, n);
    assert Compact(d) == y + m + n;
    StampTextConcat(y, "-");
    StampTextConcat(y + "-", m);
    StampTextConcat(y + "-" + m, "-");
    StampTextConcat(y + "-" + m + "-", n);
    assert Hyphenated(d) == y + "-" + m + "-" + n;
  }
}

=== FILE: derivative.dfy ===
/** Derivatives (lib/derivative.rb and the files under lib/derivative): the files the
    monthly cycle produces, one kind per subclass, each identified by a run
    date and a full/update flag. A derivative knows its datestamp (the run
    date shifted by the kind's delta), its file name (a template stamped
    with the datestamp) and its path (the name under the kind's location). */
module Derivative {
  import opened Wrappers
  import opened Calendar
  import opened Dates
  import opened Datestamp
  import opened Text
  import opened Template
  import opened Paths
  import opened Location

  datatype Kind =
    | CatalogArchive  // Derivative::CatalogArchive
    | CatalogPrep     // Derivative::CatalogPrep
    | Rights          // Derivative::Rights
    | Delete          // Derivative::Delete
    | DollarDup       // Derivative::DollarDup
    | HTBibExport     // Derivative::HTBibExport
    | Hathifile       // Derivative::Hathifile
    | HathifileWWW    // Derivative::HathifileWWW

  datatype Derivative = Derivative(kind: Kind, date: Date, full: bool)

  /** Deletes and dollar-dup files only come as updates. */
  predicate HasFullVersion(k: Kind) {
    k != Delete && k != DollarDup
  }

  /** `Kind.new(date:, full:)`: the update-only kinds refuse `full: true`. */
  function New(k: Kind, date: Date, full: bool): (r: Result<Derivative>)
    ensures r.Failure? <==> full && !HasFullVersion(k)
    ensures r.Failure? ==> r.error.ArgumentError?
    ensures r.Success? ==> r.value.kind == k && r.value.date == date && r.value.full == full
  {
    if full && k == Delete then Failure(ArgumentError("'deletes' has no full version"))
    else if full && k == DollarDup then Failure(ArgumentError("'dollar dup' has no full version"))
    else Success(Derivative(k, date, full))
  }

  /** A derivative the constructors accept. */
  predicate IsWellFormed(x: Derivative) {
    x.full ==> HasFullVersion(x.kind)
  }

  /** Days between the run date and the datestamp on the file: the files
      made from Zephir's nightly export carry the previous day's date. */
  function DatestampDelta(k: Kind): int {
    if k == Hathifile || k == HathifileWWW then 0 else -1
  }

  function DatestampOf(x: Derivative): Date {
    Shift(x.date, DatestampDelta(x.kind))
  }

  /** The text of `template[:name]` before its placeholder. */
  function NamePrefix(k: Kind, full: bool): string {
    match k
    case CatalogArchive | CatalogPrep | Rights => if full then "zephir_full_" else "zephir_upd_"
    case Delete => "zephir_upd_"
    case DollarDup => "vufind_incremental_"
    case HTBibExport => if full then "ht_bib_export_full_" else "ht_bib_export_incr_"
    case Hathifile | HathifileWWW => if full then "hathi_full_" else "hathi_upd_"
  }

  /** The text of `template[:name]` after its placeholder. */
  function NameSuffix(k: Kind, full: bool): string {
    match k
    case CatalogArchive | CatalogPrep => if full then "_vufind.json.gz" else ".json.gz"
    case Rights => ".rights"
    case Delete => "_delete.txt.gz"
    case DollarDup => "_dollar_dup.txt.gz"
    case HTBibExport => ".json.gz"
    case Hathifile | HathifileWWW => ".txt.gz"
  }

  /** The kinds whose template holds `YYYY-MM-DD` rather than `YYYYMMDD`. */
  predicate HasHyphenatedStamp(k: Kind) {
    k == DollarDup || k == HTBibExport
  }

  /** `template[:name]` */
  function FilenameTemplate(k: Kind, full: bool): string {
    NamePrefix(k, full)
      + (if HasHyphenatedStamp(k) then HyphenatedPlaceholder else CompactPlaceholder)
      + NameSuffix(k, full)
  }

  /** The datestamp as the kind's template writes it. */
  function StampText(k: Kind, d: Date): string {
    if HasHyphenatedStamp(k) then Hyphenated(d) else Compact(d)
  }

  /** `template[:location]` */
  function LocationOf(k: Kind, full: bool): Loc {
    match k
    case CatalogArchive => EnvVar("CATALOG_ARCHIVE")
    case CatalogPrep | Delete => EnvVar("CATALOG_PREP")
    case Rights => OrElse(EnvVar("RIGHTS_ARCHIVE"), Under(EnvFetch("RIGHTS_DIR"), "archive"))
    case DollarDup => OrElse(EnvVar("TMPDIR"), Under(EnvVar("DATA_ROOT"), "work"))
    case HTBibExport => if full then EnvVar("ZEPHIR_DATA") else EnvVar("TMPDIR")
    case Hathifile => EnvVar("HATHIFILE_ARCHIVE")
    case HathifileWWW => Symbol("WWW_DIR")
  }

  /** `datestamped_file`: the two case-insensitive `sub` calls on the
      template. */
  function DatestampedFile(x: Derivative): string {
    Stamp(FilenameTemplate(x.kind, x.full), DatestampOf(x))
  }

  /** The file name as the text around the placeholder with the datestamp
      in between; `DatestampedFileShape` shows it is what the `sub` calls
      compute, and the paths below are built from it. */
  function FileName(x: Derivative): string {
    NamePrefix(x.kind, x.full) + StampText(x.kind, DatestampOf(x)) + NameSuffix(x.kind, x.full)
  }

  /** `path` as written: the web-directory location is the Symbol `:WWW_DIR`,
      which `File.join` rejects. */
  function PathAsWritten(env: Environment, x: Derivative): Result<string> {
    PathIn(env, LocationOf(x.kind, x.full), FileName(x), false)
  }

  /** `path` with the web-directory Symbol read as the `WWW_DIR` variable,
      like the listing's `json_path` does. */
  function PathOf(env: Environment, x: Derivative): Result<string> {
    PathIn(env, LocationOf(x.kind, x.full), FileName(x), true)
  }

  /** `Kind.derivatives_for_date(date:)`; HTBibExport does not override the
      base class and answers nil. */
  function DerivativesForDate(k: Kind, d: Date): (r: Option<seq<Derivative>>)
    ensures r.None? <==> k == HTBibExport
    ensures r.Some? ==> |r.value| >= 1 && r.value[0] == Derivative(k, d, false)
    ensures r.Some? ==> forall full :: Derivative(k, d, full) in r.value <==> !full || (HasFullVersion(k) && IsFirstOfMonth(d))
    ensures r.Some? ==> forall x :: x in r.value ==> x.kind == k && x.date == d && New(k, d, x.full) == Success(x)
  {
    if k == HTBibExport then None
    else if HasFullVersion(k) && IsFirstOfMonth(d) then Some([Derivative(k, d, false), Derivative(k, d, true)])
    else Some([Derivative(k, d, false)])
  }

  /** `IngestBibrecord.derivatives_for_date`: the two monthly ingest files,
      expected on the last day of a month only. */
  const IngestNames: seq<string> := ["groove_full.tsv.gz", "zephir_ingested_items.txt.gz"]

  function IngestBibrecordsForDate(d: Date): (r: seq<string>)
    ensures r == IngestNames <==> IsLastOfMonth(d)
    ensures r == [] <==> !IsLastOfMonth(d)
  {
    if IsLastOfMonth(d) then IngestNames else []
  }

  /** `IngestBibrecord#path` */
  function IngestBibrecordPath(env: Environment, name: string): Result<string> {
    PathIn(env, EnvVar("INGEST_BIBRECORDS"), name, false)
  }

  /** `HathifileWWW.json_path` */
  function ListingJsonPath(env: Environment): Result<string> {
    PathIn(env, EnvVar("WWW_DIR"), "hathi_file_list.json", false)
  }

  // ---------------------------------------------------------------------
  // File names

  /** Datestamps are the run date for hathifiles and the day before for the
      files built from Zephir's export. */
  lemma DatestampIsRunDateOrDayBefore(x: Derivative)
    ensures x.kind in {Hathifile, HathifileWWW} ==> DatestampOf(x) == x.date
    ensures x.kind !in {Hathifile, HathifileWWW} ==> DatestampOf(x) == PrevDay(x.date)
    ensures x.kind !in {Hathifile, HathifileWWW} ==> NextDay(DatestampOf(x)) == x.date
  {
    ShiftSmall(x.date);
    NextPrevInverse(x.date);
  }

  /** The text around the placeholders holds no y and no separator. */
  predicate IsPlain(s: string) {
    HasNoY(s) && '/' !in s
  }

  lemma PrefixIsPlain(k: Kind, full: bool)
    ensures IsPlain(NamePrefix(k, full)) && NamePrefix(k, full) != ""
  {
    match k
    case CatalogArchive | CatalogPrep | Rights | Delete => ZephirPrefixesArePlain();
    case DollarDup => DollarDupNameIsPlain();
    case HTBibExport => ExportPrefixesArePlain();
    case Hathifile | HathifileWWW => HathifileNamesArePlain();
  }

  lemma SuffixIsPlain(k: Kind, full: bool)
    ensures IsPlain(NameSuffix(k, full))
  {
    match k
    case CatalogArchive | CatalogPrep | HTBibExport => CatalogSuffixesArePlain();
    case Rights | Delete => RightsAndDeleteSuffixesArePlain();
    case DollarDup => DollarDupNameIsPlain();
    case Hathifile | HathifileWWW => HathifileNamesArePlain();
  }

  lemma ZephirPrefixesArePlain()
    ensures IsPlain("zephir_full_") && IsPlain("zephir_upd_")
  {
  }

  lemma CatalogSuffixesArePlain()
    ensures IsPlain("_vufind.json.gz") && IsPlain(".json.gz")
  {
  }

  lemma RightsAndDeleteSuffixesArePlain()
    ensures IsPlain(".rights") && IsPlain("_delete.txt.gz")
  {
  }

  lemma DollarDupNameIsPlain()
    ensures IsPlain("vufind_incremental_") && IsPlain("_dollar_dup.txt.gz")
  {
  }

  lemma ExportPrefixesArePlain()
    ensures IsPlain("ht_bib_export_full_") && IsPlain("ht_bib_export_incr_")
  {
  }

  lemma HathifileNamesArePlain()
    ensures IsPlain("hathi_full_") && IsPlain("hathi_upd_") && IsPlain(".txt.gz")
  {
  }

  /** Stamping replaces the template's one placeholder by the datestamp and
      keeps the text around it. */
  lemma DatestampedFileShape(x: Derivative)
    ensures DatestampedFile(x) == FileName(x)
  {
    PrefixIsPlain(x.kind, x.full);
    SuffixIsPlain(x.kind, x.full);
    if HasHyphenatedStamp(x.kind) {
      assert MatchesAt(HyphenatedPlaceholder, 0, HyphenatedPlaceholder);
      StampHyphenatedTemplate(NamePrefix(x.kind, x.full), HyphenatedPlaceholder, NameSuffix(x.kind, x.full), DatestampOf(x));
    } else {
      assert MatchesAt(CompactPlaceholder, 0, CompactPlaceholder);
      StampCompactTemplate(NamePrefix(x.kind, x.full), CompactPlaceholder, NameSuffix(x.kind, x.full), DatestampOf(x));
    }
  }

  /** The catalog files of a run: `zephir_full_<stamp>_vufind.json.gz` and
      `zephir_upd_<stamp>.json.gz`, the stamp being the day before. */
  lemma CatalogFileName(x: Derivative)
    requires x.kind == CatalogArchive || x.kind == CatalogPrep
    ensures DatestampedFile(x) ==
      if x.full then "zephir_full_" + Compact(PrevDay(x.date)) + "_vufind.json.gz"
      else "zephir_upd_" + Compact(PrevDay(x.date)) + ".json.gz"
  {
    DatestampIsRunDateOrDayBefore(x);
    DatestampedFileShape(x);
  }

  /** `zephir_<full|upd>_<stamp>.rights`, stamped the day before. */
  lemma RightsFileName(x: Derivative)
    requires x.kind == Rights
    ensures DatestampedFile(x) ==
      if x.full then "zephir_full_" + Compact(PrevDay(x.date)) + ".rights"
      else "zephir_upd_" + Compact(PrevDay(x.date)) + ".rights"
  {
    DatestampIsRunDateOrDayBefore(x);
    DatestampedFileShape(x);
  }

  /** `zephir_upd_<stamp>_delete.txt.gz`, stamped the day before. */
  lemma DeleteFileName(x: Derivative)
    requires x.kind == Delete
    ensures DatestampedFile(x) == "zephir_upd_" + Compact(PrevDay(x.date)) + "_delete.txt.gz"
  {
    DatestampIsRunDateOrDayBefore(x);
    DatestampedFileShape(x);
  }

  /** `vufind_incremental_<yyyy-mm-dd>_dollar_dup.txt.gz`, stamped the day
      before in the hyphenated form. */
  lemma DollarDupFileName(x: Derivative)
    requires x.kind == DollarDup
    ensures DatestampedFile(x) == "vufind_incremental_" + Hyphenated(PrevDay(x.date)) + "_dollar_dup.txt.gz"
  {
    DatestampIsRunDateOrDayBefore(x);
    DatestampedFileShape(x);
  }

  /** `ht_bib_export_<full|incr>_<yyyy-mm-dd>.json.gz`, stamped the day before. */
  lemma HTBibExportFileName(x: Derivative)
    requires x.kind == HTBibExport
    ensures DatestampedFile(x) ==
      if x.full then "ht_bib_export_full_" + Hyphenated(PrevDay(x.date)) + ".json.gz"
      else "ht_bib_export_incr_" + Hyphenated(PrevDay(x.date)) + ".json.gz"
  {
    DatestampIsRunDateOrDayBefore(x);
    DatestampedFileShape(x);
  }

  /** `hathi_<full|upd>_<stamp>.txt.gz`, stamped with the run date itself. */
  lemma HathifileFileName(x: Derivative)
    requires x.kind == Hathifile || x.kind == HathifileWWW
    ensures DatestampedFile(x) ==
      if x.full then "hathi_full_" + Compact(x.date) + ".txt.gz" else "hathi_upd_" + Compact(x.date) + ".txt.gz"
  {
    DatestampIsRunDateOrDayBefore(x);
    DatestampedFileShape(x);
  }

  /** A file name never contains a directory separator. */
  lemma DatestampedFileIsFileName(x: Derivative)
    ensures IsFileName(DatestampedFile(x))
  {
    DatestampedFileShape(x);
    PrefixIsPlain(x.kind, x.full);
    SuffixIsPlain(x.kind, x.full);
    var t := StampText(x.kind, DatestampOf(x));
    StampsHaveNoLetters(DatestampOf(x));
    assert IsStampText(t);
    NoSeparatorIn(NamePrefix(x.kind, x.full), t, NameSuffix(x.kind, x.full));
  }

  /** Text made of pieces without a separator has none. */
  lemma NoSeparatorIn(a: string, b: string, c: string)
    requires '/' !in a && '/' !in c && IsStampText(b)
    ensures '/' !in a + b + c
  {
    assert '/' !in b;
  }

  /** The monthly full catalog of a 1st-of-month run is named after the last
      day of the previous month. */
  lemma FullCatalogIsNamedAfterPreviousMonth(x: Derivative)
    requires x.kind == CatalogArchive || x.kind == CatalogPrep
    requires x.full && IsFirstOfMonth(x.date)
    ensures DatestampedFile(x) == "zephir_full_" + Compact(PrevDay(x.date)) + "_vufind.json.gz"
    ensures IsLastOfMonth(PrevDay(x.date)) && !SameMonth(PrevDay(x.date), x.date)
  {
    CatalogFileName(x);
    NextPrevInverse(x.date);
    FirstOfMonthIsAfterMonthChange(x.date);
  }

  // ---------------------------------------------------------------------
  // Paths

  /** A path is the kind's directory joined with the file name, and the
      listing's `basename` gives the file name back. */
  lemma PathAndBasename(env: Environment, x: Derivative)
    ensures PathOf(env, x).Success? <==> Directory(env, LocationOf(x.kind, x.full), true).Some?
    ensures PathOf(env, x).Success? ==>
      && PathOf(env, x).value == Join(Directory(env, LocationOf(x.kind, x.full), true).value, DatestampedFile(x))
      && Basename(PathOf(env, x).value) == DatestampedFile(x)
  {
    DatestampedFileIsFileName(x);
    DatestampedFileShape(x);
    PathIsDirectoryAndName(env, LocationOf(x.kind, x.full), FileName(x), true);
  }

  /** Only the web-directory hathifiles differ between the path as written
      and the corrected one, and as written those never have a path. */
  lemma OnlyWebHathifilesChange(env: Environment, x: Derivative)
    ensures x.kind != HathifileWWW ==> PathAsWritten(env, x) == PathOf(env, x)
    ensures x.kind == HathifileWWW ==> PathAsWritten(env, x) == Failure(TypeError("no implicit conversion of Symbol into String"))
    ensures x.kind == HathifileWWW ==> (PathOf(env, x).Success? <==> "WWW_DIR" in env)
  {
    OnlyTheWebLocationIsASymbol(x.kind, x.full);
    if x.kind != HathifileWWW {
      SymbolsMatterOnlyWhenPresent(env, LocationOf(x.kind, x.full), FileName(x));
    }
  }

  lemma OnlyTheWebLocationIsASymbol(k: Kind, full: bool)
    ensures k == HathifileWWW ==> LocationOf(k, full) == Symbol("WWW_DIR")
    ensures k != HathifileWWW ==> !HasSymbol(LocationOf(k, full))
  {
  }

  /** The rights archive defaults to `archive` under the rights directory,
      and an unset rights directory is a `KeyError` only when no archive is
      configured. */
  lemma RightsLocation(env: Environment, full: bool)
    ensures "RIGHTS_ARCHIVE" in env ==> Eval(env, LocationOf(Rights, full), true) == Success(Str(env["RIGHTS_ARCHIVE"]))
    ensures "RIGHTS_ARCHIVE" !in env && "RIGHTS_DIR" in env ==>
      Eval(env, LocationOf(Rights, full), true) == Success(Str(Join(env["RIGHTS_DIR"], "archive")))
    ensures "RIGHTS_ARCHIVE" !in env && "RIGHTS_DIR" !in env ==>
      Eval(env, LocationOf(Rights, full), true) == Failure(KeyError("RIGHTS_DIR"))
  {
    var archive := EnvVar("RIGHTS_ARCHIVE");
    var dir := Under(EnvFetch("RIGHTS_DIR"), "archive");
    assert LocationOf(Rights, full) == OrElse(archive, dir);
    if "RIGHTS_ARCHIVE" !in env {
      assert Eval(env, archive, true) == Success(Nil);
      if "RIGHTS_DIR" in env {
        assert Eval(env, EnvFetch("RIGHTS_DIR"), true) == Success(Str(env["RIGHTS_DIR"]));
      } else {
        assert Eval(env, EnvFetch("RIGHTS_DIR"), true) == Failure(KeyError("RIGHTS_DIR"));
      }
    }
  }

  /** A rights file has a path exactly when the archive or the rights
      directory is configured; otherwise `ENV.fetch` raises. */
  lemma RightsPath(env: Environment, x: Derivative)
    requires x.kind == Rights
    ensures PathOf(env, x).Success? <==> "RIGHTS_ARCHIVE" in env || "RIGHTS_DIR" in env
    ensures PathOf(env, x).Failure? ==> PathOf(env, x) == Failure(KeyError("RIGHTS_DIR"))
  {
    RightsLocation(env, x.full);
    ErrorsPropagate(env, LocationOf(x.kind, x.full), FileName(x), true);
  }

  /** A kind whose directory is one environment variable: the path is the
      variable's value joined with the file name, `TypeError` when it is
      unset, and the web-directory Symbol plays no part. */
  lemma EnvVarKindPath(env: Environment, x: Derivative, key: string)
    requires LocationOf(x.kind, x.full) == EnvVar(key)
    ensures PathAsWritten(env, x) == PathOf(env, x)
    ensures key in env ==> PathOf(env, x) == Success(Join(env[key], FileName(x)))
    ensures key !in env ==> PathOf(env, x) == Failure(TypeError("no implicit conversion of nil into String"))
  {
    EnvVarPath(env, key, FileName(x), true);
    EnvVarPath(env, key, FileName(x), false);
  }

  /** The archive and prep copies of a catalog file have the same name and
      differ only by directory. */
  lemma CatalogCopiesShareName(d: Date, full: bool)
    ensures DatestampedFile(Derivative(CatalogArchive, d, full)) == DatestampedFile(Derivative(CatalogPrep, d, full))
  {
  }
}

=== FILE: derivatives.dfy ===
/** `Derivatives#earliest_missing_date` (lib/derivatives.rb): the earliest
    datestamp of the month so far for which one of the five Zephir
    derivative files is not on disk. Full files are required for the first
    of the month only, update files for every date of the window. */
module Derivatives {
  import opened Wrappers
  import opened Calendar
  import opened Dates
  import opened Datestamp
  import opened Paths
  import opened Location
  import opened DateSeqs
  import opened FileSystem
  import opened Inventory
  import D = Derivative

  /** The keys of `DIR_DATA`, in its order. */
  datatype Category =
    | ZephirFull | ZephirFullRights | ZephirUpdate | ZephirUpdateRights | ZephirUpdateDelete

  const Categories: seq<Category> :=
    [ZephirFull, ZephirFullRights, ZephirUpdate, ZephirUpdateRights, ZephirUpdateDelete]

  /** The directory keys `directory_for` knows. */
  datatype DirectoryKey = CatalogPrepDir | RightsDir | RightsArchiveDir

  /** `DIR_DATA[name][:locations]` */
  function LocationsOf(c: Category): seq<DirectoryKey> {
    match c
    case ZephirFull | ZephirUpdate | ZephirUpdateDelete => [CatalogPrepDir]
    case ZephirFullRights | ZephirUpdateRights => [RightsDir, RightsArchiveDir]
  }

  /** `DIR_DATA[name][:pattern]` */
  function PatternOf(c: Category): Pattern {
    match c
    case ZephirFull => Pattern("zephir_full_", "_vufind.json.gz")
    case ZephirFullRights => Pattern("zephir_full_", ".rights")
    case ZephirUpdate => Pattern("zephir_upd_", ".json.gz")
    case ZephirUpdateRights => Pattern("zephir_upd_", ".rights")
    case ZephirUpdateDelete => Pattern("zephir_upd_", "_delete.txt.gz")
  }

  /** `DIR_DATA[name][:full]` */
  predicate IsFull(c: Category) {
    c == ZephirFull || c == ZephirFullRights
  }

  /** `directory_for`: the environment's directory or the production
      default. */
  function DirectoryFor(env: Environment, key: DirectoryKey): string {
    match key
    case CatalogPrepDir => if "CATALOG_PREP" in env then env["CATALOG_PREP"] else "/htsolr/catalog/prep/"
    case RightsDir => if "RIGHTS_DIR" in env then env["RIGHTS_DIR"] else "/htapps/babel/feed/var/rights"
    case RightsArchiveDir =>
      if "RIGHTS_ARCHIVE" in env then env["RIGHTS_ARCHIVE"] else "/htapps/babel/feed/var/rights/archive"
  }

  /** `directories_named` */
  function DirectoriesNamed(env: Environment, c: Category): (r: seq<string>)
    ensures |r| == |LocationsOf(c)|
    ensures forall i :: 0 <= i < |r| ==> r[i] == DirectoryFor(env, LocationsOf(c)[i])
  {
    var keys := LocationsOf(c);
    seq(|keys|, i requires 0 <= i < |keys| => DirectoryFor(env, keys[i]))
  }

  /** `required_dates`: the first run date of the window for the full
      files, every date of it otherwise. */
  function RequiredDates(d: Date, c: Category): (r: seq<Date>)
    ensures IsFull(c) ==> r == [FirstOfMonth(d)]
    ensures !IsFull(c) ==> r == AllDates(d)
  {
    AllDatesShape(d);
    if IsFull(c) then [Least(AllDates(d)).value] else AllDates(d)
  }

  /** `directory_inventory(name:)` */
  function CategoryInventory(env: Environment, fs: FileSystem, d: Date, c: Category): Result<seq<Date>> {
    DirectoryInventory(fs, DirectoriesNamed(env, c), PatternOf(c), InWindow(AllDates(d)))
  }

  /** A file for datestamp `e` of the category lies in one of its
      directories: an entry whose first line the category's pattern
      matches is the file name of `e` (`ListedExactly`: for entries
      without a newline, the file itself). */
  predicate OnDisk(env: Environment, fs: FileSystem, c: Category, e: Date) {
    HasFourDigitYear(e) && Listed(fs, DirectoriesNamed(env, c), PatternOf(c), e)
  }

  /** The inventories of the categories, in order; the first invalid
      eight-digit group raises. */
  function Inventories(env: Environment, fs: FileSystem, d: Date, cs: seq<Category>): (r: Result<seq<seq<Date>>>)
    ensures r.Success? ==> |r.value| == |cs|
    ensures r.Success? ==> forall i :: 0 <= i < |cs| ==> Success(r.value[i]) == CategoryInventory(env, fs, d, cs[i])
    ensures r.Failure? <==> exists i :: 0 <= i < |cs| && CategoryInventory(env, fs, d, cs[i]).Failure?
    ensures r.Failure? ==>
      exists i :: 0 <= i < |cs| && CategoryInventory(env, fs, d, cs[i]) == Failure(r.error) &&
        forall j :: 0 <= j < i ==> CategoryInventory(env, fs, d, cs[j]).Success?
  {
    CollectMap(cs, c => CategoryInventory(env, fs, d, c))
  }

  /** A required datestamp of a category with no file on disk. */
  predicate Missing(env: Environment, fs: FileSystem, d: Date, c: Category, e: Date) {
    e in RequiredDates(d, c) && !OnDisk(env, fs, c, e)
  }

  /** The required dates of every category, in order. */
  function RequiredByCategory(d: Date): (r: seq<seq<Date>>)
    ensures |r| == |Categories|
    ensures forall i :: 0 <= i < |Categories| ==> r[i] == RequiredDates(d, Categories[i])
  {
    seq(|Categories|, i requires 0 <= i < |Categories| => RequiredDates(d, Categories[i]))
  }

  /** `earliest_missing_date` for datestamp `d`: nil exactly when every
      category has all its required files; otherwise a date of the window
      some category misses, and no category misses an earlier one. */
  function EarliestMissingDate(env: Environment, fs: FileSystem, d: Date): (r: Result<Option<Date>>)
    ensures r.Failure? <==> exists i :: 0 <= i < |Categories| && CategoryInventory(env, fs, d, Categories[i]).Failure?
    ensures r.Success? ==> (r.value.None? <==> forall c, e: Date :: c in Categories ==> !Missing(env, fs, d, c, e))
    ensures r.Success? && r.value.Some? ==> r.value.value in AllDates(d)
    ensures r.Success? && r.value.Some? ==> exists c :: c in Categories && Missing(env, fs, d, c, r.value.value)
    ensures r.Success? && r.value.Some? ==>
      forall c, e: Date :: c in Categories && Missing(env, fs, d, c, e) ==> NotAfter(r.value.value, e)
  {
    var present :- Inventories(env, fs, d, Categories);
    var required := RequiredByCategory(d);
    EarliestOfMissing(env, fs, d, required, present);
    Success(EarliestMissing(required, present))
  }

  /** What `EarliestMissing` promises about the inventories, read as a
      statement about the files on disk. */
  lemma EarliestOfMissing(env: Environment, fs: FileSystem, d: Date, required: seq<seq<Date>>, present: seq<seq<Date>>)
    requires required == RequiredByCategory(d) && |present| == |Categories|
    requires forall i :: 0 <= i < |Categories| ==> Success(present[i]) == CategoryInventory(env, fs, d, Categories[i])
    ensures var r := EarliestMissing(required, present);
      && (r.None? <==> forall c, e: Date :: c in Categories ==> !Missing(env, fs, d, c, e))
      && (r.Some? ==> r.value in AllDates(d))
      && (r.Some? ==> exists c :: c in Categories && Missing(env, fs, d, c, r.value))
      && (r.Some? ==> forall c, e: Date :: c in Categories && Missing(env, fs, d, c, e) ==> NotAfter(r.value, e))
  {
    EarliestIsNone(env, fs, d, required, present);
    EarliestIsMissing(env, fs, d, required, present);
    EarliestIsLeast(env, fs, d, required, present);
  }

  lemma EarliestIsNone(env: Environment, fs: FileSystem, d: Date, required: seq<seq<Date>>, present: seq<seq<Date>>)
    requires required == RequiredByCategory(d) && |present| == |Categories|
    requires forall i :: 0 <= i < |Categories| ==> Success(present[i]) == CategoryInventory(env, fs, d, Categories[i])
    ensures EarliestMissing(required, present).None? <==> forall c, e: Date :: c in Categories ==> !Missing(env, fs, d, c, e)
  {
    MissingMeansMissingFrom(env, fs, d, required, present);
  }

  lemma EarliestIsMissing(env: Environment, fs: FileSystem, d: Date, required: seq<seq<Date>>, present: seq<seq<Date>>)
    requires required == RequiredByCategory(d) && |present| == |Categories|
    requires forall i :: 0 <= i < |Categories| ==> Success(present[i]) == CategoryInventory(env, fs, d, Categories[i])
    ensures var r := EarliestMissing(required, present);
      r.Some? ==> r.value in AllDates(d) && exists c :: c in Categories && Missing(env, fs, d, c, r.value)
  {
    var r := EarliestMissing(required, present);
    if r.Some? {
      var i :| 0 <= i < |required| && MissingFrom(required[i], present[i], r.value);
      MissingMeansMissingFrom(env, fs, d, required, present);
      assert Missing(env, fs, d, Categories[i], r.value);
      RequiredInWindow(d, Categories[i], r.value);
    }
  }

  /** Every required date lies in the window. */
  lemma RequiredInWindow(d: Date, c: Category, e: Date)
    requires e in RequiredDates(d, c)
    ensures e in AllDates(d)
  {
    AllDatesShape(d);
  }

  lemma EarliestIsLeast(env: Environment, fs: FileSystem, d: Date, required: seq<seq<Date>>, present: seq<seq<Date>>)
    requires required == RequiredByCategory(d) && |present| == |Categories|
    requires forall i :: 0 <= i < |Categories| ==> Success(present[i]) == CategoryInventory(env, fs, d, Categories[i])
    ensures var r := EarliestMissing(required, present);
      r.Some? ==> forall c, e: Date :: c in Categories && Missing(env, fs, d, c, e) ==> NotAfter(r.value, e)
  {
    MissingMeansMissingFrom(env, fs, d, required, present);
  }

  /** Missing from the inventory is missing from the disk. */
  lemma MissingMeansMissingFrom(env: Environment, fs: FileSystem, d: Date, required: seq<seq<Date>>, present: seq<seq<Date>>)
    requires required == RequiredByCategory(d) && |present| == |Categories|
    requires forall i :: 0 <= i < |Categories| ==> Success(present[i]) == CategoryInventory(env, fs, d, Categories[i])
    ensures forall i, e: Date :: 0 <= i < |Categories| ==>
      (MissingFrom(required[i], present[i], e) <==> Missing(env, fs, d, Categories[i], e))
    ensures forall c :: c in Categories <==> exists i :: 0 <= i < |Categories| && Categories[i] == c
  {
    AllDatesShape(d);
    forall i, e: Date | 0 <= i < |Categories|
      ensures MissingFrom(required[i], present[i], e) <==> Missing(env, fs, d, Categories[i], e)
    {
      if e in required[i] {
        assert e in AllDates(d);
      }
    }
  }

  /** The derivative whose files a category counts: the post-Zephir stage
      writes the catalog, rights and delete files this finder looks for. */
  function ProducerOf(c: Category, r: Date): D.Derivative {
    match c
    case ZephirFull => D.Derivative(D.CatalogPrep, r, true)
    case ZephirFullRights => D.Derivative(D.Rights, r, true)
    case ZephirUpdate => D.Derivative(D.CatalogPrep, r, false)
    case ZephirUpdateRights => D.Derivative(D.Rights, r, false)
    case ZephirUpdateDelete => D.Derivative(D.Delete, r, false)
  }

  /** What a run writes is what this finder counts: the producer's file
      name is the category's pattern filled with the producer's datestamp,
      the day before the run; full categories have full producers. */
  lemma TemplatesMatchPatterns(c: Category, r: Date)
    ensures D.DatestampedFile(ProducerOf(c, r)) == Named(PatternOf(c), PrevDay(r))
    ensures D.DatestampOf(ProducerOf(c, r)) == PrevDay(r)
    ensures ProducerOf(c, r).full <==> IsFull(c)
  {
    var x := ProducerOf(c, r);
    D.DatestampIsRunDateOrDayBefore(x);
    D.DatestampedFileShape(x);
    match c
    case ZephirFull =>
    case ZephirFullRights =>
    case ZephirUpdate =>
    case ZephirUpdateRights =>
    case ZephirUpdateDelete =>
  }

  /** The patterns are anchored at lines, not at the ends of the name: an
      entry whose first line is the file for `e`, or whose later line is
      after a first line that does not match, counts for `e`. */
  lemma EntryWithNewlineCounts(c: Category, e: Date, rest: string)
    requires HasFourDigitYear(e)
    ensures Names(Named(PatternOf(c), e) + "\n" + rest, PatternOf(c), e)
    ensures Names("x" + "\n" + Named(PatternOf(c), e), PatternOf(c), e)
  {
    PatternIsOneLine(c);
    ShortNameUnmatched("x", PatternOf(c));
    NamesOnAnyLine(PatternOf(c), e, "x", rest);
  }

  lemma PatternIsOneLine(c: Category)
    ensures '\n' !in PatternOf(c).prefix && '\n' !in PatternOf(c).suffix
  {
    match c
    case ZephirFull =>
    case ZephirFullRights =>
    case ZephirUpdate =>
    case ZephirUpdateRights =>
    case ZephirUpdateDelete =>
  }

  /** With none of the directories on disk, the first of the month is the
      earliest missing date. */
  lemma NothingOnDisk(env: Environment, fs: FileSystem, d: Date)
    requires forall c, i :: c in Categories && 0 <= i < |DirectoriesNamed(env, c)| ==> !IsDirectory(fs, DirectoriesNamed(env, c)[i])
    ensures EarliestMissingDate(env, fs, d) == Success(Some(FirstOfMonth(d)))
  {
    NoCategoryInventories(env, fs, d);
    AllDatesShape(d);
    FirstOfMonthIsCycleStart(d);
    var r := EarliestMissingDate(env, fs, d);
    assert r.Success?;
    assert !OnDisk(env, fs, ZephirFull, FirstOfMonth(d));
    assert Missing(env, fs, d, ZephirFull, FirstOfMonth(d));
    var e := r.value.value;
    assert e in AllDates(d);
    AllDatesIsInterval(d);
    BeforeIsTotal(e, FirstOfMonth(d));
  }

  /** With none of the directories on disk every category's inventory is
      empty. */
  lemma NoCategoryInventories(env: Environment, fs: FileSystem, d: Date)
    requires forall c, i :: c in Categories && 0 <= i < |DirectoriesNamed(env, c)| ==> !IsDirectory(fs, DirectoriesNamed(env, c)[i])
    ensures forall i :: 0 <= i < |Categories| ==> CategoryInventory(env, fs, d, Categories[i]) == Success([])
  {
    forall i | 0 <= i < |Categories| ensures CategoryInventory(env, fs, d, Categories[i]) == Success([]) {
      NoDirectoriesNoDates(fs, DirectoriesNamed(env, Categories[i]), PatternOf(Categories[i]), InWindow(AllDates(d)));
    }
  }
}

=== FILE: filesystem.dfy ===
/** The part of the filesystem the finders and the verifiers look at:
    directory listings (`File.directory?`, `Dir.children`), existence
    (`File.exist?`), readability (`File.readable?`), and the text of files,
    already decompressed where the code reads them through gzip. */
module FileSystem {
  import opened Wrappers
  import opened Text

  datatype FileSystem = FileSystem(
    children: map<string, seq<string>>,  // directory -> entry names
    files: map<string, string>,          // regular file -> its lines, joined
    unreadable: set<string>)             // paths the process may not read

  /** `File.directory?` */
  predicate IsDirectory(fs: FileSystem, path: string) {
    path in fs.children
  }

  /** `File.exist?`: files and directories alike. */
  predicate Exists(fs: FileSystem, path: string) {
    path in fs.files || path in fs.children
  }

  /** `File.readable?` */
  predicate Readable(fs: FileSystem, path: string) {
    Exists(fs, path) && path !in fs.unreadable
  }

  /** `Dir.children`, for a directory. */
  function Children(fs: FileSystem, dir: string): seq<string>
    requires IsDirectory(fs, dir)
  {
    fs.children[dir]
  }

  /** Opening a file for reading: a missing or unreadable file raises. */
  function Read(fs: FileSystem, path: string): (r: Result<string>)
    ensures r.Success? <==> path in fs.files && Readable(fs, path)
    ensures r.Failure? ==> r.error == FileError(path)
  {
    if path in fs.files && path !in fs.unreadable then Success(fs.files[path]) else Failure(FileError(path))
  }

  /** `each_line` over an opened file. */
  function Lines(fs: FileSystem, path: string): (r: Result<seq<string>>)
    ensures r.Success? <==> Read(fs, path).Success?
    ensures r.Success? ==> Concat(r.value) == Read(fs, path).value
  {
    var text :- Read(fs, path);
    Success(EachLine(text))
  }

  /** `gzip_linecount`: the number of lines, a final line without newline
      included. */
  function LineCount(fs: FileSystem, path: string): (r: Result<nat>)
    ensures r.Success? <==> Read(fs, path).Success?
    ensures r.Success? ==> r.value == |Lines(fs, path).value|
  {
    var lines :- Lines(fs, path);
    Success(|lines|)
  }
}

=== FILE: hathifile_contents.dfy ===
/** `Verifier::HathifileContents` (lib/verifier/hathifiles_contents.rb):
    every line of a hathifile must have 26 tab-separated fields, each
    matching the pattern of its column; the lines are counted as they go. */
module HathifileContents {
  import opened Wrappers
  import opened Text
  import opened FileSystem
  import opened Verifier

  const C: Class := HathifileContents

  /** The 26 entries of `HATHIFILE_FIELD_SPECS`, in order. */
  datatype Field =
    | Htid | Access | RightsCode | HtBibKey | Description | Source | SourceBibNum | OclcNum
    | Isbn | Issn | Lccn | Title | Imprint | RightsReasonCode | RightsTimestamp | UsGovDocFlag
    | RightsDateUsed | PubPlace | Lang | BibFmt | CollectionCode | ContentProviderCode
    | ResponsibleEntityCode | DigitizationAgentCode | AccessProfileCode | Author

  const Fields: seq<Field> := [
    Htid, Access, RightsCode, HtBibKey, Description, Source, SourceBibNum, OclcNum,
    Isbn, Issn, Lccn, Title, Imprint, RightsReasonCode, RightsTimestamp, UsGovDocFlag,
    RightsDateUsed, PubPlace, Lang, BibFmt, CollectionCode, ContentProviderCode,
    ResponsibleEntityCode, DigitizationAgentCode, AccessProfileCode, Author]

  /** `HATHIFILE_FIELD_SPECS.count` */
  const FieldCount: nat := 26

  /** `field_spec[:name]`; the ISBN column is named "hathifiles". */
  function FieldName(f: Field): string {
    match f
    case Htid => "htid"
    case Access => "access"
    case RightsCode => "rights"
    case HtBibKey => "ht_bib_key"
    case Description => "description"
    case Source => "source"
    case SourceBibNum => "source_bib_num"
    case OclcNum => "oclc_num"
    case Isbn => "hathifiles"
    case Issn => "issn"
    case Lccn => "lccn"
    case Title => "title"
    case Imprint => "imprint"
    case RightsReasonCode => "rights_reason_code"
    case RightsTimestamp => "rights_timestamp"
    case UsGovDocFlag => "us_gov_doc_flag"
    case RightsDateUsed => "rights_date_used"
    case PubPlace => "pub_place"
    case Lang => "lang"
    case BibFmt => "bib_fmt"
    case CollectionCode => "collection_code"
    case ContentProviderCode => "content_provider_code"
    case ResponsibleEntityCode => "responsible_entity_code"
    case DigitizationAgentCode => "digitization_agent_code"
    case AccessProfileCode => "access_profile_code"
    case Author => "author"
  }

  /** The pattern's source text. */
  function Pattern(f: Field): string {
    match f
    case Htid => "^[a-z0-9]{2,4}\\.\\S+$"
    case Access => "^(allow|deny)$"
    case RightsCode => "^[a-z0-9\\-.]+$"
    case HtBibKey => "^\\d{9}$"
    case Source => "^[A-Z]+$"
    case SourceBibNum => "^\\S*$"
    case OclcNum => "^(\\d+)?(,\\d+)*$"
    case RightsReasonCode => "^[a-z]+$"
    case RightsTimestamp => "^\\d{4}-\\d{2}-\\d{2} \\d{2}:\\d{2}:\\d{2}$"
    case UsGovDocFlag => "^[01]$"
    case RightsDateUsed => "^\\d+$"
    case PubPlace => "^.{2,3}$"
    case Lang => "^.{0,3}$"
    case BibFmt => "^[A-Z]+$"
    case CollectionCode => "^[A-Z]+$"
    case ContentProviderCode => "^[a-z\\-_]+$"
    case ResponsibleEntityCode => "^[a-z-]+$"
    case DigitizationAgentCode => "^[a-z-]+\\d?$"
    case AccessProfileCode => "^[a-z+]+$"
    case _ => "^.*$"
  }

  /** The pattern as `"#{regex}"` prints it. */
  function PatternText(f: Field): string {
    "(?-mix:" + Pattern(f) + ")"
  }

  // ---------------------------------------------------------------------
  // The patterns, as predicates on a field (which never holds a newline,
  // so the line anchors `^` and `$` anchor the whole field)

  /** Every character of `s` satisfies `p`, and there is at least one when
      `nonEmpty` is asked for: a `[...]+` or `[...]*` pattern. */
  predicate AllOf(s: string, p: char -> bool, nonEmpty: bool) {
    (!nonEmpty || |s| > 0) && forall i :: 0 <= i < |s| ==> p(s[i])
  }

  predicate IsLowerDigit(c: char) { IsLower(c) || IsDigit(c) }
  predicate IsRightsChar(c: char) { IsLower(c) || IsDigit(c) || c == '-' || c == '.' }
  predicate IsProviderChar(c: char) { IsLower(c) || c == '-' || c == '_' }
  predicate IsEntityChar(c: char) { IsLower(c) || c == '-' }
  predicate IsProfileChar(c: char) { IsLower(c) || c == '+' }
  predicate IsNotSpace(c: char) { !IsSpace(c) }
  predicate IsOclcChar(c: char) { IsDigit(c) || c == ',' }

  /** `[a-z0-9]{2,4}\.\S+`: a namespace of two to four letters or digits,
      a dot, and an id without whitespace. */
  predicate IsHtid(s: string) {
    exists k :: 2 <= k <= 4 && k + 1 < |s| && s[k] == '.' && AllOf(s[..k], IsLowerDigit, true) && AllOf(s[k + 1..], IsNotSpace, true)
  }

  /** `(\d+)?(,\d+)*`: digits and commas, never two commas together and
      never a comma last. */
  predicate IsOclcList(s: string) {
    && AllOf(s, IsOclcChar, false)
    && (|s| > 0 ==> s[|s| - 1] != ',')
    && forall i :: 0 <= i < |s| - 1 ==> !(s[i] == ',' && s[i + 1] == ',')
  }

  /** `\d{4}-\d{2}-\d{2} \d{2}:\d{2}:\d{2}` */
  predicate IsTimestamp(s: string) {
    && |s| == 19
    && (forall i :: 0 <= i < 19 && i !in {4, 7, 10, 13, 16} ==> IsDigit(s[i]))
    && s[4] == '-' && s[7] == '-' && s[10] == ' ' && s[13] == ':' && s[16] == ':'
  }

  /** `[a-z-]+\d?` */
  predicate IsAgentCode(s: string) {
    || AllOf(s, IsEntityChar, true)
    || (|s| >= 2 && IsDigit(s[|s| - 1]) && AllOf(s[..|s| - 1], IsEntityChar, true))
  }

  /** `field_value.match?(regex)` for a field without newlines. */
  predicate Matches(f: Field, s: string) {
    match f
    case Htid => IsHtid(s)
    case Access => s == "allow" || s == "deny"
    case RightsCode => AllOf(s, IsRightsChar, true)
    case HtBibKey => |s| == 9 && AllDigits(s)
    case Source => AllOf(s, IsUpper, true)
    case SourceBibNum => AllOf(s, IsNotSpace, false)
    case OclcNum => IsOclcList(s)
    case RightsReasonCode => AllOf(s, IsLower, true)
    case RightsTimestamp => IsTimestamp(s)
    case UsGovDocFlag => s == "0" || s == "1"
    case RightsDateUsed => |s| > 0 && AllDigits(s)
    case PubPlace => 2 <= |s| <= 3
    case Lang => |s| <= 3
    case BibFmt => AllOf(s, IsUpper, true)
    case CollectionCode => AllOf(s, IsUpper, true)
    case ContentProviderCode => AllOf(s, IsProviderChar, true)
    case ResponsibleEntityCode => AllOf(s, IsEntityChar, true)
    case DigitizationAgentCode => IsAgentCode(s)
    case AccessProfileCode => AllOf(s, IsProfileChar, true)
    case _ => true
  }

  /** The columns whose pattern is `^.*$`, which any field matches. */
  predicate IsFreeText(f: Field) {
    f in {Description, Isbn, Issn, Lccn, Title, Imprint, Author}
  }

  // ---------------------------------------------------------------------
  // run

  /** The fields of a line: `line.chomp.split("\t", -1)`. */
  function FieldsOf(line: string): seq<string> {
    SplitKeep(Chomp(line), '\t')
  }

  function ColumnCountError(path: string, n: nat, count: nat): string {
    "Line " + Decimal(n) + " in " + path + " has only " + Decimal(count) + " columns, expected " + Decimal(FieldCount)
  }

  function FieldError(path: string, n: nat, f: Field, value: string): string {
    "Field " + FieldName(f) + " at line " + Decimal(n) + " in " + path + " ('" + value + "') does not match " + PatternText(f)
  }

  /** The fields that do not match their column, and their errors. */
  function BadField(fields: seq<string>): nat -> bool {
    (j: nat) => j < |fields| && j < FieldCount && !Matches(Fields[j], fields[j])
  }

  function FieldErrorAt(path: string, n: nat, fields: seq<string>): nat -> string {
    (j: nat) => if j < |fields| && j < FieldCount then FieldError(path, n, Fields[j], fields[j]) else ""
  }

  function FieldStep(path: string, n: nat, fields: seq<string>): nat -> Report {
    (j: nat) => Flag(C, BadField(fields)(j), FieldErrorAt(path, n, fields)(j))
  }

  /** `verify_fields` */
  function VerifyFields(path: string, n: nat, fields: seq<string>): (r: Report)
    ensures r == Report(Flagged(C, Indices(|fields|), BadField(fields), FieldErrorAt(path, n, fields)), None)
  {
    var js := Indices(|fields|);
    ForEachFlags(C, js, BadField(fields), FieldErrorAt(path, n, fields), FieldStep(path, n, fields));
    ForEach(js, FieldStep(path, n, fields))
  }

  /** Twenty-six fields, each matching the pattern of its column. */
  predicate WellFormedFields(fields: seq<string>) {
    |fields| == FieldCount && forall j :: 0 <= j < FieldCount ==> Matches(Fields[j], fields[j])
  }

  /** The loop body for line number `n` (`line_count` after the increment):
      a wrong number of fields is one error and ends the line; otherwise
      every field is checked. */
  function CheckLine(path: string, n: nat, line: string): (r: Report)
    ensures r.raised.None?
    ensures |FieldsOf(line)| != FieldCount ==> r == Logged(C, ColumnCountError(path, n, |FieldsOf(line)|))
    ensures r == Clean <==> WellFormedFields(FieldsOf(line))
  {
    var fields := FieldsOf(line);
    if |fields| != FieldCount then Logged(C, ColumnCountError(path, n, |fields|))
    else
      FieldsClean(path, n, fields);
      VerifyFields(path, n, fields)
  }

  /** With the right number of fields, the line is silent exactly when
      every field matches. */
  lemma {:induction false} FieldsClean(path: string, n: nat, fields: seq<string>)
    requires |fields| == FieldCount
    ensures VerifyFields(path, n, fields) == Clean <==> WellFormedFields(fields)
  {
    var js := Indices(|fields|);
    assert forall j :: 0 <= j < |fields| ==> (BadField(fields)(js[j]) <==> !Matches(Fields[j], fields[j]));
  }

  function LineStep(path: string, lines: seq<string>): nat -> Report {
    (i: nat) => if i < |lines| then CheckLine(path, i + 1, lines[i]) else Clean
  }

  /** `run`: the lines counted and checked; a file that cannot be opened
      raises before anything is counted. */
  function Run(fs: FileSystem, path: string): (r: (nat, Report))
    ensures Lines(fs, path).Failure? ==> r == (0, Raised(Lines(fs, path).error))
    ensures Lines(fs, path).Success? ==> Success(r.0) == GzipLineCount(fs, path) && r.1.raised.None?
  {
    match Lines(fs, path)
    case Failure(e) => (0, Raised(e))
    case Success(lines) => (|lines|, ForEach(Indices(|lines|), LineStep(path, lines)))
  }

  // ---------------------------------------------------------------------
  // Properties

  /** The free-text columns accept any field. */
  lemma FreeTextAlwaysMatches(f: Field, s: string)
    requires IsFreeText(f)
    ensures Matches(f, s)
  {
  }

  /** The loop over the lines is silent exactly when every line is well
      formed. */
  lemma {:induction false} LinesVerdict(path: string, lines: seq<string>)
    ensures ForEach(Indices(|lines|), LineStep(path, lines)) == Clean <==>
      forall i :: 0 <= i < |lines| ==> WellFormedFields(FieldsOf(lines[i]))
  {
    var idx := Indices(|lines|);
    ForEachClean(idx, LineStep(path, lines));
    forall i | 0 <= i < |lines|
      ensures LineStep(path, lines)(idx[i]) == Clean <==> WellFormedFields(FieldsOf(lines[i]))
    {
      LineStepClean(path, lines, i);
    }
  }

  lemma {:induction false} LineStepClean(path: string, lines: seq<string>, i: nat)
    requires i < |lines|
    ensures LineStep(path, lines)(i) == Clean <==> WellFormedFields(FieldsOf(lines[i]))
  {
    LineStepChecksLine(path, lines, i);
  }

  lemma {:induction false} LineStepChecksLine(path: string, lines: seq<string>, i: nat)
    requires i < |lines|
    ensures LineStep(path, lines)(i) == Clean <==> CheckLine(path, i + 1, lines[i]) == Clean
  {
  }

  /** A file is silent exactly when every line has 26 fields, each
      matching its column. */
  lemma RunVerdict(fs: FileSystem, path: string)
    requires Lines(fs, path).Success?
    ensures var lines := Lines(fs, path).value;
      Run(fs, path).1 == Clean <==>
        forall i :: 0 <= i < |lines| ==> WellFormedFields(FieldsOf(lines[i]))
  {
    LinesVerdict(path, Lines(fs, path).value);
  }

  /** Twenty-six matching fields joined by tabs make a line that passes,
      whether or not it ends in a newline. */
  lemma WellFormedLine(path: string, n: nat, fields: seq<string>, eol: string)
    requires WellFormedFields(fields)
    requires forall j :: 0 <= j < FieldCount ==> '\t' !in fields[j] && '\n' !in fields[j]
    requires fields[25] == "" || fields[25][|fields[25]| - 1] != '\r'
    requires eol == "" || eol == "\n"
    ensures CheckLine(path, n, JoinWith(fields, '\t') + eol) == Clean
  {
    var joined := JoinWith(fields, '\t');
    JoinEndsWithLast(fields, '\t');
    assert |joined| > 0 && joined[|joined| - 1] != '\r' && joined[|joined| - 1] != '\n';
    assert Chomp(joined + eol) == joined;
    SplitJoin(fields, '\t');
  }
}

=== FILE: hathifiles.dfy ===
/** `Verifier::Hathifiles` (lib/verifier/hathifiles.rb): every hathifile
    of a run date must be readable, pass the contents check, and have at
    least as many lines as the catalog archive file it was made from. The
    contents check's errors are appended to this verifier's, and `errors`
    flattens them into one list, which is what a `Report` holds. */
module HathifilesVerifier {
  import opened Wrappers
  import opened Text
  import opened Calendar
  import opened Dates
  import opened Location
  import opened FileSystem
  import opened Verifier
  import D = Derivative
  import HC = HathifileContents

  const C: Class := Hathifiles

  /** What the check looks at: the environment and the files. */
  datatype World = World(env: Environment, fs: FileSystem)

  /** `Hathifile.derivatives_for_date(date:)` */
  function Of(d: Date): seq<D.Derivative> {
    D.DerivativesForDate(D.Hathifile, d).value
  }

  /** `catalog_source(hathifile:)`: the catalog archive file of the same
      run date and fullness. */
  function CatalogSource(x: D.Derivative): D.Derivative {
    D.Derivative(D.CatalogArchive, x.date, x.full)
  }

  function LinecountError(catalogPath: string, catalog: nat, hathifile: nat): string {
    catalogPath + " has " + Decimal(catalog) + " records but corresponding hathifile only has " + Decimal(hathifile)
  }

  /** `verify_hathifile_linecount`: counting the catalog file raises when
      it cannot be opened; a hathifile with fewer lines is one error. */
  function VerifyLinecount(fs: FileSystem, count: nat, catalogPath: string): (r: Report)
    ensures Lines(fs, catalogPath).Failure? ==> r == Raised(FileError(catalogPath))
    ensures Lines(fs, catalogPath).Success? ==> r.raised.None?
    ensures Lines(fs, catalogPath).Success? ==> (r == Clean <==> |Lines(fs, catalogPath).value| <= count)
    ensures r.errors != [] ==> r == Logged(C, LinecountError(catalogPath, |Lines(fs, catalogPath).value|, count))
  {
    match GzipLineCount(fs, catalogPath)
    case Failure(e) => Raised(e)
    case Success(catalog) => Flag(C, count < catalog, LinecountError(catalogPath, catalog, count))
  }

  /** Once the hathifile at `path` is verified: the contents check, then
      the catalog source's path (`catalogPath`, which may have raised),
      then the line counts. */
  function ContentsStep(fs: FileSystem, catalogPath: Result<string>): string -> Report {
    path =>
      var (count, contents) := HC.Run(fs, path);
      Then(contents,
        match catalogPath
        case Failure(e) => Raised(e)
        case Success(cp) => VerifyLinecount(fs, count, cp))
  }

  /** The loop body of `verify_hathifile`. */
  function HathifileStep(w: World): D.Derivative -> Report {
    x => WhenVerified(C, w.fs, D.PathAsWritten(w.env, x), ContentsStep(w.fs, D.PathAsWritten(w.env, CatalogSource(x))))
  }

  /** `verify_hathifile`, which is all `run_for_date` does. */
  function RunForDate(w: World, d: Date): Report {
    ForEach(Of(d), HathifileStep(w))
  }

  // ---------------------------------------------------------------------
  // Properties

  /** The catalog source keeps the hathifile's run date and fullness, so
      its file is stamped one day earlier than the hathifile. */
  lemma CatalogSourceStamp(x: D.Derivative)
    requires x.kind == D.Hathifile
    ensures CatalogSource(x).kind == D.CatalogArchive
    ensures CatalogSource(x).date == x.date && CatalogSource(x).full == x.full
    ensures D.DatestampOf(CatalogSource(x)) == PrevDay(D.DatestampOf(x))
    ensures D.IsWellFormed(CatalogSource(x))
  {
    D.DatestampIsRunDateOrDayBefore(x);
    D.DatestampIsRunDateOrDayBefore(CatalogSource(x));
  }

  /** A hathifile that cannot be verified is reported by `verify_file`
      alone: no contents check and no line counts. */
  lemma UnreadableHathifile(w: World, x: D.Derivative, path: string)
    requires D.PathAsWritten(w.env, x) == Success(path)
    requires !Readable(w.fs, path)
    ensures HathifileStep(w)(x) == Logged(C, FileProblem(w.fs, path))
  {
    VerifyFileFlags(C, w.fs, path);
  }

  /** A hathifile that can be opened goes on to the contents check and
      the comparison with its catalog source. */
  lemma {:induction false} ReadableHathifile(w: World, x: D.Derivative, path: string)
    requires D.PathAsWritten(w.env, x) == Success(path)
    requires Lines(w.fs, path).Success?
    ensures HathifileStep(w)(x) == ContentsStep(w.fs, D.PathAsWritten(w.env, CatalogSource(x)))(path)
  {
    assert Readable(w.fs, path);
  }

  /** The contents check runs first and the line counts follow it. */
  lemma {:induction false} ContentsThenCounts(fs: FileSystem, path: string, catalogPath: string)
    ensures ContentsStep(fs, Success(catalogPath))(path) == Then(HC.Run(fs, path).1, VerifyLinecount(fs, HC.Run(fs, path).0, catalogPath))
  {
  }

  /** For a hathifile and a catalog file that can both be opened, the
      check never raises, and it is silent exactly when the contents check
      is and the hathifile has at least as many lines as the catalog file.
      `HathifileContents.RunVerdict` says when the contents check is
      silent. */
  lemma {:induction false} HathifileAgainstCatalog(fs: FileSystem, path: string, catalogPath: string)
    requires Lines(fs, path).Success? && Lines(fs, catalogPath).Success?
    ensures ContentsStep(fs, Success(catalogPath))(path).raised.None?
    ensures ContentsStep(fs, Success(catalogPath))(path) == Clean <==>
      HC.Run(fs, path).1 == Clean && |Lines(fs, catalogPath).value| <= |Lines(fs, path).value|
  {
    ContentsThenCounts(fs, path, catalogPath);
    CountsVerdict(ContentsStep(fs, Success(catalogPath))(path), fs, path, catalogPath);
  }

  lemma {:induction false} CountsVerdict(r: Report, fs: FileSystem, path: string, catalogPath: string)
    requires Lines(fs, path).Success? && Lines(fs, catalogPath).Success?
    requires r == Then(HC.Run(fs, path).1, VerifyLinecount(fs, HC.Run(fs, path).0, catalogPath))
    ensures r.raised.None?
    ensures r == Clean <==> HC.Run(fs, path).1 == Clean && |Lines(fs, catalogPath).value| <= |Lines(fs, path).value|
  {
    ThenClean(HC.Run(fs, path).1, VerifyLinecount(fs, HC.Run(fs, path).0, catalogPath));
  }

  /** When the catalog file cannot be opened the check raises once the
      contents check is done, keeping that check's errors. */
  lemma {:induction false} MissingCatalogRaises(fs: FileSystem, path: string, catalogPath: string)
    requires Lines(fs, path).Success? && Lines(fs, catalogPath).Failure?
    ensures ContentsStep(fs, Success(catalogPath))(path) == Report(HC.Run(fs, path).1.errors, Some(FileError(catalogPath)))
  {
    ContentsThenCounts(fs, path, catalogPath);
  }

  /** The path of each derivative, as `derivative.path` computes it. */
  function PathOf(w: World): D.Derivative -> Result<string> {
    x => D.PathAsWritten(w.env, x)
  }

  /** A hathifile that is not there, under a configured archive directory,
      is checked like a bare `verify_file` call that fails. */
  lemma AbsentHathifile(w: World, x: D.Derivative)
    requires x.kind == D.Hathifile && "HATHIFILE_ARCHIVE" in w.env
    requires !Exists(w.fs, PathOf(w)(x).value)
    ensures PathOf(w)(x).Success?
    ensures HathifileStep(w)(x) == VerifyPath(C, w.fs, PathOf(w)(x))
    ensures Unreadable(w.fs, PathOf(w))(x)
  {
    D.EnvVarKindPath(w.env, x, "HATHIFILE_ARCHIVE");
    var path := PathOf(w)(x).value;
    UnreadableHathifile(w, x, path);
  }

  /** With `HATHIFILE_ARCHIVE` set and no hathifile present, each expected
      file is one not-found error: two on the first of a month, one on
      other days. */
  lemma NothingPresent(w: World, d: Date)
    requires "HATHIFILE_ARCHIVE" in w.env
    requires forall p :: !Exists(w.fs, p)
    ensures RunForDate(w, d).raised.None?
    ensures |RunForDate(w, d).errors| == if IsFirstOfMonth(d) then 2 else 1
  {
    var xs := Of(d);
    assert |xs| == if IsFirstOfMonth(d) then 2 else 1;
    forall i | 0 <= i < |xs|
      ensures PathOf(w)(xs[i]).Success?
      ensures HathifileStep(w)(xs[i]) == VerifyPath(C, w.fs, PathOf(w)(xs[i]))
      ensures Unreadable(w.fs, PathOf(w))(xs[i])
    {
      AbsentHathifile(w, xs[i]);
    }
    ForEachVerifyPath(C, w.fs, xs, PathOf(w), HathifileStep(w));
    assert RunForDate(w, d) == Report(Flagged(C, xs, Unreadable(w.fs, PathOf(w)), ProblemOf(w.fs, PathOf(w))), None);
  }
}

=== FILE: hathifiles_database.dfy ===
/** `Verifier::HathifilesDatabase` (lib/verifier/hathifiles_database.rb):
    every hathifile of a run date that exists must have a row in `hf_log`,
    and a full hathifile must not have more lines than the `hf` table has
    rows. The two database answers are inputs. */
module HathifilesDatabaseVerifier {
  import opened Wrappers
  import opened Text
  import opened Calendar
  import opened Dates
  import opened Location
  import opened FileSystem
  import opened Verifier
  import opened Paths
  import D = Derivative

  const C: Class := HathifilesDatabase

  /** What the check looks at: the environment, the files, the `hathifile`
      values that have a row in `hf_log`, and the row count of `hf`. */
  datatype World = World(env: Environment, fs: FileSystem, hfLog: set<string>, hfCount: nat)

  /** `Hathifile.derivatives_for_date(date:)` */
  function Of(d: Date): seq<D.Derivative> {
    D.DerivativesForDate(D.Hathifile, d).value
  }

  /** `has_log?(hathifile:)`: the lookup is by file name only. */
  predicate HasLog(w: World, path: string) {
    Basename(path) in w.hfLog
  }

  function MissingLogError(path: string): string {
    "missing hf_log: no entry for " + path
  }

  /** The elements of `xs` that are full files, in order: the `select`. */
  function FullOnes(xs: seq<D.Derivative>): (r: seq<D.Derivative>)
    ensures forall x :: x in r <==> x in xs && x.full
    ensures |r| <= |xs|
  {
    if |xs| == 0 then []
    else (if xs[0].full then [xs[0]] else []) + FullOnes(xs[1..])
  }

  // ---------------------------------------------------------------------
  // verify_hathifiles_database_log

  /** The loop body: a file that does not exist is left to other checks. */
  function LogStep(w: World): D.Derivative -> Report {
    x =>
      match D.PathAsWritten(w.env, x)
      case Failure(e) => Raised(e)
      case Success(p) => Flag(C, Exists(w.fs, p) && !HasLog(w, p), MissingLogError(p))
  }

  function VerifyLog(w: World, d: Date): Report {
    ForEach(Of(d), LogStep(w))
  }

  // ---------------------------------------------------------------------
  // verify_hathifiles_database_count

  function CountMismatch(path: string, count: nat, db: nat): string {
    "hf count mismatch: " + path + " (" + Decimal(count) + ") vs hathifiles.hf (" + Decimal(db) + ")"
  }

  /** The loop body: an existing full file that cannot be opened raises. */
  function CountStep(w: World): D.Derivative -> Report {
    x =>
      match D.PathAsWritten(w.env, x)
      case Failure(e) => Raised(e)
      case Success(p) =>
        if !Exists(w.fs, p) then Clean
        else
          match GzipLineCount(w.fs, p)
          case Failure(e) => Raised(e)
          case Success(n) => Flag(C, n > w.hfCount, CountMismatch(p, n, w.hfCount))
  }

  function VerifyCount(w: World, d: Date): Report {
    ForEach(FullOnes(Of(d)), CountStep(w))
  }

  /** `run_for_date`: the log check, then the count check. */
  function RunForDate(w: World, d: Date): Report {
    Then(VerifyLog(w, d), VerifyCount(w, d))
  }

  // ---------------------------------------------------------------------
  // Properties

  /** The file name a hathifile is logged under. */
  function LoggedName(x: D.Derivative): string {
    D.DatestampedFile(x)
  }

  /** The hathifiles that exist but are missing from `hf_log`. */
  function Unlogged(w: World): D.Derivative -> bool {
    x => D.PathAsWritten(w.env, x).Success? && Exists(w.fs, D.PathAsWritten(w.env, x).value) && LoggedName(x) !in w.hfLog
  }

  function UnloggedError(w: World): D.Derivative -> string {
    x => if D.PathAsWritten(w.env, x).Success? then MissingLogError(D.PathAsWritten(w.env, x).value) else ""
  }

  /** Under a configured archive directory, a hathifile's path computes
      and `basename` recovers the name it is logged under. */
  lemma HathifilePath(w: World, x: D.Derivative)
    requires x.kind == D.Hathifile && "HATHIFILE_ARCHIVE" in w.env
    ensures D.PathAsWritten(w.env, x).Success?
    ensures Basename(D.PathAsWritten(w.env, x).value) == LoggedName(x)
  {
    D.EnvVarKindPath(w.env, x, "HATHIFILE_ARCHIVE");
    D.PathAndBasename(w.env, x);
  }

  /** One hathifile's log check flags it exactly when it exists and its
      name has no `hf_log` row. */
  lemma LogStepFlags(w: World, x: D.Derivative)
    requires x.kind == D.Hathifile && "HATHIFILE_ARCHIVE" in w.env
    ensures LogStep(w)(x) == Flag(C, Unlogged(w)(x), UnloggedError(w)(x))
  {
    HathifilePath(w, x);
  }

  /** With `HATHIFILE_ARCHIVE` set, the log check never raises and logs
      one error per existing hathifile without an `hf_log` row, in order;
      it is silent exactly when every existing hathifile is logged. */
  lemma LogVerdict(w: World, d: Date)
    requires "HATHIFILE_ARCHIVE" in w.env
    ensures VerifyLog(w, d) == Report(Flagged(C, Of(d), Unlogged(w), UnloggedError(w)), None)
    ensures VerifyLog(w, d) == Clean <==>
      forall i :: 0 <= i < |Of(d)| ==> Exists(w.fs, D.PathAsWritten(w.env, Of(d)[i]).value) ==> LoggedName(Of(d)[i]) in w.hfLog
  {
    var xs := Of(d);
    forall i | 0 <= i < |xs|
      ensures LogStep(w)(xs[i]) == Flag(C, Unlogged(w)(xs[i]), UnloggedError(w)(xs[i]))
      ensures D.PathAsWritten(w.env, xs[i]).Success?
    {
      LogStepFlags(w, xs[i]);
      HathifilePath(w, xs[i]);
    }
    ForEachFlags(C, xs, Unlogged(w), UnloggedError(w), LogStep(w));
  }

  /** Only the first of a month has a full hathifile, so on other days the
      count check does nothing. */
  lemma CountOnFirstOnly(w: World, d: Date)
    ensures !IsFirstOfMonth(d) ==> VerifyCount(w, d) == Clean
    ensures IsFirstOfMonth(d) ==> FullOnes(Of(d)) == [D.Derivative(D.Hathifile, d, true)]
  {
    var xs := Of(d);
    if IsFirstOfMonth(d) {
      assert xs == [D.Derivative(D.Hathifile, d, false), D.Derivative(D.Hathifile, d, true)];
      assert FullOnes(xs[1..]) == [D.Derivative(D.Hathifile, d, true)] + FullOnes(xs[2..]);
    } else {
      assert xs == [D.Derivative(D.Hathifile, d, false)];
      assert FullOnes(xs) == [] + FullOnes(xs[1..]);
    }
  }

  /** On the first of a month the full hathifile is counted when it
      exists: one error exactly when it has more lines than `hf` has rows;
      a full file that is absent is not counted at all. */
  lemma CountVerdict(w: World, d: Date)
    requires IsFirstOfMonth(d) && "HATHIFILE_ARCHIVE" in w.env
    ensures var p := D.PathAsWritten(w.env, D.Derivative(D.Hathifile, d, true)).value;
      && (!Exists(w.fs, p) ==> VerifyCount(w, d) == Clean)
      && (Lines(w.fs, p).Success? ==>
            VerifyCount(w, d) == Flag(C, |Lines(w.fs, p).value| > w.hfCount, CountMismatch(p, |Lines(w.fs, p).value|, w.hfCount)))
      && (Exists(w.fs, p) && Lines(w.fs, p).Failure? ==> VerifyCount(w, d) == Raised(FileError(p)))
  {
    var x := D.Derivative(D.Hathifile, d, true);
    CountOnFirstOnly(w, d);
    HathifilePath(w, x);
    ForEachOne(x, CountStep(w));
  }

  /** A run date passes exactly when both checks do; the log check's
      errors come first. */
  lemma RunForDateVerdict(w: World, d: Date)
    ensures RunForDate(w, d) == Clean <==> VerifyLog(w, d) == Clean && VerifyCount(w, d) == Clean
    ensures VerifyLog(w, d).raised.None? ==>
      RunForDate(w, d).errors[..|VerifyLog(w, d).errors|] == VerifyLog(w, d).errors
  {
    ThenClean(VerifyLog(w, d), VerifyCount(w, d));
  }
}

=== FILE: hathifiles_listing.dfy ===
/** `Verifier::HathifilesListing` (lib/verifier/hathifiles_listing.rb):
    every web-directory hathifile of a run date must be readable and must
    be listed, by file name, in `hathi_file_list.json` under `WWW_DIR`.

    As written, `HathifileWWW#path` joins the Symbol `:WWW_DIR`, so the
    first derivative raises `TypeError` before anything is checked
    (`RunForDateAsWritten`). `RunForDate` reads the Symbol as the `WWW_DIR`
    variable, the directory the listing itself is read from. */
module HathifilesListingVerifier {
  import opened Wrappers
  import opened Calendar
  import opened Dates
  import L = Location
  import opened FileSystem
  import opened Verifier
  import opened Paths
  import opened Json
  import D = Derivative

  const C: Class := HathifilesListing

  /** What the check looks at: the environment, the files, and
      `JSON.parse`, `None` standing for `JSON::ParserError`. */
  datatype World = World(env: L.Environment, fs: FileSystem, parse: string -> Option<Json>)

  /** `HathifileWWW.derivatives_for_date(date:)` */
  function Of(d: Date): seq<D.Derivative> {
    D.DerivativesForDate(D.HathifileWWW, d).value
  }

  /** `listings`: the `"filename"` of every listing in the JSON file, as a
      set. The memoized value is the same for every call because the files
      do not change during a run. */
  function Listings(w: World): (r: Result<set<Json>>)
    ensures D.ListingJsonPath(w.env).Failure? ==> r == Failure(D.ListingJsonPath(w.env).error)
    ensures D.ListingJsonPath(w.env).Success? && Read(w.fs, D.ListingJsonPath(w.env).value).Failure? ==>
      r == Failure(FileError(D.ListingJsonPath(w.env).value))
  {
    var path :- D.ListingJsonPath(w.env);
    var text :- Read(w.fs, path);
    match w.parse(text)
    case None => Failure(ParserError(text))
    case Some(j) =>
      var names :- MapIndex(j, "filename");
      Success(set n | n in names)
  }

  /** A listing that loads came from a readable JSON file that parses, and
      its names are exactly the `"filename"` values of the array's
      elements; an empty object lists nothing. */
  lemma ListingsAreFilenames(w: World)
    requires Listings(w).Success?
    ensures D.ListingJsonPath(w.env).Success?
    ensures var text := Read(w.fs, D.ListingJsonPath(w.env).value);
      && text.Success? && w.parse(text.value).Some?
      && MapIndex(w.parse(text.value).value, "filename").Success?
    ensures var j := w.parse(Read(w.fs, D.ListingJsonPath(w.env).value).value).value;
      j.Array? ==> forall n :: n in Listings(w).value <==> exists i :: 0 <= i < |j.items| && Index(j.items[i], "filename") == Success(n)
    ensures var j := w.parse(Read(w.fs, D.ListingJsonPath(w.env).value).value).value;
      j.Object? ==> Listings(w).value == {}
  {
  }

  function NoListingError(name: string, jsonPath: string): string {
    "No listing with filename: " + name + " in " + jsonPath
  }

  /** `verify_file_in_json(filename:)` */
  function VerifyFileInJson(w: World, name: string): (r: Report)
    ensures Listings(w).Failure? ==> r == Raised(Listings(w).error)
    ensures Listings(w).Success? ==> r.raised.None? && (r == Clean <==> Str(name) in Listings(w).value)
  {
    match Listings(w)
    case Failure(e) => Raised(e)
    case Success(names) => Flag(C, Str(name) !in names, NoListingError(name, D.ListingJsonPath(w.env).value))
  }

  /** `verify_listing(path:)`: the file check, then the listing check of
      its base name, whatever the file check found. */
  function VerifyListing(w: World, path: string): Report {
    Then(VerifyFile(C, w.fs, path).1, VerifyFileInJson(w, Basename(path)))
  }

  /** The loop body of `verify_hathifiles_listing`, for a way of computing
      a derivative's path. */
  function ListingStep(w: World, path: D.Derivative -> Result<string>): D.Derivative -> Report {
    x =>
      match path(x)
      case Failure(e) => Raised(e)
      case Success(p) => VerifyListing(w, p)
  }

  /** The path as `HathifileWWW#path` computes it, and as corrected. */
  function PathAsWritten(w: World): D.Derivative -> Result<string> {
    x => D.PathAsWritten(w.env, x)
  }

  function PathOf(w: World): D.Derivative -> Result<string> {
    x => D.PathOf(w.env, x)
  }

  /** `run_for_date` as written. */
  function RunForDateAsWritten(w: World, d: Date): Report {
    ForEach(Of(d), ListingStep(w, PathAsWritten(w)))
  }

  /** `run_for_date` with the web directory read from `WWW_DIR`. */
  function RunForDate(w: World, d: Date): Report {
    ForEach(Of(d), ListingStep(w, PathOf(w)))
  }

  // ---------------------------------------------------------------------
  // Properties

  /** As written, every run date raises the `File.join` TypeError before
      logging anything, whatever the environment and the files. */
  lemma AsWrittenAlwaysRaises(w: World, d: Date)
    ensures RunForDateAsWritten(w, d) == Raised(TypeError("no implicit conversion of Symbol into String"))
  {
    var xs := Of(d);
    var step := ListingStep(w, PathAsWritten(w));
    D.OnlyWebHathifilesChange(w.env, xs[0]);
    assert step(xs[0]) == Raised(TypeError("no implicit conversion of Symbol into String"));
    ThenLaws(step(xs[0]), ForEach(xs[1..], step), Clean);
  }

  /** With `WWW_DIR` set, a web hathifile's path is its file name under
      that directory. */
  lemma WebPath(w: World, x: D.Derivative)
    requires x.kind == D.HathifileWWW && "WWW_DIR" in w.env
    ensures PathOf(w)(x).Success?
    ensures Basename(PathOf(w)(x).value) == D.DatestampedFile(x)
  {
    D.OnlyWebHathifilesChange(w.env, x);
    D.PathAndBasename(w.env, x);
  }

  /** A file is checked, then looked up by name, and both findings are
      kept. */
  lemma ListingChecksBoth(w: World, x: D.Derivative)
    requires x.kind == D.HathifileWWW && "WWW_DIR" in w.env && Listings(w).Success?
    ensures ListingStep(w, PathOf(w))(x).raised.None?
    ensures ListingStep(w, PathOf(w))(x) == Clean <==>
      Readable(w.fs, PathOf(w)(x).value) && Str(D.DatestampedFile(x)) in Listings(w).value
  {
    WebPath(w, x);
    var p := PathOf(w)(x).value;
    ThenClean(VerifyFile(C, w.fs, p).1, VerifyFileInJson(w, Basename(p)));
  }

  /** With `WWW_DIR` set and a listing that loads, the check never raises,
      and it is silent exactly when every web hathifile of the date is
      readable and listed under its file name. */
  lemma ListingVerdict(w: World, d: Date)
    requires "WWW_DIR" in w.env && Listings(w).Success?
    ensures RunForDate(w, d).raised.None?
    ensures RunForDate(w, d) == Clean <==>
      forall i :: 0 <= i < |Of(d)| ==>
        Readable(w.fs, PathOf(w)(Of(d)[i]).value) && Str(D.DatestampedFile(Of(d)[i])) in Listings(w).value
  {
    var xs := Of(d);
    forall i | 0 <= i < |xs|
      ensures ListingStep(w, PathOf(w))(xs[i]).raised.None?
      ensures ListingStep(w, PathOf(w))(xs[i]) == Clean <==>
        Readable(w.fs, PathOf(w)(xs[i]).value) && Str(D.DatestampedFile(xs[i])) in Listings(w).value
    {
      ListingChecksBoth(w, xs[i]);
    }
    ForEachClean(xs, ListingStep(w, PathOf(w)));
  }

  /** A file that is missing and unlisted is two errors: not found, then
      no listing. */
  lemma MissingAndUnlisted(w: World, path: string)
    requires Listings(w).Success?
    requires !Exists(w.fs, path) && Str(Basename(path)) !in Listings(w).value
    ensures VerifyListing(w, path) == Report([
      Entry(C, "not found: " + path),
      Entry(C, NoListingError(Basename(path), D.ListingJsonPath(w.env).value))], None)
  {
  }

  /** A web hathifile is checked at its path under `WWW_DIR`. */
  lemma WebStep(w: World, x: D.Derivative)
    requires x.kind == D.HathifileWWW && "WWW_DIR" in w.env
    ensures PathOf(w)(x).Success?
    ensures ListingStep(w, PathOf(w))(x) == VerifyListing(w, PathOf(w)(x).value)
  {
    WebPath(w, x);
  }

  /** With none of the date's web hathifiles present and none listed, each
      expected file is two errors: four on the first of a month, two on
      other days. */
  lemma NothingPresent(w: World, d: Date)
    requires "WWW_DIR" in w.env && Listings(w).Success?
    requires forall x :: x in Of(d) ==> !Exists(w.fs, PathOf(w)(x).value)
    requires forall n :: Str(n) !in Listings(w).value
    ensures RunForDate(w, d).raised.None?
    ensures |RunForDate(w, d).errors| == if IsFirstOfMonth(d) then 4 else 2
  {
    var xs := Of(d);
    var step := ListingStep(w, PathOf(w));
    forall i | 0 <= i < |xs|
      ensures step(xs[i]).raised.None? && |step(xs[i]).errors| == 2
    {
      WebStep(w, xs[i]);
      MissingAndUnlisted(w, PathOf(w)(xs[i]).value);
    }
    ForEachCounts(xs, step, 2);
  }
}

=== FILE: inventory.dfy ===
/** Directory inventories (lib/derivatives.rb and lib/monthly_inventory.rb,
    `directory_inventory`): the dates of the files in some directories whose
    names match a line-anchored pattern `^prefix(\d{8})suffix$`, the date
    being `Date.parse` of the eight digits, kept when it falls in the period of
    interest, then sorted and de-duplicated. */
module Inventory {
  import opened Wrappers
  import opened Text
  import opened Calendar
  import opened Datestamp
  import opened DateSeqs
  import opened FileSystem

  /** The pattern `^prefix(\d{8})suffix$`. Ruby's `^` and `$` are line
      anchors: they hold at the ends of the name and next to each newline
      in it, so the pattern matches a name one of whose lines is the
      prefix, eight digits and the suffix. */
  datatype Pattern = Pattern(prefix: string, suffix: string)

  /** The file name the pattern gives a datestamp. */
  function Named(p: Pattern, d: Date): string {
    p.prefix + Compact(d) + p.suffix
  }

  /** The length of a match. */
  function Width(p: Pattern): nat {
    |p.prefix| + 8 + |p.suffix|
  }

  /** The pattern matches `name` at position `i`: `^` holds there, the
      prefix, eight digits and the suffix follow, and `$` holds after
      them. */
  predicate MatchAt(name: string, p: Pattern, i: int) {
    0 <= i && i + Width(p) <= |name|
    && (i == 0 || name[i - 1] == '\n')
    && name[i..i + |p.prefix|] == p.prefix
    && AllDigits(name[i + |p.prefix|..i + |p.prefix| + 8])
    && name[i + |p.prefix| + 8..i + Width(p)] == p.suffix
    && (i + Width(p) == |name| || name[i + Width(p)] == '\n')
  }

  /** The eight-digit group of a match. */
  function GroupAt(name: string, p: Pattern, i: int): string
    requires MatchAt(name, p, i)
  {
    name[i + |p.prefix|..i + |p.prefix| + 8]
  }

  /** The leftmost position at or after `i` where the pattern matches. */
  function FirstMatch(name: string, p: Pattern, i: nat): (r: Option<nat>)
    ensures r.Some? ==> i <= r.value && MatchAt(name, p, r.value)
    ensures forall j :: i <= j && (r.None? || j < r.value) ==> !MatchAt(name, p, j)
    decreases |name| + 1 - i
  {
    if i > |name| then None
    else if MatchAt(name, p, i) then Some(i)
    else FirstMatch(name, p, i + 1)
  }

  /** `m[1]` of `pattern.match(name)`: nil when the pattern matches no
      line of the name, and otherwise eight digits, those of the leftmost
      match (`StampInLeftmost`). */
  function StampIn(name: string, p: Pattern): (r: Option<string>)
    ensures r.None? <==> forall i :: !MatchAt(name, p, i)
    ensures r.Some? ==> |r.value| == 8 && AllDigits(r.value)
  {
    match FirstMatch(name, p, 0)
    case None => None
    case Some(i) => Some(GroupAt(name, p, i))
  }

  /** The group found is the one of the leftmost match. */
  lemma StampInLeftmost(name: string, p: Pattern, i: int)
    requires MatchAt(name, p, i)
    requires forall j :: 0 <= j < i ==> !MatchAt(name, p, j)
    ensures StampIn(name, p) == Some(GroupAt(name, p, i))
  {
    var f := FirstMatch(name, p, 0);
    assert f.Some? && f.value <= i;
  }

  /** The pattern's own name for eight digits matches at once, whatever
      the prefix and suffix hold. */
  lemma StampInComplete(p: Pattern, t: string)
    requires |t| == 8 && AllDigits(t)
    ensures StampIn(p.prefix + t + p.suffix, p) == Some(t)
  {
    var name := p.prefix + t + p.suffix;
    var n := |p.prefix|;
    assert name[0..0 + n] == p.prefix && name[0 + n..0 + n + 8] == t && name[0 + n + 8..0 + Width(p)] == p.suffix;
    StampInLeftmost(name, p, 0);
  }

  /** A name without a newline is one line: the pattern matches it exactly
      when it is the prefix, eight digits and the suffix. */
  lemma StampInOneLine(name: string, p: Pattern, t: string)
    requires '\n' !in name
    ensures StampIn(name, p) == Some(t) <==> |t| == 8 && AllDigits(t) && name == p.prefix + t + p.suffix
  {
    if StampIn(name, p) == Some(t) {
      var i := FirstMatch(name, p, 0).value;
      assert forall k :: 0 <= k < |name| ==> name[k] != '\n';
      assert i == 0 && Width(p) == |name|;
      var n := |p.prefix|;
      assert name == name[0..0 + n] + name[0 + n..0 + n + 8] + name[0 + n + 8..0 + Width(p)];
    }
    if |t| == 8 && AllDigits(t) && name == p.prefix + t + p.suffix {
      StampInComplete(p, t);
    }
  }

  /** A match holds no newline when the prefix and suffix hold none. */
  lemma MatchIsOneLine(s: string, p: Pattern, i: int, k: int)
    requires '\n' !in p.prefix && '\n' !in p.suffix
    requires MatchAt(s, p, i) && i <= k < i + Width(p)
    ensures s[k] != '\n'
  {
    var n := |p.prefix|;
    if k < i + n {
      assert s[k] == s[i..i + n][k - i];
      assert p.prefix[k - i] in p.prefix;
    } else if k < i + n + 8 {
      assert s[k] == s[i + n..i + n + 8][k - i - n];
    } else {
      assert s[k] == s[i + n + 8..i + Width(p)][k - i - n - 8];
      assert p.suffix[k - i - n - 8] in p.suffix;
    }
  }

  /** Positions in the first line of `a + "\n" + b` match as in `a`. */
  lemma MatchInFirst(a: string, b: string, p: Pattern, i: int)
    requires '\n' !in p.prefix && '\n' !in p.suffix
    requires 0 <= i <= |a|
    ensures MatchAt(a + "\n" + b, p, i) <==> MatchAt(a, p, i)
    ensures MatchAt(a, p, i) ==> GroupAt(a + "\n" + b, p, i) == GroupAt(a, p, i)
  {
    var s := a + "\n" + b;
    var m, n, w := |a|, |p.prefix|, Width(p);
    assert s[m] == '\n';
    if MatchAt(s, p, i) && i + w > m {
      MatchIsOneLine(s, p, i, m);
    }
    if i + w <= m {
      assert s[..m] == a;
      assert s[i..i + n] == a[i..i + n];
      assert s[i + n..i + n + 8] == a[i + n..i + n + 8];
      assert s[i + n + 8..i + w] == a[i + n + 8..i + w];
      assert i > 0 ==> s[i - 1] == a[i - 1];
      assert i + w < m ==> s[i + w] == a[i + w];
    }
  }

  /** Positions in the rest of `a + "\n" + b` match as in `b`. */
  lemma MatchInRest(a: string, b: string, p: Pattern, k: int)
    requires 0 <= k
    ensures MatchAt(a + "\n" + b, p, |a| + 1 + k) <==> MatchAt(b, p, k)
    ensures MatchAt(b, p, k) ==> GroupAt(a + "\n" + b, p, |a| + 1 + k) == GroupAt(b, p, k)
  {
    var s := a + "\n" + b;
    var i, n, w := |a| + 1 + k, |p.prefix|, Width(p);
    assert s[|a|] == '\n';
    if k + w <= |b| {
      assert s[|a| + 1..] == b;
      assert s[i..i + n] == b[k..k + n];
      assert s[i + n..i + n + 8] == b[k + n..k + n + 8];
      assert s[i + n + 8..i + w] == b[k + n + 8..k + w];
      assert k > 0 ==> s[i - 1] == b[k - 1];
      assert k + w < |b| ==> s[i + w] == b[k + w];
    }
  }

  /** Line by line: the group found in `a + "\n" + b` is the one of `a`
      when the pattern matches `a`, and the one of `b` otherwise. */
  lemma StampInLines(a: string, b: string, p: Pattern)
    requires '\n' !in p.prefix && '\n' !in p.suffix
    ensures StampIn(a + "\n" + b, p) == if StampIn(a, p).Some? then StampIn(a, p) else StampIn(b, p)
  {
    if StampIn(a, p).Some? {
      StampInFirstLine(a, b, p);
    } else {
      StampInLaterLine(a, b, p);
    }
  }

  lemma StampInFirstLine(a: string, b: string, p: Pattern)
    requires '\n' !in p.prefix && '\n' !in p.suffix
    requires StampIn(a, p).Some?
    ensures StampIn(a + "\n" + b, p) == StampIn(a, p)
  {
    var i := FirstMatch(a, p, 0).value;
    MatchInFirst(a, b, p, i);
    forall j | 0 <= j < i ensures !MatchAt(a + "\n" + b, p, j) {
      MatchInFirst(a, b, p, j);
    }
    StampInLeftmost(a + "\n" + b, p, i);
  }

  lemma StampInLaterLine(a: string, b: string, p: Pattern)
    requires '\n' !in p.prefix && '\n' !in p.suffix
    requires StampIn(a, p).None?
    ensures StampIn(a + "\n" + b, p) == StampIn(b, p)
  {
    var s, m := a + "\n" + b, |a|;
    if StampIn(b, p).Some? {
      var k := FirstMatch(b, p, 0).value;
      MatchInRest(a, b, p, k);
      forall j | 0 <= j < m + 1 + k ensures !MatchAt(s, p, j) {
        if j <= m {
          MatchInFirst(a, b, p, j);
        } else {
          MatchInRest(a, b, p, j - m - 1);
        }
      }
      StampInLeftmost(s, p, m + 1 + k);
    } else {
      forall j ensures !MatchAt(s, p, j) {
        if 0 <= j <= m {
          MatchInFirst(a, b, p, j);
        } else if m < j {
          MatchInRest(a, b, p, j - m - 1);
        }
      }
    }
  }

  /** A name shorter than eight characters has no room for a match. */
  lemma ShortNameUnmatched(name: string, p: Pattern)
    requires |name| < 8
    ensures StampIn(name, p).None?
  {
  }

  /** `d` is what the pattern reads from `name`: the first line of `name`
      it matches is the file name of `d`. */
  predicate Names(name: string, p: Pattern, d: Date) {
    HasFourDigitYear(d) && StampIn(name, p) == Some(Compact(d))
  }

  /** The file name of `d` names `d`, and so does any name whose first
      line is that file name, or whose first matching line is. */
  lemma NamesOnAnyLine(p: Pattern, d: Date, first: string, rest: string)
    requires '\n' !in p.prefix && '\n' !in p.suffix
    requires HasFourDigitYear(d)
    ensures Names(Named(p, d), p, d)
    ensures Names(Named(p, d) + "\n" + rest, p, d)
    ensures StampIn(first, p).None? ==> Names(first + "\n" + Named(p, d), p, d)
  {
    CompactRoundTrip(d);
    StampInComplete(p, Compact(d));
    StampInLines(Named(p, d), rest, p);
    StampInLines(first, Named(p, d), p);
  }

  /** A name matches with an eight-digit group that is not a date:
      `Date.parse` raises on it. */
  predicate HasInvalidStamp(name: string, p: Pattern) {
    StampIn(name, p).Some? && ParseCompact(StampIn(name, p).value).None?
  }

  /** One step of the `filter_map`: nil for a name the pattern rejects, the
      parsed date otherwise; `Date.parse` raises on an invalid group. */
  function StampDate(name: string, p: Pattern): (r: Result<Option<Date>>)
    ensures r.Failure? <==> HasInvalidStamp(name, p)
    ensures r.Failure? ==> r.error.DateError?
    ensures r.Success? && r.value.None? <==> StampIn(name, p).None?
    ensures r.Success? && r.value.Some? ==> Names(name, p, r.value.value)
  {
    match StampIn(name, p)
    case None => Success(None)
    case Some(t) =>
      match ParseCompact(t)
      case None => Failure(DateError(t))
      case Some(d) =>
        ParseCompactInverse(t, d);
        Success(Some(d))
  }

  /** A name that names `d` is read as `d`. */
  lemma StampDateOfNames(name: string, p: Pattern, d: Date)
    requires Names(name, p, d)
    ensures StampDate(name, p) == Success(Some(d))
  {
    CompactRoundTrip(d);
  }

  /** The name of a date is matched and parsed back to that date. */
  lemma StampDateOfNamed(p: Pattern, d: Date)
    requires HasFourDigitYear(d)
    ensures StampDate(Named(p, d), p) == Success(Some(d))
  {
    CompactRoundTrip(d);
    StampInComplete(p, Compact(d));
  }

  /** `filter_map { |f| (m = pattern.match(f)) && Date.parse(m[1]) }`:
      the first invalid eight-digit group raises; which dates it keeps is
      `DatesOfNames`. */
  function DatesInNames(names: seq<string>, p: Pattern): (r: Result<seq<Date>>)
    ensures r.Failure? <==> exists i :: 0 <= i < |names| && HasInvalidStamp(names[i], p)
    ensures r.Failure? ==> r.error.DateError?
  {
    if |names| == 0 then Success([])
    else
      var head := StampDate(names[0], p);
      var rest := DatesInNames(names[1..], p);
      assert forall i :: 1 <= i < |names| ==> names[i] == names[1..][i - 1];
      if head.Failure? then Failure(head.error)
      else if rest.Failure? then rest
      else Success((if head.value.Some? then [head.value.value] else []) + rest.value)
  }

  /** The dates kept are exactly those some name names. */
  lemma {:induction false} DatesOfNames(names: seq<string>, p: Pattern)
    requires DatesInNames(names, p).Success?
    ensures forall d: Date :: d in DatesInNames(names, p).value <==> exists i :: 0 <= i < |names| && Names(names[i], p, d)
  {
    if |names| > 0 {
      var r := DatesInNames(names, p).value;
      var head := StampDate(names[0], p);
      var rest := DatesInNames(names[1..], p);
      DatesOfNames(names[1..], p);
      assert r == (if head.value.Some? then [head.value.value] else []) + rest.value;
      forall d: Date ensures d in r <==> exists i :: 0 <= i < |names| && Names(names[i], p, d) {
        if d in r {
          if head.value == Some(d) {
            assert Names(names[0], p, d);
          } else {
            assert d in rest.value;
            var k :| 0 <= k < |names[1..]| && Names(names[1..][k], p, d);
            assert Names(names[k + 1], p, d);
          }
        }
        if exists i :: 0 <= i < |names| && Names(names[i], p, d) {
          var i :| 0 <= i < |names| && Names(names[i], p, d);
          if i == 0 {
            StampDateOfNames(names[0], p, d);
          } else {
            assert names[i] == names[1..][i - 1];
          }
        }
      }
    }
  }

  /** The part of the inventory kept: dates among the run dates of interest,
      or dates in the reference month. */
  datatype Selection = InWindow(window: seq<Date>) | InMonthOf(reference: Date)

  predicate Selected(sel: Selection, d: Date) {
    match sel
    case InWindow(w) => d in w
    case InMonthOf(m) => SameMonth(d, m)
  }

  /** `.select { ... }` */
  function Select(ds: seq<Date>, sel: Selection): (r: seq<Date>)
    ensures forall d :: d in r <==> d in ds && Selected(sel, d)
  {
    if |ds| == 0 then []
    else
      assert forall d :: d in ds <==> d == ds[0] || d in ds[1..];
      (if Selected(sel, ds[0]) then [ds[0]] else []) + Select(ds[1..], sel)
  }

  /** Some existing directory among `dirs` lists a name that names `d`. */
  predicate Listed(fs: FileSystem, dirs: seq<string>, p: Pattern, d: Date) {
    exists i, j :: 0 <= i < |dirs| && IsDirectory(fs, dirs[i])
      && 0 <= j < |Children(fs, dirs[i])| && Names(Children(fs, dirs[i])[j], p, d)
  }

  /** A directory that holds the file of `d` lists `d`. */
  lemma ListedWhenPresent(fs: FileSystem, dirs: seq<string>, p: Pattern, d: Date, i: int)
    requires HasFourDigitYear(d) && 0 <= i < |dirs| && IsDirectory(fs, dirs[i])
    requires Named(p, d) in Children(fs, dirs[i])
    ensures Listed(fs, dirs, p, d)
  {
    var j :| 0 <= j < |Children(fs, dirs[i])| && Children(fs, dirs[i])[j] == Named(p, d);
    CompactRoundTrip(d);
    StampInComplete(p, Compact(d));
  }

  /** No name in the existing directories among `dirs` holds a newline. */
  predicate SingleLineNames(fs: FileSystem, dirs: seq<string>) {
    forall i, j :: 0 <= i < |dirs| && IsDirectory(fs, dirs[i]) && 0 <= j < |Children(fs, dirs[i])| ==> '\n' !in Children(fs, dirs[i])[j]
  }

  /** When no name in the directories holds a newline, `d` is listed
      exactly when one of them holds the file of `d`. */
  lemma ListedExactly(fs: FileSystem, dirs: seq<string>, p: Pattern, d: Date)
    requires SingleLineNames(fs, dirs)
    ensures Listed(fs, dirs, p, d) <==>
      HasFourDigitYear(d) && exists i :: 0 <= i < |dirs| && IsDirectory(fs, dirs[i]) && Named(p, d) in Children(fs, dirs[i])
  {
    if Listed(fs, dirs, p, d) {
      var i, j :| 0 <= i < |dirs| && IsDirectory(fs, dirs[i])
        && 0 <= j < |Children(fs, dirs[i])| && Names(Children(fs, dirs[i])[j], p, d);
      StampInOneLine(Children(fs, dirs[i])[j], p, Compact(d));
    }
    if HasFourDigitYear(d) && exists i :: 0 <= i < |dirs| && IsDirectory(fs, dirs[i]) && Named(p, d) in Children(fs, dirs[i]) {
      var i :| 0 <= i < |dirs| && IsDirectory(fs, dirs[i]) && Named(p, d) in Children(fs, dirs[i]);
      ListedWhenPresent(fs, dirs, p, d, i);
    }
  }

  /** Some existing directory among `dirs` lists a name with an invalid
      eight-digit group. */
  predicate ListsInvalidStamp(fs: FileSystem, dirs: seq<string>, p: Pattern) {
    exists i, j :: 0 <= i < |dirs| && IsDirectory(fs, dirs[i])
      && 0 <= j < |Children(fs, dirs[i])| && HasInvalidStamp(Children(fs, dirs[i])[j], p)
  }

  /** The loop over the directories, nonexistent ones skipped. */
  function ScanDirs(fs: FileSystem, dirs: seq<string>, p: Pattern, sel: Selection): (r: Result<seq<Date>>)
    ensures r.Failure? <==> ListsInvalidStamp(fs, dirs, p)
    ensures r.Failure? ==> r.error.DateError?
    ensures r.Success? ==> forall d: Date :: d in r.value <==> Selected(sel, d) && HasFourDigitYear(d) && Listed(fs, dirs, p, d)
  {
    if |dirs| == 0 then Success([])
    else
      var here := if IsDirectory(fs, dirs[0]) then DatesInNames(Children(fs, dirs[0]), p) else Success([]);
      var rest := ScanDirs(fs, dirs[1..], p, sel);
      assert forall i :: 1 <= i < |dirs| ==> dirs[i] == dirs[1..][i - 1];
      if here.Failure? then here
      else if rest.Failure? then rest
      else if IsDirectory(fs, dirs[0]) then
        DatesOfNames(Children(fs, dirs[0]), p);
        Success(Select(here.value, sel) + rest.value)
      else Success(Select(here.value, sel) + rest.value)
  }

  /** `directory_inventory`: sorted, de-duplicated, and containing exactly
      the selected four-digit-year dates some existing directory lists a
      file for. */
  function DirectoryInventory(fs: FileSystem, dirs: seq<string>, p: Pattern, sel: Selection): (r: Result<seq<Date>>)
    ensures r.Failure? <==> ListsInvalidStamp(fs, dirs, p)
    ensures r.Failure? ==> r.error.DateError?
    ensures r.Success? ==> StrictlyAscending(r.value)
    ensures r.Success? ==> forall d: Date :: d in r.value <==> Selected(sel, d) && HasFourDigitYear(d) && Listed(fs, dirs, p, d)
  {
    var ds :- ScanDirs(fs, dirs, p, sel);
    Success(SortUniq(ds))
  }

  /** With none of the directories present the inventory is empty. */
  lemma NoDirectoriesNoDates(fs: FileSystem, dirs: seq<string>, p: Pattern, sel: Selection)
    requires forall i :: 0 <= i < |dirs| ==> !IsDirectory(fs, dirs[i])
    ensures DirectoryInventory(fs, dirs, p, sel) == Success([])
  {
    var r := DirectoryInventory(fs, dirs, p, sel);
    assert r.Success?;
    FirstIsMember(r.value);
  }
}

=== FILE: journal.dfy ===
/** `Journal` (lib/journal.rb): the dates of the Zephir files a run
    processed, kept sorted and written as a YAML list of `YYYYMMDD` strings
    to `journal.yml` under `DATA_ROOT`, where the verifiers read them back. */
module Journal {
  import opened Wrappers
  import opened Calendar
  import opened Datestamp
  import opened Location
  import opened DateSeqs

  /** `JOURNAL_NAME` */
  const JournalName: string := "journal.yml"

  /** An element of the `dates:` argument: a String to be parsed, or a
      Date taken as it is. */
  datatype Entry = Text(s: string) | Day(d: Date)

  /** `destination_path`: `File.join(ENV["DATA_ROOT"], JOURNAL_NAME)`, the
      same path every time, so each run overwrites the last journal. */
  function DestinationPath(env: Environment): (r: Result<string>)
    ensures "DATA_ROOT" in env ==> r == Success(Paths.Join(env["DATA_ROOT"], JournalName))
    ensures "DATA_ROOT" !in env ==> r == Failure(TypeError("no implicit conversion of nil into String"))
  {
    EnvVarPath(env, "DATA_ROOT", JournalName, false);
    PathIn(env, EnvVar("DATA_ROOT"), JournalName, false)
  }

  /** `date.is_a?(String) ? Date.parse(date) : date` */
  function ParseEntry(e: Entry): (r: Result<Date>)
    ensures e.Day? ==> r == Success(e.d)
    ensures e.Text? && r.Success? ==> Compact(r.value) == e.s || ParseHyphenated(e.s) == Some(r.value)
    ensures e.Text? ==> (r.Success? <==> ParseCompact(e.s).Some? || ParseHyphenated(e.s).Some?)
    ensures r.Failure? ==> r.error.DateError?
  {
    match e
    case Day(d) => Success(d)
    case Text(s) =>
      if ParseCompact(s).Some? then
        ParseCompactInverse(s, ParseCompact(s).value);
        Success(ParseCompact(s).value)
      else if ParseHyphenated(s).Some? then Success(ParseHyphenated(s).value)
      else Failure(DateError(s))
  }

  /** The `map`: every entry converted, the first unparsable one raising. */
  function Parsed(entries: seq<Entry>): (r: Result<seq<Date>>)
    ensures r.Failure? <==> exists i :: 0 <= i < |entries| && ParseEntry(entries[i]).Failure?
    ensures r.Success? ==> |r.value| == |entries|
    ensures r.Success? ==> forall i :: 0 <= i < |entries| ==> ParseEntry(entries[i]) == Success(r.value[i])
  {
    var steps := seq(|entries|, i requires 0 <= i < |entries| => ParseEntry(entries[i]));
    assert forall i :: 0 <= i < |entries| ==> steps[i] == ParseEntry(entries[i]);
    Collect(steps)
  }

  /** `Journal.new(dates:)`: the stored dates are the converted entries in
      ascending order, every one of them kept, duplicates included. */
  function New(entries: seq<Entry>): (r: Result<seq<Date>>)
    ensures r.Failure? <==> Parsed(entries).Failure?
    ensures r.Success? ==> Ascending(r.value)
    ensures r.Success? ==> multiset(r.value) == multiset(Parsed(entries).value)
    ensures r.Success? ==> |r.value| == |entries|
  {
    var ds :- Parsed(entries);
    Success(Sort(ds))
  }

  /** `write!`: `to_yyyymmdd` of each stored date, in stored order. */
  function Written(dates: seq<Date>): (r: seq<string>)
    ensures |r| == |dates|
    ensures forall i :: 0 <= i < |dates| && HasFourDigitYear(dates[i]) ==>
      |r[i]| == 8 && Text.AllDigits(r[i]) && ParseCompact(r[i]) == Some(dates[i])
  {
    forall i | 0 <= i < |dates| && HasFourDigitYear(dates[i])
      ensures |Compact(dates[i])| == 8 && Text.AllDigits(Compact(dates[i])) && ParseCompact(Compact(dates[i])) == Some(dates[i])
    {
      CompactRoundTrip(dates[i]);
    }
    seq(|dates|, i requires 0 <= i < |dates| => Compact(dates[i]))
  }

  /** The written strings as `from_yaml` hands them to the constructor. */
  function AsEntries(lines: seq<string>): seq<Entry> {
    seq(|lines|, i requires 0 <= i < |lines| => Text(lines[i]))
  }

  /** An empty journal stays empty. */
  lemma EmptyJournal()
    ensures New([]) == Success([])
  {
  }

  /** Entries that are already dates come out as their sorted permutation,
      which for an ascending list (a `Range` of dates) is the list itself. */
  lemma {:induction false} DatesAreSorted(ds: seq<Date>)
    ensures New(seq(|ds|, i requires 0 <= i < |ds| => Day(ds[i]))) == Success(Sort(ds))
    ensures Ascending(ds) ==> New(seq(|ds|, i requires 0 <= i < |ds| => Day(ds[i]))) == Success(ds)
  {
    var entries := seq(|ds|, i requires 0 <= i < |ds| => Day(ds[i]));
    var p := Parsed(entries);
    assert p.Success?;
    assert p.value == ds;
    if Ascending(ds) {
      SortOfAscending(ds);
    }
  }

  /** Round trip: a journal written and read back from `journal.yml` holds
      the same dates, provided their years have four digits. */
  lemma {:induction false} WriteThenRead(dates: seq<Date>)
    requires Ascending(dates)
    requires forall i :: 0 <= i < |dates| ==> HasFourDigitYear(dates[i])
    ensures New(AsEntries(Written(dates))) == Success(dates)
  {
    var entries := AsEntries(Written(dates));
    forall i | 0 <= i < |entries| ensures ParseEntry(entries[i]) == Success(dates[i]) {
      CompactRoundTrip(dates[i]);
    }
    var p := Parsed(entries);
    assert p.Success?;
    assert p.value == dates;
    SortOfAscending(dates);
  }

  /** Conversely, eight-digit lines in date order, read back and written
      out again, come out unchanged. */
  lemma {:induction false} ReadThenWrite(lines: seq<string>, dates: seq<Date>)
    requires forall i :: 0 <= i < |lines| ==> |lines[i]| == 8 && Text.AllDigits(lines[i])
    requires Parsed(AsEntries(lines)) == Success(dates) && Ascending(dates)
    ensures New(AsEntries(lines)) == Success(dates)
    ensures Written(dates) == lines
  {
    var entries := AsEntries(lines);
    forall i | 0 <= i < |lines| ensures Compact(dates[i]) == lines[i] {
      assert ParseEntry(entries[i]) == Success(dates[i]);
      assert ParseCompact(lines[i]).Some?;
      ParseCompactInverse(lines[i], dates[i]);
    }
    SortOfAscending(dates);
  }
}

=== FILE: json.dfy ===
/** The JSON values the verifiers look into once `JSON.parse` (or
    `JSON.load_file`) has turned text into Ruby objects, and the two Ruby
    operations they apply to them: `value[key]` with a String key and
    `Hash#keys`. Parsing itself is not modelled: the verifiers receive it as
    a function from text to a value, `None` standing for `JSON::ParserError`. */
module Json {
  import opened Wrappers

  /** A parsed JSON value. An object keeps its members in document order;
      a number is an Integer. */
  datatype Json =
    | Null
    | Bool(b: bool)
    | Number(n: int)
    | Str(s: string)
    | Array(items: seq<Json>)
    | Object(members: seq<(string, Json)>)

  /** The keys of an object, `Hash#keys` read as a set. */
  function KeySet(members: seq<(string, Json)>): (r: set<string>)
    ensures forall k :: k in r <==> exists i :: 0 <= i < |members| && members[i].0 == k
  {
    set i | 0 <= i < |members| :: members[i].0
  }

  /** `hash[key]`: a later member with the same key replaces an earlier
      one, as `JSON.parse` builds the Hash; an absent key is nil. */
  function Lookup(members: seq<(string, Json)>, key: string): (r: Json)
    ensures key !in KeySet(members) ==> r == Null
    ensures key in KeySet(members) ==>
      exists i :: 0 <= i < |members| && members[i] == (key, r) && forall j :: i < j < |members| ==> members[j].0 != key
    decreases |members|
  {
    if |members| == 0 then Null
    else
      var last := members[|members| - 1];
      var init := members[..|members| - 1];
      assert forall i :: 0 <= i < |init| ==> init[i] == members[i];
      if last.0 == key then last.1 else Lookup(init, key)
  }

  /** `key` occurs in `s` as a substring. */
  predicate IsInfix(key: string, s: string)
    decreases |s|
  {
    key <= s || (|s| > 0 && IsInfix(key, s[1..]))
  }

  /** `value[key]` for a String `key`: a Hash looks the key up, a String
      answers the key when it occurs in it and nil otherwise, an Array or an
      Integer wants an Integer index, and nil, true and false have no `[]`. */
  function Index(j: Json, key: string): (r: Result<Json>)
    ensures j.Object? ==> r == Success(Lookup(j.members, key))
    ensures r.Failure? <==> !j.Object? && !j.Str?
  {
    match j
    case Object(ms) => Success(Lookup(ms, key))
    case Str(s) => Success(if IsInfix(key, s) then Str(key) else Null)
    case Array(_) => Failure(TypeError("no implicit conversion of String into Integer"))
    case Number(_) => Failure(TypeError("no implicit conversion of String into Integer"))
    case Null => Failure(NoMethodError("undefined method '[]' for nil"))
    case Bool(b) => Failure(NoMethodError("undefined method '[]' for " + (if b then "true" else "false")))
  }

  /** `value.map { |item| item[key] }`: an Array maps its items; a Hash
      maps its `[key, value]` pairs, which are Arrays and so refuse a String
      index; any other value has no `map`. */
  function MapIndex(j: Json, key: string): (r: Result<seq<Json>>)
    ensures r.Success? <==> (j.Array? && forall i :: 0 <= i < |j.items| ==> Index(j.items[i], key).Success?) || j == Object([])
    ensures r.Success? && j.Array? ==> |r.value| == |j.items| && forall i :: 0 <= i < |j.items| ==> Index(j.items[i], key) == Success(r.value[i])
  {
    match j
    case Array(items) =>
      var rs := seq(|items|, i requires 0 <= i < |items| => Index(items[i], key));
      assert forall i :: 0 <= i < |items| ==> rs[i] == Index(items[i], key);
      Collect(rs)
    case Object(ms) => if |ms| == 0 then Success([]) else Failure(TypeError("no implicit conversion of String into Integer"))
    case _ => Failure(NoMethodError("undefined method 'map'"))
  }

  /** An array of objects maps to the value each object holds for `key`,
      nil where it has none. */
  lemma ObjectsMapToLookups(items: seq<Json>, key: string)
    requires forall i :: 0 <= i < |items| ==> items[i].Object?
    ensures var r := MapIndex(Array(items), key);
      && r.Success? && |r.value| == |items|
      && forall i :: 0 <= i < |items| ==> r.value[i] == Lookup(items[i].members, key)
  {
    var r := MapIndex(Array(items), key);
    assert r.Success?;
    forall i | 0 <= i < |items| ensures r.value[i] == Lookup(items[i].members, key) {
      assert Index(items[i], key) == Success(r.value[i]);
    }
  }
}

=== FILE: location.dfy ===
/** Directory locations of the derivative kinds, as the Ruby expressions that
    compute them from the environment: `ENV["X"]`, `ENV.fetch("X")`,
    `a || b`, `File.join(a, "sub")`, and a bare Symbol. Resolving one can
    fail: `File.join` refuses nil and Symbols, `ENV.fetch` refuses unset
    variables. */
module Location {
  import opened Wrappers
  import opened Paths

  /** The process environment. */
  type Environment = map<string, string>

  /** A Ruby value a location expression evaluates to. */
  datatype Value = Str(s: string) | Nil | Sym(name: string)

  datatype Loc =
    | EnvVar(key: string)               // ENV["key"]
    | EnvFetch(key: string)             // ENV.fetch("key")
    | OrElse(first: Loc, second: Loc)   // first || second
    | Under(base: Loc, sub: string)     // File.join(base, sub)
    | Symbol(name: string)              // :name

  /** `File.join(v, name)`: only a String can be joined. */
  function JoinValue(v: Value, name: string): (r: Result<string>)
    ensures r.Success? <==> v.Str?
    ensures v.Str? ==> r.value == Join(v.s, name)
  {
    match v
    case Str(s) => Success(Join(s, name))
    case Nil => Failure(TypeError("no implicit conversion of nil into String"))
    case Sym(_) => Failure(TypeError("no implicit conversion of Symbol into String"))
  }

  /** Evaluates a location. When `resolveSymbols` holds, a Symbol stands
      for the environment variable of that name instead of being a value of
      its own. */
  function Eval(env: Environment, loc: Loc, resolveSymbols: bool): Result<Value> {
    match loc
    case EnvVar(k) => Success(if k in env then Str(env[k]) else Nil)
    case EnvFetch(k) => if k in env then Success(Str(env[k])) else Failure(KeyError(k))
    case OrElse(a, b) =>
      var va :- Eval(env, a, resolveSymbols);
      if va.Nil? then Eval(env, b, resolveSymbols) else Success(va)
    case Under(base, sub) =>
      var vb :- Eval(env, base, resolveSymbols);
      var p :- JoinValue(vb, sub);
      Success(Str(p))
    case Symbol(k) =>
      if resolveSymbols then Success(if k in env then Str(env[k]) else Nil) else Success(Sym(k))
  }

  /** `File.join(location, name)` once the location is evaluated. */
  function PathIn(env: Environment, loc: Loc, name: string, resolveSymbols: bool): (r: Result<string>)
    ensures r.Success? <==> Eval(env, loc, resolveSymbols).Success? && Eval(env, loc, resolveSymbols).value.Str?
    ensures r.Success? ==> r.value == Join(Eval(env, loc, resolveSymbols).value.s, name)
  {
    var v :- Eval(env, loc, resolveSymbols);
    JoinValue(v, name)
  }

  /** The directory a location names, when it names one. */
  function Directory(env: Environment, loc: Loc, resolveSymbols: bool): Option<string> {
    match Eval(env, loc, resolveSymbols)
    case Success(Str(s)) => Some(s)
    case _ => None
  }

  /** A path is the resolved directory joined with the name, and fails
      exactly when the directory does not resolve to a string; the name is
      recovered from the path by `basename`. */
  lemma PathIsDirectoryAndName(env: Environment, loc: Loc, name: string, resolveSymbols: bool)
    requires IsFileName(name)
    ensures PathIn(env, loc, name, resolveSymbols).Success? <==> Directory(env, loc, resolveSymbols).Some?
    ensures PathIn(env, loc, name, resolveSymbols).Success? ==>
      && PathIn(env, loc, name, resolveSymbols).value == Join(Directory(env, loc, resolveSymbols).value, name)
      && Basename(PathIn(env, loc, name, resolveSymbols).value) == name
  {
    if PathIn(env, loc, name, resolveSymbols).Success? {
      BasenameOfJoin(Directory(env, loc, resolveSymbols).value, name);
    }
  }

  /** As written, a bare Symbol never makes a path: `File.join` raises. */
  lemma SymbolNeverJoins(env: Environment, k: string, name: string)
    ensures PathIn(env, Symbol(k), name, false).Failure?
    ensures PathIn(env, Symbol(k), name, false).error.TypeError?
  {
  }

  /** The location mentions a bare Symbol. */
  predicate HasSymbol(loc: Loc) {
    match loc
    case EnvVar(_) | EnvFetch(_) => false
    case OrElse(a, b) => HasSymbol(a) || HasSymbol(b)
    case Under(base, _) => HasSymbol(base)
    case Symbol(_) => true
  }

  /** Reading Symbols as variables changes nothing for a location without
      one. */
  lemma {:induction false} SymbolsMatterOnlyWhenPresent(env: Environment, loc: Loc, name: string)
    requires !HasSymbol(loc)
    ensures Eval(env, loc, false) == Eval(env, loc, true)
    ensures PathIn(env, loc, name, false) == PathIn(env, loc, name, true)
  {
    match loc
    case EnvVar(_) =>
    case EnvFetch(_) =>
    case OrElse(a, b) =>
      SymbolsMatterOnlyWhenPresent(env, a, name);
      SymbolsMatterOnlyWhenPresent(env, b, name);
    case Under(base, _) =>
      SymbolsMatterOnlyWhenPresent(env, base, name);
  }

  /** A location that raises makes the path raise the same error. */
  lemma ErrorsPropagate(env: Environment, loc: Loc, name: string, resolveSymbols: bool)
    ensures Eval(env, loc, resolveSymbols).Failure? ==>
      PathIn(env, loc, name, resolveSymbols) == Failure(Eval(env, loc, resolveSymbols).error)
  {
  }

  /** `File.join(ENV["k"], name)`: an unset variable is nil, which
      `File.join` refuses. */
  lemma EnvVarPath(env: Environment, k: string, name: string, resolveSymbols: bool)
    ensures k in env ==> PathIn(env, EnvVar(k), name, resolveSymbols) == Success(Join(env[k], name))
    ensures k !in env ==>
      PathIn(env, EnvVar(k), name, resolveSymbols) == Failure(TypeError("no implicit conversion of nil into String"))
  {
  }
}

=== FILE: monthly_inventory.dfy ===
/** `MonthlyInventory` (lib/monthly_inventory.rb): the older finder, kept
    for the update files only. It takes the update, delete and rights files
    of the datestamp's month from the catalog prep and rights directories
    and reports the earliest date of the window with one of the three
    missing. */
module MonthlyInventory {
  import opened Wrappers
  import opened Calendar
  import opened Dates
  import opened Datestamp
  import opened Paths
  import opened Location
  import opened DateSeqs
  import opened FileSystem
  import opened Inventory

  /** The three parts of `@inventory`, in its order. */
  datatype Part = UpdateFiles | DeleteFiles | RightsFiles

  const Parts: seq<Part> := [UpdateFiles, DeleteFiles, RightsFiles]

  /** `UPDATE_REGEXP`, `DELETE_REGEXP`, `RIGHTS_REGEXP` */
  function PatternOf(p: Part): Pattern {
    match p
    case UpdateFiles => Pattern("zephir_upd_", ".json.gz")
    case DeleteFiles => Pattern("zephir_upd_", "_delete.txt.gz")
    case RightsFiles => Pattern("zephir_upd_", ".rights")
  }

  /** `@catalog_prep_dir` */
  function CatalogPrepDir(env: Environment): string {
    if "CATALOG_PREP" in env then env["CATALOG_PREP"] else "/htsolr/catalog/prep/"
  }

  /** `@rights_dir` */
  function RightsDir(env: Environment): string {
    if "RIGHTS_DIR" in env then env["RIGHTS_DIR"] else "/htapps/babel/feed/var/rights"
  }

  /** `@rights_archive_dir`: always `archive` under the rights directory. */
  function RightsArchiveDir(env: Environment): string {
    Join(RightsDir(env), "archive")
  }

  /** `[directory, archive_directory].compact.uniq` */
  function DirectoriesOf(env: Environment, p: Part): seq<string> {
    match p
    case UpdateFiles | DeleteFiles => Uniq([CatalogPrepDir(env)])
    case RightsFiles => Uniq([RightsDir(env), RightsArchiveDir(env)])
  }

  /** The rights directory and its archive are two directories, so both are
      searched; the catalog parts search the prep directory only. */
  lemma DirectoriesSearched(env: Environment, p: Part)
    ensures p == RightsFiles ==> DirectoriesOf(env, p) == [RightsDir(env), RightsArchiveDir(env)]
    ensures p != RightsFiles ==> DirectoriesOf(env, p) == [CatalogPrepDir(env)]
  {
    JoinGrows(RightsDir(env), "archive");
    UniqOfDistinct([CatalogPrepDir(env)]);
    UniqOfDistinct([RightsDir(env), RightsArchiveDir(env)]);
  }

  /** `directory_inventory` for a part: dates of the datestamp's month. */
  function PartInventory(env: Environment, fs: FileSystem, d: Date, p: Part): Result<seq<Date>> {
    DirectoryInventory(fs, DirectoriesOf(env, p), PatternOf(p), InMonthOf(d))
  }

  /** `@inventory`, built in the constructor: the first invalid eight-digit
      group raises. */
  function Inventories(env: Environment, fs: FileSystem, d: Date): (r: Result<seq<seq<Date>>>)
    ensures r.Success? ==> |r.value| == |Parts|
    ensures r.Success? ==> forall i :: 0 <= i < |Parts| ==> Success(r.value[i]) == PartInventory(env, fs, d, Parts[i])
    ensures r.Failure? <==> exists i :: 0 <= i < |Parts| && PartInventory(env, fs, d, Parts[i]).Failure?
    ensures r.Failure? ==>
      exists i :: 0 <= i < |Parts| && PartInventory(env, fs, d, Parts[i]) == Failure(r.error) &&
        forall j :: 0 <= j < i ==> PartInventory(env, fs, d, Parts[j]).Success?
  {
    CollectMap(Parts, p => PartInventory(env, fs, d, p))
  }

  /** A date of the window whose file of the part is in none of the part's
      directories. */
  predicate Missing(env: Environment, fs: FileSystem, d: Date, p: Part, e: Date) {
    e in AllDates(d) && !(HasFourDigitYear(e) && Listed(fs, DirectoriesOf(env, p), PatternOf(p), e))
  }

  /** `earliest_missing_date`: every part requires every date of the window
      `all_dates`; nil exactly when none is missing, otherwise the earliest
      date some part misses. */
  function EarliestMissingDate(env: Environment, fs: FileSystem, d: Date): (r: Result<Option<Date>>)
    ensures r.Failure? <==> exists i :: 0 <= i < |Parts| && PartInventory(env, fs, d, Parts[i]).Failure?
    ensures r.Success? ==> (r.value.None? <==> forall p, e: Date :: p in Parts ==> !Missing(env, fs, d, p, e))
    ensures r.Success? && r.value.Some? ==> exists p :: p in Parts && Missing(env, fs, d, p, r.value.value)
    ensures r.Success? && r.value.Some? ==>
      forall p, e: Date :: p in Parts && Missing(env, fs, d, p, e) ==> NotAfter(r.value.value, e)
  {
    var present :- Inventories(env, fs, d);
    var required := [AllDates(d), AllDates(d), AllDates(d)];
    EarliestOfMissing(env, fs, d, required, present);
    Success(EarliestMissing(required, present))
  }

  /** What `EarliestMissing` promises about the inventories, read as a
      statement about the files on disk. */
  lemma EarliestOfMissing(env: Environment, fs: FileSystem, d: Date, required: seq<seq<Date>>, present: seq<seq<Date>>)
    requires required == [AllDates(d), AllDates(d), AllDates(d)] && |present| == |Parts|
    requires forall i :: 0 <= i < |Parts| ==> Success(present[i]) == PartInventory(env, fs, d, Parts[i])
    ensures var r := EarliestMissing(required, present);
      && (r.None? <==> forall p, e: Date :: p in Parts ==> !Missing(env, fs, d, p, e))
      && (r.Some? ==> exists p :: p in Parts && Missing(env, fs, d, p, r.value))
      && (r.Some? ==> forall p, e: Date :: p in Parts && Missing(env, fs, d, p, e) ==> NotAfter(r.value, e))
  {
    AllDatesShape(d);
    forall i, e: Date | 0 <= i < |Parts|
      ensures MissingFrom(required[i], present[i], e) <==> Missing(env, fs, d, Parts[i], e)
    {
      if e in AllDates(d) {
        assert SameMonth(e, d);
      }
    }
    assert forall p :: p in Parts <==> exists i :: 0 <= i < |Parts| && Parts[i] == p;
  }

  /** With none of the directories on disk every part misses the whole
      window, and the first of the month is reported. */
  lemma NothingOnDisk(env: Environment, fs: FileSystem, d: Date)
    requires !IsDirectory(fs, CatalogPrepDir(env)) && !IsDirectory(fs, RightsDir(env))
    requires !IsDirectory(fs, RightsArchiveDir(env))
    ensures EarliestMissingDate(env, fs, d) == Success(Some(FirstOfMonth(d)))
  {
    NoPartInventories(env, fs, d);
    AllDatesShape(d);
    FirstOfMonthIsCycleStart(d);
    var r := EarliestMissingDate(env, fs, d);
    DirectoriesSearched(env, UpdateFiles);
    assert Missing(env, fs, d, UpdateFiles, FirstOfMonth(d));
    var e := r.value.value;
    assert e in AllDates(d);
    AllDatesIsInterval(d);
    BeforeIsTotal(e, FirstOfMonth(d));
  }

  /** With none of the directories on disk every part's inventory is
      empty. */
  lemma NoPartInventories(env: Environment, fs: FileSystem, d: Date)
    requires !IsDirectory(fs, CatalogPrepDir(env)) && !IsDirectory(fs, RightsDir(env))
    requires !IsDirectory(fs, RightsArchiveDir(env))
    ensures forall i :: 0 <= i < |Parts| ==> PartInventory(env, fs, d, Parts[i]) == Success([])
  {
    forall i | 0 <= i < |Parts| ensures PartInventory(env, fs, d, Parts[i]) == Success([]) {
      DirectoriesSearched(env, Parts[i]);
      NoDirectoriesNoDates(fs, DirectoriesOf(env, Parts[i]), PatternOf(Parts[i]), InMonthOf(d));
    }
  }
}

=== FILE: paths.dfy ===
/** `File.join` of a directory and a file name, and `File.basename`. */
module Paths {

  /** The path without its run of trailing separators. */
  function DropTrailingSeps(p: string): (r: string)
    ensures r <= p
    ensures |r| > 0 ==> r[|r| - 1] != '/'
    ensures forall i :: |r| <= i < |p| ==> p[i] == '/'
  {
    if |p| > 0 && p[|p| - 1] == '/' then DropTrailingSeps(p[..|p| - 1]) else p
  }

  /** `File.join(dir, name)`: exactly one separator is kept at the seam
      unless `dir` already ends with one; a `name` that starts with a
      separator replaces the trailing separators of `dir`. */
  function Join(dir: string, name: string): string {
    if |name| > 0 && name[0] == '/' then DropTrailingSeps(dir) + name
    else if |dir| > 0 && dir[|dir| - 1] == '/' then dir + name
    else dir + "/" + name
  }

  /** The part of `p` after its last separator (all of `p` if it has none). */
  function AfterLastSlash(p: string): (r: string)
    ensures |r| <= |p| && r == p[|p| - |r|..] && '/' !in r
  {
    if |p| == 0 then ""
    else if p[|p| - 1] == '/' then ""
    else AfterLastSlash(p[..|p| - 1]) + [p[|p| - 1]]
  }

  /** `File.basename(p)`: trailing separators are ignored, and a path of
      separators only has basename "/". */
  function Basename(p: string): string {
    var q := DropTrailingSeps(p);
    if q == "" then (if p == "" then "" else "/") else AfterLastSlash(q)
  }

  predicate IsFileName(name: string) {
    name != "" && '/' !in name
  }

  lemma {:induction false} AfterLastSlashOfSuffix(a: string, name: string)
    requires |a| > 0 && a[|a| - 1] == '/' && '/' !in name
    ensures AfterLastSlash(a + name) == name
    decreases |name|
  {
    var p := a + name;
    if |name| > 0 {
      assert p[..|p| - 1] == a + name[..|name| - 1];
      AfterLastSlashOfSuffix(a, name[..|name| - 1]);
      assert name == name[..|name| - 1] + [name[|name| - 1]];
    } else {
      assert p == a;
    }
  }

  /** A file name joined to any directory is recovered by `basename`. */
  lemma BasenameOfJoin(dir: string, name: string)
    requires IsFileName(name)
    ensures Basename(Join(dir, name)) == name
  {
    var p := Join(dir, name);
    var a := if |dir| > 0 && dir[|dir| - 1] == '/' then dir else dir + "/";
    assert p == a + name;
    assert DropTrailingSeps(p) == p;
    AfterLastSlashOfSuffix(a, name);
  }

  /** Joining to the same directory is injective in the file name. */
  lemma JoinInjective(dir: string, n1: string, n2: string)
    requires IsFileName(n1) && IsFileName(n2)
    requires Join(dir, n1) == Join(dir, n2)
    ensures n1 == n2
  {
    BasenameOfJoin(dir, n1);
    BasenameOfJoin(dir, n2);
  }

  /** Joining a file name gives a longer path, never the directory itself. */
  lemma JoinGrows(dir: string, name: string)
    requires IsFileName(name)
    ensures |Join(dir, name)| > |dir|
  {
  }
}

=== FILE: populate_rights.dfy ===
/** `Verifier::PopulateRights` (lib/verifier/populate_rights.rb): every
    HathiTrust item id (htid) in the run date's `.rights` files must have a
    row in `ht_rights.rights_current`. The file is read in slices of
    distinct ids, each looked up in one query; the table is an input. */
module PopulateRightsVerifier {
  import opened Wrappers
  import opened Text
  import opened Calendar
  import opened Dates
  import opened Location
  import opened FileSystem
  import opened Verifier
  import D = Derivative

  const C: Class := PopulateRights

  /** `DEFAULT_SLICE_SIZE` */
  const DefaultSliceSize: int := 10000

  /** A row of `rights_current`: its namespace and id. */
  type Row = (string, string)

  /** What the check looks at: the environment, the files, the rows of
      `rights_current`, and the slice size the verifier was made with. */
  datatype World = World(env: Environment, fs: FileSystem, rightsCurrent: set<Row>, sliceSize: int)

  /** `Rights.derivatives_for_date(date:)` */
  function Of(d: Date): seq<D.Derivative> {
    D.DerivativesForDate(D.Rights, d).value
  }

  // ---------------------------------------------------------------------
  // htids and rows

  /** The position of the first `.` of `h`, or `|h|` when it has none. */
  function FirstDot(h: string): (k: nat)
    ensures k <= |h| && '.' !in h[..k]
    ensures k < |h| <==> '.' in h
    ensures k < |h| ==> h[k] == '.'
  {
    if |h| == 0 then 0
    else if h[0] == '.' then 0
    else
      var k := 1 + FirstDot(h[1..]);
      assert h[..k] == [h[0]] + h[1..][..k - 1];
      assert '.' in h[1..] ==> '.' in h;
      k
  }

  /** `htid.split(".", 2)` for an htid with a dot: the namespace before
      the first dot and the id after it. */
  function SplitHtid(h: string): Row
    requires '.' in h
  {
    var k := FirstDot(h);
    (h[..k], h[k + 1..])
  }

  /** `record[:namespace] + "." + record[:id]` */
  function Rejoin(r: Row): string {
    r.0 + "." + r.1
  }

  /** Splitting and rejoining give back the htid, and a namespace without
      a dot splits back off its rejoined htid. */
  lemma SplitRejoin(h: string, r: Row)
    ensures '.' in h ==> Rejoin(SplitHtid(h)) == h && '.' !in SplitHtid(h).0
    ensures '.' !in r.0 ==> '.' in Rejoin(r) && SplitHtid(Rejoin(r)) == r
  {
    if '.' in h {
      var k := FirstDot(h);
      assert h == h[..k] + [h[k]] + h[k + 1..];
    }
    if '.' !in r.0 {
      var j := Rejoin(r);
      assert j[|r.0|] == '.';
      assert j[..|r.0|] == r.0;
      assert FirstDot(j) == |r.0|;
      assert j[|r.0| + 1..] == r.1;
    }
  }

  /** The htid has a row: the query pairs it with a row exactly when its
      namespace and id are that row's. An htid without a dot is never
      found: its one-element split is taken to match no row, where the
      database would most likely reject the query. */
  predicate HasRow(rows: set<Row>, h: string) {
    '.' in h && SplitHtid(h) in rows
  }

  /** The htids the query finds, rejoined: the rows whose namespace and
      id are the split of some htid of the slice. */
  function Found(rows: set<Row>, htids: seq<string>): set<string> {
    set r | r in rows && (exists i :: 0 <= i < |htids| && '.' in htids[i] && SplitHtid(htids[i]) == r) :: Rejoin(r)
  }

  /** An htid of the slice is among those found exactly when it has a row
      of its own: rejoining cannot turn another htid's row into this one. */
  lemma FoundMeansHasRow(rows: set<Row>, htids: seq<string>, h: string)
    requires h in htids
    ensures h in Found(rows, htids) <==> HasRow(rows, h)
  {
    if h in Found(rows, htids) {
      var r :| r in rows && (exists i :: 0 <= i < |htids| && '.' in htids[i] && SplitHtid(htids[i]) == r) && Rejoin(r) == h;
      var i :| 0 <= i < |htids| && '.' in htids[i] && SplitHtid(htids[i]) == r;
      SplitRejoin(htids[i], r);
      SplitRejoin(h, r);
    }
    if HasRow(rows, h) {
      SplitRejoin(h, SplitHtid(h));
      var i :| 0 <= i < |htids| && htids[i] == h;
      assert SplitHtid(h) in rows && Rejoin(SplitHtid(h)) == h;
    }
  }

  // ---------------------------------------------------------------------
  // find_missing_rights

  const SplitOfNil: Exception := NoMethodError("undefined method 'split' for nil")

  function MissingMessage(h: Option<string>): string {
    "missing rights_current for " + (if h.Some? then h.value else "")
  }

  function Unfound(found: set<string>): Option<string> -> bool {
    (h: Option<string>) => h.Some? && h.value !in found
  }

  /** `find_missing_rights(htids:)`: a nil in the slice (the first field of
      a blank line) raises on `split` before the query; otherwise one
      error per htid the query does not find, in slice order. */
  function FindMissing(rows: set<Row>, slice: seq<Option<string>>): (r: Report)
    ensures None in slice ==> r == Raised(SplitOfNil)
    ensures None !in slice ==> r.raised.None?
  {
    if None in slice then Raised(SplitOfNil)
    else
      assert forall i :: 0 <= i < |slice| ==> slice[i].Some?;
      var htids := seq(|slice|, i requires 0 <= i < |slice| => slice[i].value);
      Report(Flagged(C, slice, Unfound(Found(rows, htids)), MissingMessage), None)
  }

  /** The predicate the errors answer to, per htid. */
  function Lacks(rows: set<Row>): Option<string> -> bool {
    (h: Option<string>) => h.Some? && !HasRow(rows, h.value)
  }

  /** For a slice without nil, the query's answer is the rows each htid
      has. */
  lemma FindMissingFlags(rows: set<Row>, slice: seq<Option<string>>)
    requires None !in slice
    ensures FindMissing(rows, slice) == Report(Flagged(C, slice, Lacks(rows), MissingMessage), None)
  {
    var htids := seq(|slice|, i requires 0 <= i < |slice| => slice[i].value);
    var found := Found(rows, htids);
    forall i | 0 <= i < |slice|
      ensures Unfound(found)(slice[i]) == Lacks(rows)(slice[i])
    {
      assert slice[i] != None;
      assert htids[i] == slice[i].value;
      FoundMeansHasRow(rows, htids, slice[i].value);
    }
    FlaggedSame(slice, Unfound(found), Lacks(rows));
  }

  /** Two predicates that agree on the elements flag the same entries. */
  lemma {:induction false} FlaggedSame(xs: seq<Option<string>>, p: Option<string> -> bool, q: Option<string> -> bool)
    requires forall i :: 0 <= i < |xs| ==> p(xs[i]) == q(xs[i])
    ensures Flagged(C, xs, p, MissingMessage) == Flagged(C, xs, q, MissingMessage)
    decreases |xs|
  {
    if |xs| > 0 {
      assert forall i :: 0 <= i < |xs| - 1 ==> xs[1..][i] == xs[i + 1];
      FlaggedSame(xs[1..], p, q);
    }
  }

  // ---------------------------------------------------------------------
  // verify_rights_file

  /** `slice << htid` on a Set: an htid already in the slice is not added
      again. */
  function Add(slice: seq<Option<string>>, h: Option<string>): seq<Option<string>> {
    if h in slice then slice else slice + [h]
  }

  /** The `each_line` loop from the current slice on, then the final
      flush of a non-empty slice. */
  function Slices(rows: set<Row>, size: int, slice: seq<Option<string>>, items: seq<Option<string>>): Report
    decreases |items|
  {
    if |items| == 0 then
      if |slice| > 0 then FindMissing(rows, slice) else Clean
    else
      var s := Add(slice, items[0]);
      if |s| >= size then Then(FindMissing(rows, s), Slices(rows, size, [], items[1..]))
      else Slices(rows, size, s, items[1..])
  }

  /** The first tab-separated field of a stripped line; nil for a blank
      one. */
  function HtidOf(line: string): (h: Option<string>)
    ensures h.None? <==> Strip(line) == ""
  {
    var fields := Split(Strip(line), '\t');
    StrippedFields(line);
    if |fields| == 0 then None else Some(fields[0])
  }

  /** A stripped line has a first field exactly when it is not blank: it
      cannot start with a tab. */
  lemma StrippedFields(line: string)
    ensures |Split(Strip(line), '\t')| == 0 <==> Strip(line) == ""
  {
    var s := Strip(line);
    if s == "" {
      assert SplitAll(s, '\t') == [""];
    } else {
      assert s[0] == StripLeft(line)[0];
      assert SplitAll(s, '\t')[0] != "";
    }
  }

  function HtidsOf(lines: seq<string>): (hs: seq<Option<string>>)
    ensures |hs| == |lines| && forall i :: 0 <= i < |lines| ==> hs[i] == HtidOf(lines[i])
  {
    seq(|lines|, i requires 0 <= i < |lines| => HtidOf(lines[i]))
  }

  /** `verify_rights_file(path:)` */
  function VerifyRightsFile(w: World, path: string): Report {
    match Lines(w.fs, path)
    case Failure(e) => Raised(e)
    case Success(lines) => Slices(w.rightsCurrent, w.sliceSize, [], HtidsOf(lines))
  }

  /** The loop body of `run_for_date`: only a verified file is read. */
  function RightsStep(w: World): D.Derivative -> Report {
    x => WhenVerified(C, w.fs, D.PathAsWritten(w.env, x), path => VerifyRightsFile(w, path))
  }

  function RunForDate(w: World, d: Date): Report {
    ForEach(Of(d), RightsStep(w))
  }

  // ---------------------------------------------------------------------
  // Properties of the slicing

  /** No element repeats. */
  predicate Distinct(xs: seq<Option<string>>) {
    forall i, j :: 0 <= i < j < |xs| ==> xs[i] != xs[j]
  }

  /** A slice flushed as it fills never raises when no line is blank. */
  lemma {:induction false} SlicesNoNilNeverRaise(rows: set<Row>, size: int, slice: seq<Option<string>>, items: seq<Option<string>>)
    requires None !in slice && None !in items
    ensures Slices(rows, size, slice, items).raised.None?
    decreases |items|
  {
    if |items| > 0 {
      var s := Add(slice, items[0]);
      assert None !in items[1..] by { assert items == [items[0]] + items[1..]; }
      SlicesNoNilNeverRaise(rows, size, [], items[1..]);
      SlicesNoNilNeverRaise(rows, size, s, items[1..]);
    }
  }

  /** Adding the next htid keeps every htid seen so far, once. */
  lemma AddMembers(slice: seq<Option<string>>, items: seq<Option<string>>)
    requires |items| > 0
    ensures forall h :: h in Add(slice, items[0]) + items[1..] <==> h in slice + items
  {
    assert items == [items[0]] + items[1..];
  }

  /** A blank line anywhere makes the file check raise `NoMethodError`:
      the slice holding its nil is flushed sooner or later. */
  lemma {:induction false} NilRaises(rows: set<Row>, size: int, slice: seq<Option<string>>, items: seq<Option<string>>)
    requires None in slice + items
    ensures Slices(rows, size, slice, items).raised == Some(SplitOfNil)
    decreases |items|
  {
    if |items| > 0 {
      var s := Add(slice, items[0]);
      AddMembers(slice, items);
      if |s| >= size {
        if None !in s {
          NilRaises(rows, size, [], items[1..]);
          assert [] + items[1..] == items[1..];
        }
      } else {
        NilRaises(rows, size, s, items[1..]);
      }
    } else {
      assert slice + items == slice;
    }
  }

  /** With distinct htids and no blank line, the errors are one per htid
      without a row, in file order, whatever the slice size: slicing only
      groups the queries. */
  lemma {:induction false} DistinctSlicesFlag(rows: set<Row>, size: int, slice: seq<Option<string>>, items: seq<Option<string>>)
    requires None !in slice + items && Distinct(slice + items)
    requires |slice| == 0 || |slice| < size
    ensures Slices(rows, size, slice, items) == Report(Flagged(C, slice + items, Lacks(rows), MissingMessage), None)
    decreases |items|, 0
  {
    var all := slice + items;
    if |items| == 0 {
      assert all == slice;
      if |slice| > 0 { FindMissingFlags(rows, slice); }
    } else {
      var s := slice + [items[0]];
      assert Add(slice, items[0]) == s by { NextIsNew(slice, items); }
      assert all == s + items[1..];
      if |s| >= size {
        FlushDistinct(rows, size, s, items[1..]);
      } else {
        DistinctSlicesFlag(rows, size, s, items[1..]);
      }
    }
  }

  /** Among distinct htids the next one is not yet in the slice. */
  lemma NextIsNew(slice: seq<Option<string>>, items: seq<Option<string>>)
    requires |items| > 0 && Distinct(slice + items)
    ensures items[0] !in slice
  {
    var all := slice + items;
    assert items[0] == all[|slice|];
    forall i | 0 <= i < |slice| ensures slice[i] != items[0] { assert slice[i] == all[i]; }
  }

  /** A full slice is queried, and the loop goes on from an empty one. */
  lemma {:induction false} FlushDistinct(rows: set<Row>, size: int, s: seq<Option<string>>, rest: seq<Option<string>>)
    requires |s| > 0 && |s| >= size
    requires None !in s + rest && Distinct(s + rest)
    ensures Then(FindMissing(rows, s), Slices(rows, size, [], rest)) == Report(Flagged(C, s + rest, Lacks(rows), MissingMessage), None)
    decreases |rest|, 1
  {
    DistinctParts(s, rest);
    assert [] + rest == rest;
    FindMissingFlags(rows, s);
    DistinctSlicesFlag(rows, size, [], rest);
    FlaggedAppend(C, s, rest, Lacks(rows), MissingMessage);
  }

  /** The parts of a list without nil or repeats have neither. */
  lemma DistinctParts(xs: seq<Option<string>>, ys: seq<Option<string>>)
    requires None !in xs + ys && Distinct(xs + ys)
    ensures None !in xs && None !in ys && Distinct(ys)
  {
    var all := xs + ys;
    assert forall i :: 0 <= i < |ys| ==> ys[i] == all[|xs| + i];
    assert forall i :: 0 <= i < |xs| ==> xs[i] == all[i];
  }

  /** Every htid of the list has a row. */
  predicate AllHaveRows(rows: set<Row>, xs: seq<Option<string>>) {
    forall h :: h in xs ==> !Lacks(rows)(h)
  }

  /** A slice without nil is silent exactly when all its htids have rows. */
  lemma FindMissingClean(rows: set<Row>, slice: seq<Option<string>>)
    requires None !in slice
    ensures FindMissing(rows, slice) == Clean <==> AllHaveRows(rows, slice)
  {
    FindMissingFlags(rows, slice);
  }

  /** Without blank lines, the check is silent exactly when every htid of
      the file has a row, duplicates and slice size notwithstanding. */
  lemma {:induction false} SlicesCleanIffAllHaveRows(rows: set<Row>, size: int, slice: seq<Option<string>>, items: seq<Option<string>>)
    requires None !in slice && None !in items
    ensures Slices(rows, size, slice, items) == Clean <==> AllHaveRows(rows, slice + items)
    decreases |items|, 0
  {
    if |items| == 0 {
      assert slice + items == slice;
      if |slice| > 0 { FindMissingClean(rows, slice); }
    } else {
      var s := Add(slice, items[0]);
      AddMembers(slice, items);
      assert None !in items[1..] && None !in s;
      if |s| >= size {
        FlushClean(rows, size, s, items[1..]);
      } else {
        SlicesCleanIffAllHaveRows(rows, size, s, items[1..]);
      }
    }
  }

  lemma {:induction false} FlushClean(rows: set<Row>, size: int, s: seq<Option<string>>, rest: seq<Option<string>>)
    requires None !in s && None !in rest
    ensures Then(FindMissing(rows, s), Slices(rows, size, [], rest)) == Clean <==> AllHaveRows(rows, s + rest)
    decreases |rest|, 1
  {
    FindMissingClean(rows, s);
    SlicesCleanIffAllHaveRows(rows, size, [], rest);
    ThenClean(FindMissing(rows, s), Slices(rows, size, [], rest));
    assert [] + rest == rest;
    assert forall h :: h in s + rest <==> h in s || h in rest;
  }

  // ---------------------------------------------------------------------
  // Properties of a rights file

  /** A rights line starting with an htid: the htid is its first field,
      whatever follows the tab and however the line ends. */
  lemma RightsLineHtid(htid: string, rest: string)
    requires htid != "" && '\t' !in htid
    requires !IsStrippable(htid[0]) && !IsStrippable(htid[|htid| - 1])
    ensures HtidOf(htid + "\t" + rest) == Some(htid)
  {
    var line := htid + "\t" + rest;
    assert StripLeft(line) == line;
    StripRightKeeps(line, |htid| - 1);
    var t := StripRight(line);
    assert t == htid + t[|htid|..] by { assert t[..|htid|] == line[..|htid|] == htid; }
    var tail := t[|htid|..];
    if tail == [] {
      assert t == htid;
      SplitField(htid, '\t');
    } else {
      assert tail[0] == line[|htid|] == '\t';
      assert t == htid + ['\t'] + tail[1..];
      SplitFirstField(htid, '\t', tail[1..]);
    }
  }

  /** `strip` keeps every character up to the last one that is not
      whitespace. */
  lemma {:induction false} StripRightKeeps(s: string, k: nat)
    requires k < |s| && !IsStrippable(s[k])
    ensures |StripRight(s)| > k
    decreases |s|
  {
    if IsStrippable(s[|s| - 1]) {
      StripRightKeeps(s[..|s| - 1], k);
    }
  }

  /** The loop over a file's first fields, from an empty slice: a nil
      raises; otherwise it is silent exactly when every htid has a row;
      and when the htids are distinct the errors are the htids without a
      row, in order, for every slice size. */
  lemma SlicesVerdict(rows: set<Row>, size: int, hs: seq<Option<string>>)
    ensures None in hs ==> Slices(rows, size, [], hs).raised == Some(SplitOfNil)
    ensures None !in hs ==> Slices(rows, size, [], hs).raised.None?
    ensures None !in hs ==> (Slices(rows, size, [], hs) == Clean <==> AllHaveRows(rows, hs))
    ensures None !in hs && Distinct(hs) ==>
      Slices(rows, size, [], hs) == Report(Flagged(C, hs, Lacks(rows), MissingMessage), None)
  {
    assert [] + hs == hs;
    if None in hs {
      NilRaises(rows, size, [], hs);
    } else {
      SlicesNoNilNeverRaise(rows, size, [], hs);
      SlicesCleanIffAllHaveRows(rows, size, [], hs);
      if Distinct(hs) {
        DistinctSlicesFlag(rows, size, [], hs);
      }
    }
  }

  /** For a rights file that can be read, `SlicesVerdict` applies to the
      first fields of its lines: a blank line raises, and otherwise the
      file passes exactly when every htid has a row. */
  lemma RightsFileVerdict(w: World, path: string)
    requires Lines(w.fs, path).Success?
    ensures var hs := HtidsOf(Lines(w.fs, path).value);
      && VerifyRightsFile(w, path) == Slices(w.rightsCurrent, w.sliceSize, [], hs)
      && (None in hs <==> exists i :: 0 <= i < |Lines(w.fs, path).value| && Strip(Lines(w.fs, path).value[i]) == "")
      && (None in hs ==> VerifyRightsFile(w, path).raised == Some(SplitOfNil))
      && (None !in hs ==> (VerifyRightsFile(w, path) == Clean <==> AllHaveRows(w.rightsCurrent, hs)))
  {
    var hs := HtidsOf(Lines(w.fs, path).value);
    SlicesVerdict(w.rightsCurrent, w.sliceSize, hs);
  }

  /** With a rights directory configured and no rights file there, each
      expected file is one not-found error: two on the first of a month,
      one on other days. */
  lemma NothingPresent(w: World, d: Date)
    requires "RIGHTS_ARCHIVE" in w.env || "RIGHTS_DIR" in w.env
    requires forall x :: x in Of(d) ==> !Present(w, x)
    ensures RunForDate(w, d).raised.None?
    ensures |RunForDate(w, d).errors| == if IsFirstOfMonth(d) then 2 else 1
  {
    var xs := Of(d);
    forall i | 0 <= i < |xs|
      ensures RightsStep(w)(xs[i]).raised.None? && |RightsStep(w)(xs[i]).errors| == 1
    {
      AbsentRights(w, xs[i]);
    }
    ForEachCounts(xs, RightsStep(w), 1);
  }

  /** The file of `x` is there. */
  predicate Present(w: World, x: D.Derivative) {
    D.PathOf(w.env, x).Success? && Exists(w.fs, D.PathOf(w.env, x).value)
  }

  /** A rights file that is not there is one not-found error. */
  lemma AbsentRights(w: World, x: D.Derivative)
    requires x.kind == D.Rights && ("RIGHTS_ARCHIVE" in w.env || "RIGHTS_DIR" in w.env)
    requires !Present(w, x)
    ensures D.PathOf(w.env, x).Success?
    ensures RightsStep(w)(x) == Logged(C, "not found: " + D.PathOf(w.env, x).value)
  {
    D.RightsPath(w.env, x);
    D.OnlyWebHathifilesChange(w.env, x);
  }
}

=== FILE: post_zephir.dfy ===
/** `Verifier::PostZephir` (lib/verifier/post_zephir.rb): checks what the
    post-Zephir stage wrote for a run date: the catalog archive files
    against the bib export, the catalog prep and delete files, the
    dollar-dup file, the monthly ingest files and the rights files. */
module PostZephirVerifier {
  import opened Wrappers
  import opened Text
  import opened Calendar
  import opened Dates
  import opened Location
  import opened FileSystem
  import opened Verifier
  import opened Paths
  import D = Derivative

  const C: Class := PostZephir

  /** What `grep -c no.unsuppressed.*not.written <report>` answers: its exit
      status, its output as `chomp.to_i` reads it, and its stderr. */
  datatype Grep = Grep(status: nat, count: nat, stderr: string)

  /** What the checks look at: the environment, the files, which lines
      `JSON.parse` accepts, and the `grep` answer. */
  datatype World = World(env: Environment, fs: FileSystem, parses: string -> bool, grep: Grep)

  /** The derivatives of one kind for a run date. */
  function Of(k: D.Kind, d: Date): seq<D.Derivative>
    requires k != D.HTBibExport
  {
    D.DerivativesForDate(k, d).value
  }

  // ---------------------------------------------------------------------
  // verify_catalog_archive

  /** `zephir_full_monthly_rpt_txt` */
  function MonthlyReportPath(env: Environment): Result<string> {
    PathIn(env, Under(EnvVar("ZEPHIR_DATA"), "full"), "zephir_full_monthly_rpt.txt", false)
  }

  /** `count_suppressed_records`: zero for update files and when the
      monthly report is absent; otherwise `grep`'s count, or zero with an
      error when `grep` fails (status 2 or more). */
  function CountSuppressedRecords(w: World, x: D.Derivative): (r: (nat, Report))
    ensures !x.full ==> r == (0, Clean)
    ensures x.full && MonthlyReportPath(w.env).Failure? ==> r == (0, Raised(MonthlyReportPath(w.env).error))
    ensures x.full && MonthlyReportPath(w.env).Success? && !Exists(w.fs, MonthlyReportPath(w.env).value) ==> r == (0, Clean)
    ensures x.full && MonthlyReportPath(w.env).Success? && Exists(w.fs, MonthlyReportPath(w.env).value) && w.grep.status < 2 ==>
      r == (w.grep.count, Clean)
    ensures x.full && MonthlyReportPath(w.env).Success? && Exists(w.fs, MonthlyReportPath(w.env).value) && w.grep.status >= 2 ==>
      r.0 == 0 && |r.1.errors| == 1 && r.1.raised.None?
    ensures r.1.raised.None? && r.0 != 0 ==> x.full && r.0 == w.grep.count && w.grep.status < 2
    ensures r.1.errors != [] ==> r.0 == 0 && w.grep.status >= 2
  {
    if !x.full then (0, Clean)
    else
      match MonthlyReportPath(w.env)
      case Failure(e) => (0, Raised(e))
      case Success(report) =>
        if !Exists(w.fs, report) then (0, Clean)
        else
          var cmd := "grep -c no.unsuppressed.*not.written " + report;
          if w.grep.status >= 2 then
            (0, Logged(C, "count_suppressed_records: status " + Decimal(w.grep.status)
              + ", STDERR '" + Chomp(w.grep.stderr) + "' (" + cmd + ")"))
          else (w.grep.count, Clean)
  }

  /** The message for counts that disagree. */
  function CountMismatch(path: string, archive: nat, delta: nat, bibPath: string, bib: nat): string {
    "catalog archive line count (" + path + " = " + Decimal(archive) + " + " + Decimal(delta)
      + ") != bib export line count (" + bibPath + " = " + Decimal(bib) + ")"
  }

  /** The comparison, once both files are verified and counted. */
  function CompareWithBibExport(w: World, x: D.Derivative, path: string, archive: nat, bibPath: string, bib: nat): (r: Report)
    ensures var (delta, counting) := CountSuppressedRecords(w, x);
      counting.raised.None? ==> r == Then(counting, Flag(C, bib != archive + delta, CountMismatch(path, archive, delta, bibPath, bib)))
    ensures var (delta, counting) := CountSuppressedRecords(w, x);
      counting == Clean ==>
        r == Report(if bib != archive + delta then [Entry(C, CountMismatch(path, archive, delta, bibPath, bib))] else [], None)
    ensures CountSuppressedRecords(w, x).1.raised.Some? ==> r == CountSuppressedRecords(w, x).1
  {
    var (delta, counting) := CountSuppressedRecords(w, x);
    Then(counting, Flag(C, bib != archive + delta, CountMismatch(path, archive, delta, bibPath, bib)))
  }

  /** The bib export matching an archive file: same run date and fullness. */
  function BibExportOf(x: D.Derivative): D.Derivative {
    D.Derivative(D.HTBibExport, x.date, x.full)
  }

  /** The loop body of `verify_catalog_archive` for one archive file. */
  function CheckArchiveFile(w: World, x: D.Derivative): Report {
    WhenVerified(C, w.fs, D.PathAsWritten(w.env, x), ArchiveStep(w, x))
  }

  /** Once the archive file at `path` is verified: its JSON lines (the
      verdict is not used), its line count, then the bib export. */
  function ArchiveStep(w: World, x: D.Derivative): string -> Report {
    path =>
      Then(VerifyParseableNdj(C, w.fs, path, w.parses).1,
        match GzipLineCount(w.fs, path)
        case Failure(e) => Raised(e)
        case Success(archive) => WhenVerified(C, w.fs, D.PathAsWritten(w.env, BibExportOf(x)), ExportStep(w, x, path, archive)))
  }

  /** Once the bib export at `bibPath` is verified: its line count against
      the archive's. */
  function ExportStep(w: World, x: D.Derivative, path: string, archive: nat): string -> Report {
    bibPath =>
      match GzipLineCount(w.fs, bibPath)
      case Failure(e) => Raised(e)
      case Success(bib) => CompareWithBibExport(w, x, path, archive, bibPath, bib)
  }

  /** `verify_catalog_archive` */
  function VerifyCatalogArchive(w: World, d: Date): Report {
    ForEach(Of(D.CatalogArchive, d), x => CheckArchiveFile(w, x))
  }

  // ---------------------------------------------------------------------
  // verify_catalog_prep

  /** `line != "\n" && !line.match?(/^\d{9}$/)`: a line `each_line` yields
      is accepted when it is blank or nine digits, newline or not. */
  predicate IsDeleteLine(line: string) {
    line == "\n"
      || (|line| == 9 && AllDigits(line))
      || (|line| == 10 && AllDigits(line[..9]) && line[9] == '\n')
  }

  predicate IsUnexpectedDeleteLine(line: string) { !IsDeleteLine(line) }

  /** The error for one unexpected line of the delete file at `path`. */
  function UnexpectedDeleteLine(path: string): string -> string {
    line => "Unexpected line in " + path + " (was '" + Strip(line) + "'); expecting catalog record ID (9 digits)"
  }

  /** `verify_deletes_contents`: one error per line that is not accepted,
      in line order. */
  function VerifyDeletesContents(fs: FileSystem, path: string): (r: Report)
    ensures Lines(fs, path).Failure? ==> r == Raised(Lines(fs, path).error)
    ensures Lines(fs, path).Success? ==>
      r == Report(Flagged(C, Lines(fs, path).value, IsUnexpectedDeleteLine, UnexpectedDeleteLine(path)), None)
    ensures r == Clean <==>
      Lines(fs, path).Success? && forall i :: 0 <= i < |Lines(fs, path).value| ==> IsDeleteLine(Lines(fs, path).value[i])
  {
    match Lines(fs, path)
    case Failure(e) => Raised(e)
    case Success(lines) =>
      DeletesFlaggedClean(lines, path);
      var step := (l: string) => Flag(C, IsUnexpectedDeleteLine(l), UnexpectedDeleteLine(path)(l));
      ForEachFlags(C, lines, IsUnexpectedDeleteLine, UnexpectedDeleteLine(path), step);
      ForEach(lines, step)
  }

  /** The path of a derivative, as the verifiers compute it. */
  function PathOf(w: World): D.Derivative -> Result<string> {
    x => D.PathAsWritten(w.env, x)
  }

  function DeletesStep(fs: FileSystem): string -> Report {
    path => VerifyDeletesContents(fs, path)
  }

  function VerifyDeletes(w: World, d: Date): Report {
    WhenVerified(C, w.fs, D.PathAsWritten(w.env, D.Derivative(D.Delete, d, false)), DeletesStep(w.fs))
  }

  function PrepStep(w: World): D.Derivative -> Report {
    x => VerifyPath(C, w.fs, PathOf(w)(x))
  }

  /** `verify_catalog_prep`: the delete file, with its contents, then each
      catalog prep file. */
  function VerifyCatalogPrep(w: World, d: Date): Report {
    Then(VerifyDeletes(w, d), ForEach(Of(D.CatalogPrep, d), PrepStep(w)))
  }

  // ---------------------------------------------------------------------
  // verify_dollar_dup, verify_ingest_bibrecords

  /** `verify_dollar_dup`: the file must exist and be empty. */
  function VerifyDollarDup(w: World, d: Date): Report {
    WhenVerified(C, w.fs, D.PathAsWritten(w.env, D.Derivative(D.DollarDup, d, false)), path =>
      match GzipLineCount(w.fs, path)
      case Failure(e) => Raised(e)
      case Success(n) =>
        Flag(C, n > 0, "spurious dollar_dup lines: " + path + " should be empty (found " + Decimal(n) + " lines)"))
  }

  /** `verify_ingest_bibrecords` */
  function IngestPath(w: World): string -> Result<string> {
    name => D.IngestBibrecordPath(w.env, name)
  }

  function IngestStep(w: World): string -> Report {
    name => VerifyPath(C, w.fs, IngestPath(w)(name))
  }

  function VerifyIngestBibrecords(w: World, d: Date): Report {
    ForEach(D.IngestBibrecordsForDate(d), IngestStep(w))
  }

  // ---------------------------------------------------------------------
  // verify_rights

  /** The five entries of `column_regexes`. */
  datatype Column = Id | RightsCode | Bib | BibRights | DigitizationSource

  const Columns: seq<Column> := [Id, RightsCode, Bib, BibRights, DigitizationSource]

  /** `column_regexes[j][:name]` */
  function ColumnName(col: Column): string {
    match col
    case Id => "id"
    case RightsCode => "rights"
    case Bib => "bib"
    case BibRights => "bibrights"
    case DigitizationSource => "digitization_source"
  }

  predicate IsLowerOrDigit(c: char) { IsLower(c) || IsDigit(c) }

  /** `/^[a-z0-9]+\.\S+$/` on a field without newlines: letters and digits
      up to the first dot, then at least one non-space character. */
  predicate IsVolumeId(s: string) {
    exists k :: 0 < k < |s| - 1 && s[k] == '.'
      && (forall i :: 0 <= i < k ==> IsLowerOrDigit(s[i]))
      && (forall i :: k < i < |s| ==> !IsSpace(s[i]))
  }

  /** `/^[a-z\d]+(-[a-z\d]+)*$/`: groups of letters and digits joined by
      single hyphens. */
  predicate IsSourceCode(s: string) {
    && |s| > 0 && s[0] != '-' && s[|s| - 1] != '-'
    && (forall i :: 0 <= i < |s| ==> IsLowerOrDigit(s[i]) || s[i] == '-')
    && (forall i :: 0 <= i < |s| - 1 ==> !(s[i] == '-' && s[i + 1] == '-'))
  }

  /** `col.match?(column_regexes[j][:regex])` */
  predicate ColumnMatches(col: Column, s: string) {
    match col
    case Id => IsVolumeId(s)
    case RightsCode => s in {"ic", "pd", "pdus", "und"}
    case Bib => s == "bib"
    case BibRights => s == "bibrights"
    case DigitizationSource => IsSourceCode(s)
  }

  /** The `NoMethodError` a sixth column raises: `column_regexes[5]` is nil. */
  const NoSixthColumn: Exception := NoMethodError("undefined method '[]' for nil")

  function InvalidColumn(path: string, i: nat, col: Column, s: string): string {
    "Rights file " + path + ":" + Decimal(i + 1) + ", invalid column " + ColumnName(col) + " : " + s
  }

  /** The fields of a rights line: `line.chomp!` then `split("\t", -1)`. */
  function RightsFields(line: string): seq<string> {
    SplitKeep(Chomp(line), '\t')
  }

  /** The inner loop for line `i`: each field against its column, in order. */
  function CheckRightsField(path: string, i: nat, fields: seq<string>, j: nat): Report
    requires j < |fields|
  {
    if j < |Columns| then Flag(C, !ColumnMatches(Columns[j], fields[j]), InvalidColumn(path, i, Columns[j], fields[j]))
    else Raised(NoSixthColumn)
  }

  function FieldStep(path: string, i: nat, fields: seq<string>): nat -> Report {
    (j: nat) => if j < |fields| then CheckRightsField(path, i, fields, j) else Clean
  }

  function CheckRightsLine(path: string, i: nat, line: string): Report {
    var fields := RightsFields(line);
    ForEach(Indices(|fields|), FieldStep(path, i, fields))
  }

  function LineStep(path: string, lines: seq<string>): nat -> Report {
    (i: nat) => if i < |lines| then CheckRightsLine(path, i, lines[i]) else Clean
  }

  /** `verify_rights_file_format` */
  function VerifyRightsFileFormat(fs: FileSystem, path: string): (r: Report)
    ensures Lines(fs, path).Failure? ==> r == Raised(Lines(fs, path).error)
  {
    match Lines(fs, path)
    case Failure(e) => Raised(e)
    case Success(lines) =>
      ForEach(Indices(|lines|), LineStep(path, lines))
  }

  /** `verify_rights` */
  function VerifyRights(w: World, d: Date): Report {
    ForEach(Of(D.Rights, d), x => WhenVerified(C, w.fs, D.PathAsWritten(w.env, x), path => VerifyRightsFileFormat(w.fs, path)))
  }

  // ---------------------------------------------------------------------
  // run_for_date

  /** `run_for_date`: the five checks in their order, an exception in one
      ending the run. */
  function RunForDate(w: World, d: Date): Report {
    Then(VerifyCatalogArchive(w, d),
      Then(VerifyCatalogPrep(w, d),
        Then(VerifyDollarDup(w, d),
          Then(VerifyIngestBibrecords(w, d), VerifyRights(w, d)))))
  }

  /** A date is silent exactly when all five checks are; without an
      exception their errors come in the order the checks run. */
  lemma RunForDateVerdict(w: World, d: Date)
    ensures var (r, a, p, u, i, g) := (RunForDate(w, d), VerifyCatalogArchive(w, d), VerifyCatalogPrep(w, d), VerifyDollarDup(w, d), VerifyIngestBibrecords(w, d), VerifyRights(w, d));
      && (r == Clean <==> a == Clean && p == Clean && u == Clean && i == Clean && g == Clean)
      && (r.raised.None? <==> a.raised.None? && p.raised.None? && u.raised.None? && i.raised.None? && g.raised.None?)
      && (r.raised.None? ==> r.errors == a.errors + p.errors + u.errors + i.errors + g.errors)
  {
    ThenFive(VerifyCatalogArchive(w, d), VerifyCatalogPrep(w, d), VerifyDollarDup(w, d), VerifyIngestBibrecords(w, d), VerifyRights(w, d));
  }

  // ---------------------------------------------------------------------
  // Properties

  /** The delete-file line test against its meaning: a blank line, or a
      nine-digit record id with or without its newline. */
  lemma DeleteLineIsRecordId(line: string)
    ensures IsDeleteLine(line) <==>
      (line == "\n" || (|Chomp(line)| == 9 && AllDigits(Chomp(line)) && (line == Chomp(line) || line == Chomp(line) + "\n")))
  {
    if |line| == 10 && line[9] == '\n' && line[8] != '\r' {
      assert Chomp(line) == line[..9];
      assert line == line[..9] + "\n";
    }
  }

  /** A record id is accepted with or without its newline, but a line
      ended by "\r\n" is not. */
  lemma CarriageReturnIsUnexpected(id: string)
    requires |id| == 9 && AllDigits(id)
    ensures IsDeleteLine(id) && IsDeleteLine(id + "\n")
    ensures !IsDeleteLine(id + "\r\n")
  {
    assert (id + "\n")[..9] == id;
    assert !IsDigit((id + "\r\n")[9]);
  }

  /** The delete file check at a computed path. */
  lemma DeletesAt(fs: FileSystem, path: string)
    ensures WhenVerified(C, fs, Success(path), DeletesStep(fs)) == Clean <==>
      Lines(fs, path).Success? && forall i :: 0 <= i < |Lines(fs, path).value| ==> IsDeleteLine(Lines(fs, path).value[i])
    ensures !Exists(fs, path) ==> WhenVerified(C, fs, Success(path), DeletesStep(fs)) == Logged(C, "not found: " + path)
  {
    WhenVerifiedClean(C, fs, path, DeletesStep(fs));
    assert DeletesStep(fs)(path) == VerifyDeletesContents(fs, path);
    assert Lines(fs, path).Success? ==> Readable(fs, path);
  }

  lemma DeletesFlaggedClean(lines: seq<string>, path: string)
    ensures Report(Flagged(C, lines, IsUnexpectedDeleteLine, UnexpectedDeleteLine(path)), None) == Clean <==>
      forall i :: 0 <= i < |lines| ==> IsDeleteLine(lines[i])
  {
  }

  /** The delete file's part of `verify_catalog_prep`: it raises when its
      path does not compute, and is otherwise the check at that path. */
  lemma DeletesVerdict(w: World, d: Date)
    ensures var p := D.PathAsWritten(w.env, D.Derivative(D.Delete, d, false));
      && (p.Failure? ==> VerifyDeletes(w, d) == Raised(p.error))
      && (p.Success? ==> VerifyDeletes(w, d) == WhenVerified(C, w.fs, Success(p.value), DeletesStep(w.fs)))
  {
  }

  /** The catalog prep files' part of `verify_catalog_prep`. */
  lemma PrepFilesVerdict(w: World, d: Date)
    ensures var xs := Of(D.CatalogPrep, d); var r := ForEach(xs, PrepStep(w));
      && (r.raised.None? <==> forall i :: 0 <= i < |xs| ==> PathOf(w)(xs[i]).Success?)
      && (r.raised.None? ==> (r.errors == [] <==> forall i :: 0 <= i < |xs| ==> Readable(w.fs, PathOf(w)(xs[i]).value)))
      && (r.raised.None? && (forall i :: 0 <= i < |xs| ==> !Exists(w.fs, PathOf(w)(xs[i]).value)) ==> |r.errors| == |xs|)
  {
    var xs := Of(D.CatalogPrep, d);
    ForEachVerifyPath(C, w.fs, xs, PathOf(w), PrepStep(w));
  }

  /** `verify_catalog_prep` is silent exactly when the delete file holds
      only accepted lines and every expected catalog prep file is
      readable. */
  lemma CatalogPrepVerdict(w: World, d: Date)
    ensures var p := D.PathAsWritten(w.env, D.Derivative(D.Delete, d, false)); var xs := Of(D.CatalogPrep, d);
      VerifyCatalogPrep(w, d) == Clean <==>
        && p.Success?
        && Lines(w.fs, p.value).Success?
        && (forall i :: 0 <= i < |Lines(w.fs, p.value).value| ==> IsDeleteLine(Lines(w.fs, p.value).value[i]))
        && (forall i :: 0 <= i < |xs| ==> PathOf(w)(xs[i]).Success? && Readable(w.fs, PathOf(w)(xs[i]).value))
  {
    var p := D.PathAsWritten(w.env, D.Derivative(D.Delete, d, false));
    DeletesVerdict(w, d);
    if p.Success? {
      DeletesAt(w.fs, p.value);
    }
    PrepFilesVerdict(w, d);
    ThenClean(VerifyDeletes(w, d), ForEach(Of(D.CatalogPrep, d), PrepStep(w)));
  }

  /** With `CATALOG_PREP` set and nothing on disk, every expected file is
      reported missing: three on the first of a month (the delete file,
      the update file and the full file), two on other days. */
  lemma CatalogPrepWithNothingPresent(w: World, d: Date)
    requires "CATALOG_PREP" in w.env
    requires forall p :: !Exists(w.fs, p)
    ensures VerifyCatalogPrep(w, d).raised.None?
    ensures |VerifyCatalogPrep(w, d).errors| == if IsFirstOfMonth(d) then 3 else 2
  {
    PrepPathsComputed(w, d);
    DeletesVerdict(w, d);
    DeletesAt(w.fs, D.PathAsWritten(w.env, D.Derivative(D.Delete, d, false)).value);
    PrepFilesVerdict(w, d);
  }

  /** With `CATALOG_PREP` set every catalog prep path computes; there are
      two such files on the first of a month and one otherwise. */
  lemma PrepPathsComputed(w: World, d: Date)
    requires "CATALOG_PREP" in w.env
    ensures D.PathAsWritten(w.env, D.Derivative(D.Delete, d, false)).Success?
    ensures forall i :: 0 <= i < |Of(D.CatalogPrep, d)| ==> PathOf(w)(Of(D.CatalogPrep, d)[i]).Success?
    ensures |Of(D.CatalogPrep, d)| == if IsFirstOfMonth(d) then 2 else 1
  {
    var xs := Of(D.CatalogPrep, d);
    D.EnvVarKindPath(w.env, D.Derivative(D.Delete, d, false), "CATALOG_PREP");
    forall i | 0 <= i < |xs| ensures PathOf(w)(xs[i]).Success? {
      D.EnvVarKindPath(w.env, xs[i], "CATALOG_PREP");
    }
  }

  /** The dollar-dup file passes exactly when it exists, is readable and
      is empty; otherwise one error says which. */
  lemma DollarDupMustBeEmpty(w: World, d: Date)
    ensures var p := D.PathAsWritten(w.env, D.Derivative(D.DollarDup, d, false));
      && (p.Failure? ==> VerifyDollarDup(w, d) == Raised(p.error))
      && (VerifyDollarDup(w, d) == Clean <==> p.Success? && Readable(w.fs, p.value) && LineCount(w.fs, p.value) == Success(0))
      && (p.Success? && !Readable(w.fs, p.value) ==> VerifyDollarDup(w, d) == Logged(C, FileProblem(w.fs, p.value)))
      && (p.Success? && LineCount(w.fs, p.value).Success? && LineCount(w.fs, p.value).value > 0 ==>
            VerifyDollarDup(w, d).raised.None? && |VerifyDollarDup(w, d).errors| == 1)
  {
  }

  /** The monthly ingest files are looked for on the last day of a month
      only, and then both must be readable. */
  lemma IngestOnLastDayOnly(w: World, d: Date)
    ensures !IsLastOfMonth(d) ==> VerifyIngestBibrecords(w, d) == Clean
    ensures IsLastOfMonth(d) && "INGEST_BIBRECORDS" !in w.env ==>
      VerifyIngestBibrecords(w, d) == Raised(TypeError("no implicit conversion of nil into String"))
    ensures IsLastOfMonth(d) && "INGEST_BIBRECORDS" in w.env ==>
      (VerifyIngestBibrecords(w, d) == Clean <==>
        forall name :: name in D.IngestNames ==> Readable(w.fs, Join(w.env["INGEST_BIBRECORDS"], name)))
  {
    var names := D.IngestBibrecordsForDate(d);
    forall name | name in names
      ensures "INGEST_BIBRECORDS" in w.env ==> IngestPath(w)(name) == Success(Join(w.env["INGEST_BIBRECORDS"], name))
      ensures "INGEST_BIBRECORDS" !in w.env ==> IngestPath(w)(name) == Failure(TypeError("no implicit conversion of nil into String"))
    {
      EnvVarPath(w.env, "INGEST_BIBRECORDS", name, false);
    }
    ForEachVerifyPath(C, w.fs, names, IngestPath(w), IngestStep(w));
    if IsLastOfMonth(d) && "INGEST_BIBRECORDS" !in w.env {
      assert names[0] in names;
    }
  }

  /** The columns of one rights line that do not match. */
  function BadColumn(fields: seq<string>): nat -> bool {
    (j: nat) => j < |fields| && j < |Columns| && !ColumnMatches(Columns[j], fields[j])
  }

  function ColumnError(path: string, i: nat, fields: seq<string>): nat -> string {
    (j: nat) => if j < |fields| && j < |Columns| then InvalidColumn(path, i, Columns[j], fields[j]) else ""
  }

  /** A rights line of at most five fields logs one error per field that
      does not match its column, in column order; a sixth field raises
      `NoMethodError`; a blank line passes. */
  lemma RightsLineOutcome(path: string, i: nat, line: string)
    ensures var fields := RightsFields(line);
      && (CheckRightsLine(path, i, line).raised.None? <==> |fields| <= |Columns|)
      && (|fields| > |Columns| ==> CheckRightsLine(path, i, line).raised == Some(NoSixthColumn))
      && (|fields| <= |Columns| ==>
            CheckRightsLine(path, i, line).errors == Flagged(C, Indices(|fields|), BadColumn(fields), ColumnError(path, i, fields)))
      && (Chomp(line) == "" ==> CheckRightsLine(path, i, line) == Clean)
  {
    var fields := RightsFields(line);
    var js := Indices(|fields|);
    if |fields| > |Columns| {
      assert FieldStep(path, i, fields)(js[5]).raised.Some?;
    } else {
      ForEachFlags(C, js, BadColumn(fields), ColumnError(path, i, fields), FieldStep(path, i, fields));
    }
  }

  /** A rights line that passes: at most five fields, each matching its
      column. */
  predicate RightsLineValid(line: string) {
    var fields := RightsFields(line);
    |fields| <= |Columns| && forall j :: 0 <= j < |fields| ==> ColumnMatches(Columns[j], fields[j])
  }

  /** One rights line is silent exactly when it is valid. */
  lemma RightsLineClean(path: string, i: nat, line: string)
    ensures CheckRightsLine(path, i, line) == Clean <==> RightsLineValid(line)
  {
    var fields := RightsFields(line);
    RightsLineOutcome(path, i, line);
    if |fields| <= |Columns| {
      var js := Indices(|fields|);
      var errors := Flagged(C, js, BadColumn(fields), ColumnError(path, i, fields));
      FlaggedEntries(C, js, BadColumn(fields), ColumnError(path, i, fields));
      if RightsLineValid(line) {
        assert forall k :: 0 <= k < |js| ==> !BadColumn(fields)(js[k]);
        assert forall e :: e !in errors;
      } else {
        var j :| 0 <= j < |fields| && !ColumnMatches(Columns[j], fields[j]);
        assert BadColumn(fields)(js[j]);
        assert Entry(C, ColumnError(path, i, fields)(js[j])) in errors;
      }
    }
  }

  /** A readable rights file raises `NoMethodError` exactly when some line
      has a sixth field, and is silent exactly when every line is valid:
      the file is empty, or all its lines match. */
  lemma {:induction false} RightsFileFormatVerdict(fs: FileSystem, path: string)
    requires Lines(fs, path).Success?
    ensures var lines := Lines(fs, path).value;
      VerifyRightsFileFormat(fs, path).raised.None? <==> forall i :: 0 <= i < |lines| ==> |RightsFields(lines[i])| <= |Columns|
    ensures VerifyRightsFileFormat(fs, path).raised.Some? ==> VerifyRightsFileFormat(fs, path).raised == Some(NoSixthColumn)
    ensures var lines := Lines(fs, path).value;
      VerifyRightsFileFormat(fs, path) == Clean <==> forall i :: 0 <= i < |lines| ==> RightsLineValid(lines[i])
  {
    var lines := Lines(fs, path).value;
    var ns := Indices(|lines|);
    var step := LineStep(path, lines);
    ForEachClean(ns, step);
    forall i | 0 <= i < |lines|
      ensures step(ns[i]) == CheckRightsLine(path, i, lines[i])
      ensures step(ns[i]).raised.None? <==> |RightsFields(lines[i])| <= |Columns|
      ensures step(ns[i]).raised.Some? ==> step(ns[i]).raised == Some(NoSixthColumn)
      ensures step(ns[i]) == Clean <==> RightsLineValid(lines[i])
    {
      RightsLineOutcome(path, i, lines[i]);
      RightsLineClean(path, i, lines[i]);
    }
  }

  /** The five fields of a well-formed rights line contain no tab. */
  lemma MatchingFieldHasNoTab(col: Column, s: string)
    requires ColumnMatches(col, s)
    ensures '\t' !in s
  {
    if col == Id {
      var k :| 0 < k < |s| - 1 && s[k] == '.'
        && (forall i :: 0 <= i < k ==> IsLowerOrDigit(s[i]))
        && (forall i :: k < i < |s| ==> !IsSpace(s[i]));
      forall i | 0 <= i < |s| ensures s[i] != '\t' {
        if i < k {
          assert IsLowerOrDigit(s[i]);
        } else if i > k {
          assert !IsSpace(s[i]);
        }
      }
    } else if col == DigitizationSource {
      forall i | 0 <= i < |s| ensures s[i] != '\t' {
        assert IsLowerOrDigit(s[i]) || s[i] == '-';
      }
    }
  }

  /** Five matching fields joined by tabs, newline or not, pass. */
  lemma WellFormedRightsLine(path: string, i: nat, fields: seq<string>, eol: string)
    requires |fields| == |Columns|
    requires forall j :: 0 <= j < |Columns| ==> ColumnMatches(Columns[j], fields[j])
    requires eol == "" || eol == "\n"
    ensures CheckRightsLine(path, i, JoinWith(fields, '\t') + eol) == Clean
  {
    forall j | 0 <= j < |fields| ensures '\t' !in fields[j] {
      MatchingFieldHasNoTab(Columns[j], fields[j]);
    }
    RightsFieldsOfJoin(fields, eol);
    RightsLineOutcome(path, i, JoinWith(fields, '\t') + eol);
  }

  /** Splitting a line built from five well-formed fields gives them back. */
  lemma RightsFieldsOfJoin(fields: seq<string>, eol: string)
    requires |fields| == |Columns|
    requires forall j :: 0 <= j < |fields| ==> '\t' !in fields[j]
    requires IsSourceCode(fields[4])
    requires eol == "" || eol == "\n"
    ensures RightsFields(JoinWith(fields, '\t') + eol) == fields
  {
    var joined := JoinWith(fields, '\t');
    var last := fields[4];
    JoinEndsWithLast(fields, '\t');
    assert joined[|joined| - 1] == last[|last| - 1];
    assert Chomp(joined + eol) == joined;
    SplitJoin(fields, '\t');
  }

  /** An archive file and its bib export, both readable: the check logs
      what `verify_parseable_ndj` found (and goes on regardless), then
      one error when the export does not hold the archive's lines plus
      the suppressed records; update files count no suppressed records. */
  lemma ArchiveAgainstExport(w: World, x: D.Derivative, path: string, bibPath: string)
    requires D.PathAsWritten(w.env, x) == Success(path) && Lines(w.fs, path).Success?
    requires D.PathAsWritten(w.env, BibExportOf(x)) == Success(bibPath) && Lines(w.fs, bibPath).Success?
    requires CountSuppressedRecords(w, x).1 == Clean
    ensures var archive := |Lines(w.fs, path).value|;
      var bib := |Lines(w.fs, bibPath).value|;
      var delta := CountSuppressedRecords(w, x).0;
      && CheckArchiveFile(w, x).raised.None?
      && CheckArchiveFile(w, x).errors ==
           VerifyParseableNdj(C, w.fs, path, w.parses).1.errors
           + (if bib != archive + delta then [Entry(C, CountMismatch(path, archive, delta, bibPath, bib))] else [])
      && (!x.full ==> delta == 0)
  {
    var archive := |Lines(w.fs, path).value|;
    var bib := |Lines(w.fs, bibPath).value|;
    var ndj := VerifyParseableNdj(C, w.fs, path, w.parses).1;
    var compared := CompareWithBibExport(w, x, path, archive, bibPath, bib);
    ExportCounted(w, x, path, archive, bibPath);
    ArchiveCounted(w, x, path, bibPath);
    assert CheckArchiveFile(w, x) == Then(ndj, compared);
    Compared(w, x, path, archive, bibPath, bib);
    assert Then(ndj, compared) == Report(ndj.errors + compared.errors, None);
  }

  lemma Compared(w: World, x: D.Derivative, path: string, archive: nat, bibPath: string, bib: nat)
    requires CountSuppressedRecords(w, x).1 == Clean
    ensures var delta := CountSuppressedRecords(w, x).0;
      CompareWithBibExport(w, x, path, archive, bibPath, bib)
        == Report(if bib != archive + delta then [Entry(C, CountMismatch(path, archive, delta, bibPath, bib))] else [], None)
  {
  }

  /** Records the monthly report counts as suppressed make up the
      difference: a full archive file with that many fewer lines than its
      bib export passes the comparison. */
  lemma SuppressedRecordsBalance(w: World, x: D.Derivative, path: string, archive: nat, bibPath: string)
    requires x.full && MonthlyReportPath(w.env).Success? && Exists(w.fs, MonthlyReportPath(w.env).value)
    requires w.grep.status < 2
    ensures CompareWithBibExport(w, x, path, archive, bibPath, archive + w.grep.count) == Clean
    ensures w.grep.count > 0 ==> CompareWithBibExport(w, x, path, archive, bibPath, archive) != Clean
  {
  }

  lemma ExportCounted(w: World, x: D.Derivative, path: string, archive: nat, bibPath: string)
    requires Lines(w.fs, bibPath).Success?
    ensures WhenVerified(C, w.fs, Success(bibPath), ExportStep(w, x, path, archive))
      == CompareWithBibExport(w, x, path, archive, bibPath, |Lines(w.fs, bibPath).value|)
  {
    assert Readable(w.fs, bibPath);
  }

  lemma ArchiveCounted(w: World, x: D.Derivative, path: string, bibPath: string)
    requires D.PathAsWritten(w.env, x) == Success(path) && Lines(w.fs, path).Success?
    requires D.PathAsWritten(w.env, BibExportOf(x)) == Success(bibPath)
    ensures CheckArchiveFile(w, x) ==
      Then(VerifyParseableNdj(C, w.fs, path, w.parses).1,
        WhenVerified(C, w.fs, Success(bibPath), ExportStep(w, x, path, |Lines(w.fs, path).value|)))
    ensures VerifyParseableNdj(C, w.fs, path, w.parses).1.raised.None?
  {
    assert Readable(w.fs, path);
  }
}

=== FILE: post_zephir_derivatives.dfy ===
/** `PostZephirDerivatives#earliest_missing_date`
    (lib/post_zephir_derivatives.rb): for every date of the window, the
    catalog prep, rights and delete derivatives of that date are looked up
    by path; the earliest date with a file missing is reported. */
module PostZephirDerivatives {
  import opened Wrappers
  import opened Calendar
  import opened Dates
  import opened Location
  import opened DateSeqs
  import opened FileSystem
  import D = Derivative

  /** `derivative_classes`, in order. */
  const Kinds: seq<D.Kind> := [D.CatalogPrep, D.Rights, D.Delete]

  /** The derivatives of one date, class by class: the update files every
      day, the full catalog and rights files on the 1st as well. */
  function Expected(e: Date): (r: seq<D.Derivative>)
    ensures |r| > 0 && r[0] == D.Derivative(D.CatalogPrep, e, false)
  {
    var prep := D.DerivativesForDate(D.CatalogPrep, e).value;
    var rights := D.DerivativesForDate(D.Rights, e).value;
    var deletes := D.DerivativesForDate(D.Delete, e).value;
    prep + rights + deletes
  }

  /** A date expects exactly the update file of each class, and the full
      catalog and rights files when it is the first of the month. */
  lemma ExpectedMembers(e: Date, x: D.Derivative)
    ensures x in Expected(e) <==> x.kind in Kinds && x.date == e && D.IsWellFormed(x) && (x.full ==> IsFirstOfMonth(e))
  {
    var prep := D.DerivativesForDate(D.CatalogPrep, e).value;
    var rights := D.DerivativesForDate(D.Rights, e).value;
    var deletes := D.DerivativesForDate(D.Delete, e).value;
    assert x in Expected(e) <==> x in prep || x in rights || x in deletes;
    if x.kind in Kinds && x.date == e {
      assert x == D.Derivative(x.kind, e, x.full);
    }
  }

  /** A derivative whose path resolves but names no file. */
  predicate IsMissing(env: Environment, fs: FileSystem, x: D.Derivative) {
    AbsentAt(fs, D.PathOf(env, x))
  }

  /** A date some expected derivative of which is missing. */
  predicate Incomplete(env: Environment, fs: FileSystem, e: Date) {
    exists x :: x in Expected(e) && IsMissing(env, fs, x)
  }

  /** `derivative.path` for each derivative, in order. */
  function PathsOf(env: Environment, xs: seq<D.Derivative>): (r: seq<Result<string>>)
    ensures |r| == |xs| && forall i :: 0 <= i < |xs| ==> r[i] == D.PathOf(env, xs[i])
  {
    seq(|xs|, i requires 0 <= i < |xs| => D.PathOf(env, xs[i]))
  }

  /** `!File.exist?(path)`, the path raising when it cannot be computed. */
  function IsAbsent(fs: FileSystem, path: Result<string>): Result<bool> {
    var p :- path;
    Success(!Exists(fs, p))
  }

  /** The inner loops for one date: each path in turn, the first that
      raises ending the run; true when some file does not exist. */
  function AnyAbsent(fs: FileSystem, paths: seq<Result<string>>): (r: Result<bool>)
    ensures r.Failure? <==> exists i :: 0 <= i < |paths| && paths[i].Failure?
    ensures r.Failure? ==>
      exists i :: 0 <= i < |paths| && paths[i] == Failure(r.error) && forall j :: 0 <= j < i ==> paths[j].Success?
    ensures r.Success? ==> (r.value <==> exists i :: 0 <= i < |paths| && AbsentAt(fs, paths[i]))
  {
    if |paths| == 0 then Success(false)
    else if paths[0].Failure? then Failure(paths[0].error)
    else
      var rest := AnyAbsent(fs, paths[1..]);
      assert forall i :: 1 <= i < |paths| ==> paths[i] == paths[1..][i - 1];
      if rest.Failure? then rest
      else Success(!Exists(fs, paths[0].value) || rest.value)
  }

  /** The check of one date. */
  function DateCheck(env: Environment, fs: FileSystem, e: Date): Result<bool> {
    AnyAbsent(fs, PathsOf(env, Expected(e)))
  }

  /** The environment every expected path needs: the prep directory, and
      the rights archive or the rights directory. */
  predicate Configured(env: Environment) {
    "CATALOG_PREP" in env && ("RIGHTS_ARCHIVE" in env || "RIGHTS_DIR" in env)
  }

  /** What an unconfigured environment raises: the prep path comes first
      and `File.join` refuses its nil; otherwise the rights path's
      `ENV.fetch` raises. */
  function ConfigurationError(env: Environment): Exception {
    if "CATALOG_PREP" !in env then TypeError("no implicit conversion of nil into String") else KeyError("RIGHTS_DIR")
  }

  /** Which expected paths resolve, and what the others raise. */
  lemma ExpectedPath(env: Environment, x: D.Derivative)
    requires x.kind in Kinds
    ensures x.kind == D.Rights ==> (D.PathOf(env, x).Success? <==> "RIGHTS_ARCHIVE" in env || "RIGHTS_DIR" in env)
    ensures x.kind == D.Rights && D.PathOf(env, x).Failure? ==> D.PathOf(env, x).error == KeyError("RIGHTS_DIR")
    ensures x.kind != D.Rights ==> (D.PathOf(env, x).Success? <==> "CATALOG_PREP" in env)
    ensures x.kind != D.Rights && D.PathOf(env, x).Failure? ==>
      D.PathOf(env, x).error == TypeError("no implicit conversion of nil into String")
  {
    if x.kind == D.Rights {
      D.RightsPath(env, x);
    } else {
      assert D.LocationOf(x.kind, x.full) == EnvVar("CATALOG_PREP");
      EnvVarPath(env, "CATALOG_PREP", D.FileName(x), true);
    }
  }

  /** Where in a date's list each path stands: the prep files first, the
      update rights file among the next two. */
  lemma ExpectedOrder(e: Date)
    ensures Expected(e)[0].kind == D.CatalogPrep
    ensures exists k :: 0 < k < |Expected(e)| && Expected(e)[k].kind == D.Rights && forall j :: 0 <= j < k ==> Expected(e)[j].kind == D.CatalogPrep
    ensures forall i :: 0 <= i < |Expected(e)| ==> Expected(e)[i].kind in Kinds
  {
    var xs := Expected(e);
    forall i | 0 <= i < |xs| ensures xs[i].kind in Kinds {
      assert xs[i] in xs;
    }
    var k := if IsFirstOfMonth(e) then 2 else 1;
    assert xs[k].kind == D.Rights;
  }

  /** A date's check raises exactly when the environment is incomplete, and
      then with the same error whatever the date. */
  lemma ChecksRaiseOnlyUnconfigured(env: Environment, fs: FileSystem, e: Date)
    ensures DateCheck(env, fs, e).Failure? <==> !Configured(env)
    ensures DateCheck(env, fs, e).Failure? ==> DateCheck(env, fs, e).error == ConfigurationError(env)
  {
    var xs := Expected(e);
    var paths := PathsOf(env, xs);
    ExpectedOrder(e);
    var k :| 0 < k < |xs| && xs[k].kind == D.Rights && forall j :: 0 <= j < k ==> xs[j].kind == D.CatalogPrep;
    forall i | 0 <= i < |xs|
      ensures paths[i].Success? <==> (if xs[i].kind == D.Rights then "RIGHTS_ARCHIVE" in env || "RIGHTS_DIR" in env else "CATALOG_PREP" in env)
      ensures paths[i].Failure? ==> paths[i].error == (if xs[i].kind == D.Rights then KeyError("RIGHTS_DIR") else TypeError("no implicit conversion of nil into String"))
    {
      ExpectedPath(env, xs[i]);
    }
    assert paths[0].Success? <==> "CATALOG_PREP" in env;
    assert paths[k].Success? <==> "RIGHTS_ARCHIVE" in env || "RIGHTS_DIR" in env;
  }

  /** A path that resolves but names no file. */
  predicate AbsentAt(fs: FileSystem, path: Result<string>) {
    path.Success? && !Exists(fs, path.value)
  }

  /** Some path of a list is absent exactly when some item the list was
      computed from has an absent path. */
  lemma SomeAbsent<X>(fs: FileSystem, xs: seq<X>, paths: seq<Result<string>>, f: X -> Result<string>)
    requires |paths| == |xs| && forall i :: 0 <= i < |xs| ==> paths[i] == f(xs[i])
    ensures (exists i :: 0 <= i < |paths| && AbsentAt(fs, paths[i])) <==> exists x :: x in xs && AbsentAt(fs, f(x))
  {
    if exists x :: x in xs && AbsentAt(fs, f(x)) {
      var x :| x in xs && AbsentAt(fs, f(x));
      var i :| 0 <= i < |xs| && xs[i] == x;
      assert AbsentAt(fs, paths[i]);
    }
  }

  /** A date's check that completes says whether the date is incomplete. */
  lemma CheckFindsMissing(env: Environment, fs: FileSystem, e: Date)
    ensures DateCheck(env, fs, e).Success? ==> (DateCheck(env, fs, e).value <==> Incomplete(env, fs, e))
  {
    var xs := Expected(e);
    var paths := PathsOf(env, xs);
    SomeAbsent(fs, xs, paths, x => D.PathOf(env, x));
  }

  /** `[earliest, date].compact.min` */
  function EarlierOf(earliest: Option<Date>, e: Date): (r: Date)
    ensures earliest.None? ==> r == e
    ensures earliest.Some? ==> (r == earliest.value || r == e) && NotAfter(r, earliest.value) && NotAfter(r, e)
  {
    BeforeIsTotal(e, if earliest.Some? then earliest.value else e);
    if earliest.Some? && NotAfter(earliest.value, e) then earliest.value else e
  }

  /** The outer loop over the first `n` dates, `flags` telling which have
      a missing file: nil when none has, otherwise the earliest that has. */
  function FoldEarliest(ds: seq<Date>, flags: seq<bool>, n: nat): (r: Option<Date>)
    requires |flags| == |ds| && n <= |ds|
    ensures r.None? <==> forall j :: 0 <= j < n ==> !flags[j]
    ensures r.Some? ==> exists j :: 0 <= j < n && flags[j] && r.value == ds[j]
    ensures r.Some? ==> forall j :: 0 <= j < n && flags[j] ==> NotAfter(r.value, ds[j])
  {
    if n == 0 then None
    else
      var earliest := FoldEarliest(ds, flags, n - 1);
      if !flags[n - 1] then earliest
      else
        var m := EarlierOf(earliest, ds[n - 1]);
        forall j | 0 <= j < n - 1 && flags[j] ensures NotAfter(m, ds[j]) {
          NotAfterIsTransitive(m, earliest.value, ds[j]);
        }
        Some(m)
  }

  /** The outer loop with each date's check supplied: the first check that
      raises ends the run, otherwise the earliest flagged date or nil. */
  function EarliestFlagged(ds: seq<Date>, check: Date -> Result<bool>): (r: Result<Option<Date>>)
    ensures r.Failure? <==> exists i :: 0 <= i < |ds| && check(ds[i]).Failure?
    ensures r.Failure? ==>
      exists i :: 0 <= i < |ds| && check(ds[i]) == Failure(r.error) && forall j :: 0 <= j < i ==> check(ds[j]).Success?
    ensures r.Success? ==> (r.value.None? <==> forall i :: 0 <= i < |ds| ==> check(ds[i]) != Success(true))
    ensures r.Success? && r.value.Some? ==> exists i :: 0 <= i < |ds| && check(ds[i]) == Success(true) && r.value.value == ds[i]
    ensures r.Success? && r.value.Some? ==>
      forall i :: 0 <= i < |ds| && check(ds[i]) == Success(true) ==> NotAfter(r.value.value, ds[i])
  {
    var steps := seq(|ds|, i requires 0 <= i < |ds| => check(ds[i]));
    assert forall i :: 0 <= i < |ds| ==> steps[i] == check(ds[i]);
    var flags :- Collect(steps);
    assert forall i :: 0 <= i < |ds| ==> (flags[i] <==> check(ds[i]) == Success(true));
    Success(FoldEarliest(ds, flags, |ds|))
  }

  /** `earliest_missing_date` for datestamp `d`: raises when the environment
      lacks a directory; otherwise nil exactly when every date of the window
      has all its derivatives, else the earliest date that has not. */
  function EarliestMissingDate(env: Environment, fs: FileSystem, d: Date): (r: Result<Option<Date>>)
    ensures r.Failure? <==> !Configured(env)
    ensures r.Failure? ==> r.error == ConfigurationError(env)
    ensures r.Success? ==> (r.value.None? <==> forall e :: e in AllDates(d) ==> !Incomplete(env, fs, e))
    ensures r.Success? && r.value.Some? ==> r.value.value in AllDates(d) && Incomplete(env, fs, r.value.value)
    ensures r.Success? && r.value.Some? ==>
      forall e :: e in AllDates(d) && Incomplete(env, fs, e) ==> NotAfter(r.value.value, e)
  {
    var ds := AllDates(d);
    AllDatesShape(d);
    forall e ensures DateCheck(env, fs, e).Failure? <==> !Configured(env)
      ensures DateCheck(env, fs, e).Failure? ==> DateCheck(env, fs, e).error == ConfigurationError(env)
      ensures DateCheck(env, fs, e).Success? ==> (DateCheck(env, fs, e).value <==> Incomplete(env, fs, e))
    {
      ChecksRaiseOnlyUnconfigured(env, fs, e);
      CheckFindsMissing(env, fs, e);
    }
    assert forall e :: e in ds <==> exists i :: 0 <= i < |ds| && ds[i] == e;
    EarliestFlagged(ds, (e: Date) => DateCheck(env, fs, e))
  }
}

=== FILE: redirects.dfy ===
/** `HathifilesRedirectsVerifier`
    (lib/verifier/hathifiles_redirects_verifier.rb): the month's redirects
    file must hold only `old<TAB>new` pairs of nine-digit record numbers,
    and every line of the month's redirects history file must be a JSON
    object with the keys `recid`, `mrs`, `entries` and `json_class`. Both
    files are named after the run date's year and month. */
module RedirectsVerifier {
  import opened Wrappers
  import opened Text
  import opened Calendar
  import opened Datestamp
  import opened FileSystem
  import opened Verifier
  import opened Json
  import L = Location
  import P = Paths

  const C: Class := HathifilesRedirects

  /** What the check looks at: the environment, the files, and
      `JSON.parse`, `None` standing for `JSON::ParserError`. */
  datatype World = World(env: L.Environment, fs: FileSystem, parse: string -> Option<Json>)

  /** `date.strftime("%Y%m")` */
  function YearMonth(d: Date): string {
    FormatYear(d.year) + Pad(d.month, 2)
  }

  /** `redirects_file(date:)` */
  function RedirectsFile(env: L.Environment, d: Date): Result<string> {
    L.PathIn(env, L.EnvVar("REDIRECTS_DIR"), "redirects_" + YearMonth(d) + ".txt.gz", false)
  }

  /** `redirects_history_file(date:)` */
  function HistoryFile(env: L.Environment, d: Date): Result<string> {
    L.PathIn(env, L.EnvVar("REDIRECTS_HISTORY_DIR"), YearMonth(d) + ".ndj.gz", false)
  }

  function Malformed(file: string, lineNumber: nat, line: string): string {
    file + ":" + Decimal(lineNumber) + " contains malformed line: " + line
  }

  // ---------------------------------------------------------------------
  // The redirects file

  /** `\d{9}\t\d{9}` */
  predicate IsPair(s: string) {
    |s| == 19 && AllDigits(s[..9]) && s[9] == '\t' && AllDigits(s[10..])
  }

  /** `/^\d{9}\t\d{9}$/` matches at position `i`: `^` and `$` are line
      anchors, so the pair must start at the start of the text or after a
      newline, and end at its end or before a newline. */
  predicate PairAt(line: string, i: int) {
    0 <= i && i + 19 <= |line|
    && (i == 0 || line[i - 1] == '\n')
    && IsPair(line[i..i + 19])
    && (i + 19 == |line| || line[i + 19] == '\n')
  }

  /** `REDIRECTS_REGEX.match?(line)`: the pattern matches somewhere. */
  predicate MatchesRedirect(line: string) {
    exists i :: 0 <= i <= |line| && PairAt(line, i)
  }

  /** For a line as `each_line` yields it, the pattern matches exactly the
      pair alone or the pair followed by its newline: a carriage return, a
      space or anything else around the pair is malformed. */
  lemma RedirectLineShape(line: string)
    requires IsLine(line)
    ensures MatchesRedirect(line) <==> IsPair(line) || (|line| == 20 && IsPair(line[..19]) && line[19] == '\n')
  {
    if IsPair(line) {
      assert line[0..0 + 19] == line;
      assert PairAt(line, 0);
    }
    if |line| == 20 && IsPair(line[..19]) && line[19] == '\n' {
      assert line[0..0 + 19] == line[..19];
      assert PairAt(line, 0);
    }
    if MatchesRedirect(line) {
      var i :| 0 <= i <= |line| && PairAt(line, i);
      assert i > 0 ==> i - 1 < |line| - 1 && line[i - 1] == '\n';
      assert line[..19] == line[0..0 + 19];
    }
  }

  /** Two nine-digit record numbers joined by a tab, as a line of the file
      with and without its newline, are well formed; with a carriage return
      before the newline they are not. */
  lemma PairLines(from: string, to: string)
    requires |from| == 9 && |to| == 9 && AllDigits(from) && AllDigits(to)
    ensures MatchesRedirect(from + "\t" + to)
    ensures MatchesRedirect(from + "\t" + to + "\n")
    ensures !MatchesRedirect(from + "\t" + to + "\r\n")
  {
    var pair := from + "\t" + to;
    assert pair[..9] == from && pair[10..] == to;
    RedirectLineShape(pair);
    RedirectLineShape(pair + "\n");
    assert (pair + "\n")[..19] == pair;
    var crlf := pair + "\r\n";
    RedirectLineShape(crlf);
    assert crlf[18] == to[8];
  }

  /** One line of the redirects file, numbered from 1. */
  function RedirectStep(file: string, lines: seq<string>): nat -> Report {
    (i: nat) => if i < |lines| then Flag(C, !MatchesRedirect(lines[i]), Malformed(file, i + 1, lines[i])) else Clean
  }

  function BadRedirect(lines: seq<string>): nat -> bool {
    (i: nat) => i < |lines| && !MatchesRedirect(lines[i])
  }

  /** The error for line `i` of either file: the file, its line number
      counted from 1, and the line. */
  function LineMessage(file: string, lines: seq<string>): nat -> string {
    (i: nat) => if i < |lines| then Malformed(file, i + 1, lines[i]) else ""
  }

  /** The lines of the file at `path`, checked once it is verified. */
  function RedirectLines(fs: FileSystem, file: string): string -> Report {
    path =>
      match Lines(fs, path)
      case Failure(e) => Raised(e)
      case Success(lines) => ForEach(Indices(|lines|), RedirectStep(file, lines))
  }

  /** `verify_redirects_file` */
  function VerifyRedirectsFile(w: World, d: Date): Report {
    match RedirectsFile(w.env, d)
    case Failure(e) => Raised(e)
    case Success(file) => WhenVerified(C, w.fs, Success(file), RedirectLines(w.fs, file))
  }

  /** Every malformed line of the redirects file is one error naming the
      file, the line number and the line, in file order; the check is
      silent exactly when every line matches. */
  lemma {:induction false} RedirectLinesVerdict(file: string, lines: seq<string>)
    ensures ForEach(Indices(|lines|), RedirectStep(file, lines))
      == Report(Flagged(C, Indices(|lines|), BadRedirect(lines), LineMessage(file, lines)), None)
    ensures ForEach(Indices(|lines|), RedirectStep(file, lines)) == Clean <==>
      forall i :: 0 <= i < |lines| ==> MatchesRedirect(lines[i])
  {
    var ns := Indices(|lines|);
    ForEachFlags(C, ns, BadRedirect(lines), LineMessage(file, lines), RedirectStep(file, lines));
    assert forall i :: 0 <= i < |ns| ==> (BadRedirect(lines)(ns[i]) <==> !MatchesRedirect(lines[i]));
  }

  // ---------------------------------------------------------------------
  // The history file

  /** `HISTORY_FILE_KEYS` */
  const HistoryKeys: seq<string> := ["recid", "mrs", "entries", "json_class"]

  /** `a & b` for Arrays: the elements of `a` that `b` holds, in `a`'s
      order; `a` here never repeats an element. */
  function Intersect(a: seq<string>, b: set<string>): (r: seq<string>)
    ensures forall k :: k in r <==> k in a && k in b
    ensures |r| <= |a|
  {
    if |a| == 0 then [] else (if a[0] in b then [a[0]] else []) + Intersect(a[1..], b)
  }

  /** One line of the history file: it must parse to a Hash whose keys
      include all of `HISTORY_FILE_KEYS`. */
  predicate HistoryLineValid(parse: string -> Option<Json>, line: string) {
    match parse(line)
    case Some(Object(ms)) => Intersect(HistoryKeys, KeySet(ms)) == HistoryKeys
    case _ => false
  }

  /** Array intersection keeps `HISTORY_FILE_KEYS` whole exactly when the
      object has every one of the four keys; other keys do not matter. */
  lemma {:induction false} HistoryKeysPresent(keys: set<string>)
    ensures Intersect(HistoryKeys, keys) == HistoryKeys <==> forall k :: k in HistoryKeys ==> k in keys
  {
    if forall k :: k in HistoryKeys ==> k in keys {
      var a, b, c := ["mrs", "entries", "json_class"], ["entries", "json_class"], ["json_class"];
      assert HistoryKeys[1..] == a && a[1..] == b && b[1..] == c && c[1..] == [];
      assert Intersect(c, keys) == c + Intersect([], keys);
      assert Intersect(b, keys) == ["entries"] + Intersect(c, keys);
      assert Intersect(a, keys) == ["mrs"] + Intersect(b, keys);
      assert Intersect(HistoryKeys, keys) == ["recid"] + Intersect(a, keys);
    }
  }

  /** A history line is valid exactly when it parses to an object with
      all four keys. */
  lemma HistoryLineMeaning(parse: string -> Option<Json>, line: string)
    ensures HistoryLineValid(parse, line) <==>
      parse(line).Some? && parse(line).value.Object? &&
      forall k :: k in HistoryKeys ==> k in KeySet(parse(line).value.members)
  {
    if parse(line).Some? && parse(line).value.Object? {
      HistoryKeysPresent(KeySet(parse(line).value.members));
    }
  }

  function HistoryStep(parse: string -> Option<Json>, file: string, lines: seq<string>): nat -> Report {
    (i: nat) => if i < |lines| then Flag(C, !HistoryLineValid(parse, lines[i]), Malformed(file, i + 1, lines[i])) else Clean
  }

  function BadHistory(parse: string -> Option<Json>, lines: seq<string>): nat -> bool {
    (i: nat) => i < |lines| && !HistoryLineValid(parse, lines[i])
  }

  function HistoryLines(parse: string -> Option<Json>, fs: FileSystem, file: string): string -> Report {
    path =>
      match Lines(fs, path)
      case Failure(e) => Raised(e)
      case Success(lines) => ForEach(Indices(|lines|), HistoryStep(parse, file, lines))
  }

  /** `verify_redirects_history_file` */
  function VerifyHistoryFile(w: World, d: Date): Report {
    match HistoryFile(w.env, d)
    case Failure(e) => Raised(e)
    case Success(file) => WhenVerified(C, w.fs, Success(file), HistoryLines(w.parse, w.fs, file))
  }

  /** Every history line that fails to parse, or parses to something other
      than an object with the four keys, is one error naming the file, the
      line number and the line, in file order; nothing raises, and the
      check is silent exactly when every line is an object with the four
      keys. */
  lemma {:induction false} HistoryLinesVerdict(parse: string -> Option<Json>, file: string, lines: seq<string>)
    ensures ForEach(Indices(|lines|), HistoryStep(parse, file, lines))
      == Report(Flagged(C, Indices(|lines|), BadHistory(parse, lines), LineMessage(file, lines)), None)
    ensures ForEach(Indices(|lines|), HistoryStep(parse, file, lines)).raised.None?
    ensures ForEach(Indices(|lines|), HistoryStep(parse, file, lines)) == Clean <==>
      forall i :: 0 <= i < |lines| ==> HistoryLineValid(parse, lines[i])
  {
    var ns := Indices(|lines|);
    var step := HistoryStep(parse, file, lines);
    ForEachFlags(C, ns, BadHistory(parse, lines), LineMessage(file, lines), step);
    ForEachClean(ns, step);
    assert forall i :: 0 <= i < |ns| ==> step(ns[i]).raised.None?;
    assert forall i :: 0 <= i < |lines| ==> (step(ns[i]) == Clean <==> HistoryLineValid(parse, lines[i]));
  }

  // ---------------------------------------------------------------------
  // run_for_date

  /** `run_for_date`, which is `verify_redirects`: the redirects file,
      then the history file. */
  function RunForDate(w: World, d: Date): Report {
    Then(VerifyRedirectsFile(w, d), VerifyHistoryFile(w, d))
  }

  /** Every day of a month checks the same two files. */
  lemma OneFilePairPerMonth(env: L.Environment, a: Date, b: Date)
    requires a.year == b.year && a.month == b.month
    ensures RedirectsFile(env, a) == RedirectsFile(env, b)
    ensures HistoryFile(env, a) == HistoryFile(env, b)
  {
  }

  /** With both directories set, the two paths are the month's file
      names under them. */
  lemma FilePaths(env: L.Environment, d: Date)
    requires "REDIRECTS_DIR" in env && "REDIRECTS_HISTORY_DIR" in env
    ensures RedirectsFile(env, d) == Success(P.Join(env["REDIRECTS_DIR"], "redirects_" + YearMonth(d) + ".txt.gz"))
    ensures HistoryFile(env, d) == Success(P.Join(env["REDIRECTS_HISTORY_DIR"], YearMonth(d) + ".ndj.gz"))
  {
    L.EnvVarPath(env, "REDIRECTS_DIR", "redirects_" + YearMonth(d) + ".txt.gz", false);
    L.EnvVarPath(env, "REDIRECTS_HISTORY_DIR", YearMonth(d) + ".ndj.gz", false);
  }

  /** An unset redirects directory raises before anything is checked. */
  lemma UnsetRedirectsDir(w: World, d: Date)
    requires "REDIRECTS_DIR" !in w.env
    ensures RunForDate(w, d) == Raised(TypeError("no implicit conversion of nil into String"))
  {
    L.EnvVarPath(w.env, "REDIRECTS_DIR", "redirects_" + YearMonth(d) + ".txt.gz", false);
  }

  /** With both directories set and neither file there, the check logs
      two not-found errors, the redirects file's first. */
  lemma BothMissing(w: World, d: Date)
    requires "REDIRECTS_DIR" in w.env && "REDIRECTS_HISTORY_DIR" in w.env
    requires !Exists(w.fs, RedirectsFile(w.env, d).value) && !Exists(w.fs, HistoryFile(w.env, d).value)
    ensures RunForDate(w, d) == Report([
      Entry(C, "not found: " + RedirectsFile(w.env, d).value),
      Entry(C, "not found: " + HistoryFile(w.env, d).value)], None)
  {
    FilePaths(w.env, d);
  }

  /** With both files readable, the check never raises, and it is silent
      exactly when every redirects line is a pair and every history line
      an object with the four keys. */
  lemma BothReadable(w: World, d: Date)
    requires "REDIRECTS_DIR" in w.env && "REDIRECTS_HISTORY_DIR" in w.env
    requires Lines(w.fs, RedirectsFile(w.env, d).value).Success?
    requires Lines(w.fs, HistoryFile(w.env, d).value).Success?
    ensures RunForDate(w, d).raised.None?
    ensures var redirects := Lines(w.fs, RedirectsFile(w.env, d).value).value;
      var history := Lines(w.fs, HistoryFile(w.env, d).value).value;
      RunForDate(w, d) == Clean <==>
        (forall i :: 0 <= i < |redirects| ==> MatchesRedirect(redirects[i]))
        && (forall i :: 0 <= i < |history| ==> HistoryLineValid(w.parse, history[i]))
  {
    FilePaths(w.env, d);
    var rf := RedirectsFile(w.env, d).value;
    var hf := HistoryFile(w.env, d).value;
    RedirectChecked(w, d, rf);
    HistoryChecked(w, d, hf);
    RedirectLinesVerdict(rf, Lines(w.fs, rf).value);
    HistoryLinesVerdict(w.parse, hf, Lines(w.fs, hf).value);
    ThenClean(VerifyRedirectsFile(w, d), VerifyHistoryFile(w, d));
  }

  lemma RedirectChecked(w: World, d: Date, rf: string)
    requires RedirectsFile(w.env, d) == Success(rf) && Lines(w.fs, rf).Success?
    ensures VerifyRedirectsFile(w, d) == ForEach(Indices(|Lines(w.fs, rf).value|), RedirectStep(rf, Lines(w.fs, rf).value))
  {
    assert Readable(w.fs, rf);
  }

  lemma HistoryChecked(w: World, d: Date, hf: string)
    requires HistoryFile(w.env, d) == Success(hf) && Lines(w.fs, hf).Success?
    ensures VerifyHistoryFile(w, d) == ForEach(Indices(|Lines(w.fs, hf).value|), HistoryStep(w.parse, hf, Lines(w.fs, hf).value))
  {
    assert Readable(w.fs, hf);
  }
}

=== FILE: rescued_log.dfy ===
/** The log `run_verifiers` (bin/verify.rb) leaves behind: each verifier
    runs inside its own `rescue StandardError`, so the errors it logged stay
    in the log and the exception that ended it is logged as fatal, and the
    next verifier runs all the same. */
module RescuedLog {
  import opened Wrappers
  import opened Verifier

  /** One line of the log: an error a verifier logged, or the exception
      that ended a verifier, logged with `fatal`. */
  datatype LogLine = Error(entry: string) | Fatal(e: Exception)

  /** What one verifier leaves in the log: its errors as it logged them,
      then the exception that ended it, if one did. */
  function Outcome(r: Report): (lines: seq<LogLine>)
    ensures |lines| == |r.errors| + (if r.raised.Some? then 1 else 0)
    ensures forall i :: 0 <= i < |r.errors| ==> lines[i] == Error(r.errors[i])
    ensures r.raised.Some? ==> lines[|lines| - 1] == Fatal(r.raised.value)
  {
    ErrorLines(r.errors) + (if r.raised.Some? then [Fatal(r.raised.value)] else [])
  }

  /** Logged errors as log lines. */
  function ErrorLines(es: seq<string>): (lines: seq<LogLine>)
    ensures |lines| == |es| && forall i :: 0 <= i < |es| ==> lines[i] == Error(es[i])
  {
    seq(|es|, i requires 0 <= i < |es| => Error(es[i]))
  }

  /** The log of a sequence of verifier runs, each rescued on its own. */
  function Rescued(rs: seq<Report>): seq<LogLine> {
    if |rs| == 0 then [] else Outcome(rs[0]) + Rescued(rs[1..])
  }

  /** The errors in a log, in order. */
  function Errors(log: seq<LogLine>): seq<string> {
    if |log| == 0 then [] else (if log[0].Error? then [log[0].entry] else []) + Errors(log[1..])
  }

  /** The fatal exceptions in a log, in order. */
  function Fatals(log: seq<LogLine>): seq<Exception> {
    if |log| == 0 then [] else (if log[0].Fatal? then [log[0].e] else []) + Fatals(log[1..])
  }

  /** Every report's errors, in order. */
  function AllErrors(rs: seq<Report>): seq<string> {
    if |rs| == 0 then [] else rs[0].errors + AllErrors(rs[1..])
  }

  /** Every exception raised, in order. */
  function AllRaised(rs: seq<Report>): seq<Exception> {
    if |rs| == 0 then [] else (if rs[0].raised.Some? then [rs[0].raised.value] else []) + AllRaised(rs[1..])
  }

  lemma {:induction false} ErrorsAppend(a: seq<LogLine>, b: seq<LogLine>)
    ensures Errors(a + b) == Errors(a) + Errors(b)
    ensures Fatals(a + b) == Fatals(a) + Fatals(b)
    decreases |a|
  {
    if |a| > 0 {
      assert (a + b)[0] == a[0];
      assert (a + b)[1..] == a[1..] + b;
      ErrorsAppend(a[1..], b);
    } else {
      assert a + b == b;
    }
  }

  lemma {:induction false} ErrorLinesParts(es: seq<string>)
    ensures Errors(ErrorLines(es)) == es
    ensures Fatals(ErrorLines(es)) == []
    decreases |es|
  {
    if |es| > 0 {
      assert ErrorLines(es)[1..] == ErrorLines(es[1..]);
      ErrorLinesParts(es[1..]);
      assert es == [es[0]] + es[1..];
    }
  }

  /** One verifier's part of the log holds its errors and its exception. */
  lemma OutcomeParts(r: Report)
    ensures Errors(Outcome(r)) == r.errors
    ensures Fatals(Outcome(r)) == if r.raised.Some? then [r.raised.value] else []
  {
    var lines := ErrorLines(r.errors);
    var tail: seq<LogLine> := if r.raised.Some? then [Fatal(r.raised.value)] else [];
    assert Outcome(r) == lines + tail;
    ErrorLinesParts(r.errors);
    ErrorsAppend(lines, tail);
    if r.raised.Some? {
      assert tail[1..] == [];
      assert Errors(tail) == [] && Fatals(tail) == [r.raised.value];
    }
  }

  /** Rescuing each run keeps everything: the log holds every error every
      verifier logged, including those logged before an exception, and
      every exception raised, not only the first, all in order. */
  lemma {:induction false} RescuedKeepsAll(rs: seq<Report>)
    ensures Errors(Rescued(rs)) == AllErrors(rs)
    ensures Fatals(Rescued(rs)) == AllRaised(rs)
    decreases |rs|
  {
    if |rs| > 0 {
      OutcomeParts(rs[0]);
      ErrorsAppend(Outcome(rs[0]), Rescued(rs[1..]));
      RescuedKeepsAll(rs[1..]);
    }
  }

  /** The log is empty exactly when every verifier ran clean. */
  lemma {:induction false} RescuedQuiet(rs: seq<Report>)
    ensures Rescued(rs) == [] <==> forall i :: 0 <= i < |rs| ==> rs[i] == Clean
    decreases |rs|
  {
    if |rs| > 0 {
      RescuedQuiet(rs[1..]);
      assert forall i :: 0 <= i < |rs| - 1 ==> rs[1..][i] == rs[i + 1];
      assert |Outcome(rs[0])| == 0 <==> rs[0] == Clean;
    }
  }


  /** Runs that each raise at once, before logging anything. */
  function RaisedAll(es: seq<Exception>): (rs: seq<Report>)
    ensures |rs| == |es| && forall i :: 0 <= i < |es| ==> rs[i] == Raised(es[i])
  {
    seq(|es|, i requires 0 <= i < |es| => Raised(es[i]))
  }

  /** Runs that each raise at once leave only their fatal lines. */
  lemma {:induction false} OnlyRaised(es: seq<Exception>)
    ensures AllErrors(RaisedAll(es)) == []
    ensures AllRaised(RaisedAll(es)) == es
    decreases |es|
  {
    if |es| > 0 {
      assert RaisedAll(es)[1..] == RaisedAll(es[1..]);
      OnlyRaised(es[1..]);
      assert es == [es[0]] + es[1..];
    }
  }
}

=== FILE: run_verifiers.dfy ===
/** `run_verifiers` (bin/verify.rb): every verifier runs for the date to
    check, one after another in a fixed order, each with a fresh instance,
    and an exception one of them raises is logged as fatal and does not
    stop the next.

    The date comes from the command line when one is given. As written,
    `ARGV[0]` is passed on as a String, and every verifier fails on its
    first date method (`RunVerifiersAsWritten`); `RunVerifiers` parses it
    as `Journal` parses a date, and falls back to today when none is
    given. */
module RunVerifiers {
  import opened Wrappers
  import opened Calendar
  import opened Datestamp
  import opened FileSystem
  import opened Verifier
  import L = Location
  import opened Json
  import J = Journal
  import PZ = PostZephirVerifier
  import PR = PopulateRightsVerifier
  import HF = HathifilesVerifier
  import HD = HathifilesDatabaseVerifier
  import HL = HathifilesListingVerifier
  import RV = RedirectsVerifier
  import CI = CatalogIndexVerifier
  import opened RescuedLog
  import P = Paths

  /** What the verifiers look at, shared by all of them: the environment,
      the files, `JSON.parse`, and the answers of the outside services. */
  datatype Worlds = Worlds(
    env: L.Environment, fs: FileSystem, parse: string -> Option<Json>,
    grep: PZ.Grep, rightsCurrent: set<PR.Row>, hfLog: set<string>, hfCount: nat,
    solr: string -> CI.SolrResponse, utcStart: Date -> string)

  /** The verifiers, in the order `run_verifiers` lists them. */
  const Order: seq<Class> := [PostZephir, PopulateRights, Hathifiles, HathifilesDatabase,
    HathifilesListing, HathifilesRedirects, CatalogIndex]

  /** `klass.new.run_for_date(date:)` for one verifier class; each sees the
      shared world through its own inputs, and `PopulateRights` gets its
      default slice size. */
  function RunOne(ws: Worlds, c: Class, d: Date): Report {
    match c
    case PostZephir => PZ.RunForDate(PZ.World(ws.env, ws.fs, s => ws.parse(s).Some?, ws.grep), d)
    case PopulateRights => PR.RunForDate(PR.World(ws.env, ws.fs, ws.rightsCurrent, PR.DefaultSliceSize), d)
    case Hathifiles => HF.RunForDate(HF.World(ws.env, ws.fs), d)
    case HathifilesDatabase => HD.RunForDate(HD.World(ws.env, ws.fs, ws.hfLog, ws.hfCount), d)
    case HathifilesListing => HL.RunForDate(HL.World(ws.env, ws.fs, ws.parse), d)
    case HathifilesRedirects => RV.RunForDate(RV.World(ws.env, ws.fs, ws.parse), d)
    case CatalogIndex => CI.RunForDate(CI.World(ws.env, ws.fs, ws.solr, ws.utcStart), d)
    case HathifileContents => Clean
  }

  /** The reports of the verifiers, in order. */
  function Reports(ws: Worlds, d: Date): (rs: seq<Report>)
    ensures |rs| == |Order| && forall i :: 0 <= i < |Order| ==> rs[i] == RunOne(ws, Order[i], d)
  {
    seq(|Order|, i requires 0 <= i < |Order| => RunOne(ws, Order[i], d))
  }

  /** `run_verifiers(date_to_check)` for a Date. */
  function RunAll(ws: Worlds, d: Date): seq<LogLine> {
    Rescued(Reports(ws, d))
  }

  /** `Dotenv.load`: the variables the file defines are added, and a
      variable the environment already sets keeps its value. */
  function DotenvLoad(env: L.Environment, file: L.Environment): (r: L.Environment)
    ensures forall k :: k in r <==> k in env || k in file
    ensures forall k :: k in env ==> r[k] == env[k]
    ensures forall k :: k in file && k !in env ==> r[k] == file[k]
  {
    map k | k in env.Keys + file.Keys :: if k in env then env[k] else file[k]
  }

  /** `File.join(ENV.fetch("ROOTDIR"), "config", "env")` */
  function EnvFilePath(env: L.Environment): Result<string> {
    if "ROOTDIR" in env then Success(P.Join(P.Join(env["ROOTDIR"], "config"), "env")) else Failure(KeyError("ROOTDIR"))
  }

  /** The script's first step: the worlds with the environment after
      `Dotenv.load` of the file under `ROOTDIR`; `dotenv` gives the
      variables the file at a path defines (none for a missing file). An
      unset `ROOTDIR` raises `KeyError` before anything else runs. */
  function Loaded(ws: Worlds, dotenv: string -> L.Environment): Result<Worlds> {
    var path :- EnvFilePath(ws.env);
    Success(ws.(env := DotenvLoad(ws.env, dotenv(path))))
  }

  /** `ARGV[0] || Date.today` read as a date. */
  function DateToCheck(arg: Option<string>, today: Date): Result<Date> {
    match arg
    case None => Success(today)
    case Some(text) => J.ParseEntry(J.Text(text))
  }

  /** The script with the command-line date parsed first: a date that
      does not parse stops it before any verifier runs. */
  function RunVerifiers(ws: Worlds, arg: Option<string>, today: Date): Result<seq<LogLine>> {
    var d :- DateToCheck(arg, today);
    Success(RunAll(ws, d))
  }

  /** The whole script: the environment loaded, then the run. */
  function Script(ws: Worlds, dotenv: string -> L.Environment, arg: Option<string>, today: Date): Result<seq<LogLine>> {
    var loaded :- Loaded(ws, dotenv);
    RunVerifiers(loaded, arg, today)
  }

  /** The exception a verifier raises on its first use of a String where
      it wants a Date: `strftime` for the redirects file name,
      `first_of_month?` in every `derivatives_for_date`. */
  function StringDateError(c: Class): Exception {
    if c == HathifilesRedirects then NoMethodError("undefined method 'strftime' for an instance of String")
    else NoMethodError("undefined method 'first_of_month?' for an instance of String")
  }

  /** The exceptions of the verifiers, in order, given a String for a
      date. */
  function StringDateErrors(): (es: seq<Exception>)
    ensures |es| == |Order| && forall i :: 0 <= i < |Order| ==> es[i] == StringDateError(Order[i])
  {
    seq(|Order|, i requires 0 <= i < |Order| => StringDateError(Order[i]))
  }

  /** What the verifiers do with a String for a date: each raises before
      it logs anything. */
  function StringDateReports(): seq<Report> {
    RaisedAll(StringDateErrors())
  }

  /** The script as written: a command-line date reaches the verifiers as
      a String. */
  function RunVerifiersAsWritten(ws: Worlds, arg: Option<string>, today: Date): seq<LogLine> {
    match arg
    case None => RunAll(ws, today)
    case Some(_) => Rescued(StringDateReports())
  }

  // ---------------------------------------------------------------------
  // Properties

  /** The run logs nothing exactly when each of the seven verifiers, in its
      own run, logs nothing and raises nothing. */
  lemma QuietIffAllClean(ws: Worlds, d: Date)
    ensures RunAll(ws, d) == [] <==> forall c :: c in Order ==> RunOne(ws, c, d) == Clean
  {
    RescuedQuiet(Reports(ws, d));
  }

  /** An exception in one verifier does not stop the others: the log holds
      the errors of all seven runs and one fatal line per run that
      raised. */
  lemma RunAllKeepsEveryRun(ws: Worlds, d: Date)
    ensures Errors(RunAll(ws, d)) == AllErrors(Reports(ws, d))
    ensures Fatals(RunAll(ws, d)) == AllRaised(Reports(ws, d))
  {
    RescuedKeepsAll(Reports(ws, d));
  }

  /** Without `ROOTDIR` loading raises `KeyError`; with it, the verifiers
      see every variable set before the script, unchanged, and the file's
      variables for the others. */
  lemma LoadedEnvironment(ws: Worlds, dotenv: string -> L.Environment)
    ensures "ROOTDIR" !in ws.env <==> Loaded(ws, dotenv) == Failure(KeyError("ROOTDIR"))
    ensures "ROOTDIR" in ws.env ==>
      var file := dotenv(P.Join(P.Join(ws.env["ROOTDIR"], "config"), "env"));
      var env := Loaded(ws, dotenv).value.env;
      && Loaded(ws, dotenv).value == ws.(env := env)
      && (forall k :: k in env <==> k in ws.env || k in file)
      && (forall k :: k in ws.env ==> env[k] == ws.env[k])
      && (forall k :: k in file && k !in ws.env ==> env[k] == file[k])
  {
  }

  /** The script stops with `KeyError` before any verifier runs when
      `ROOTDIR` is unset, and runs with the loaded environment otherwise. */
  lemma ScriptLoadsFirst(ws: Worlds, dotenv: string -> L.Environment, arg: Option<string>, today: Date)
    ensures "ROOTDIR" !in ws.env ==> Script(ws, dotenv, arg, today) == Failure(KeyError("ROOTDIR"))
    ensures "ROOTDIR" in ws.env ==> Script(ws, dotenv, arg, today) == RunVerifiers(Loaded(ws, dotenv).value, arg, today)
  {
  }

  /** Without a command-line date, today is checked, as written and as
      corrected. */
  lemma TodayByDefault(ws: Worlds, today: Date)
    ensures RunVerifiers(ws, None, today) == Success(RunAll(ws, today))
    ensures RunVerifiersAsWritten(ws, None, today) == RunAll(ws, today)
  {
  }

  /** As written, a command-line date makes every verifier raise at once:
      the log is one fatal line per verifier and nothing else, whatever the
      files hold; only the redirects check fails on `strftime`. */
  lemma AsWrittenIgnoresFiles(ws: Worlds, text: string, today: Date)
    ensures Errors(RunVerifiersAsWritten(ws, Some(text), today)) == []
    ensures Fatals(RunVerifiersAsWritten(ws, Some(text), today)) == StringDateErrors()
    ensures forall i :: 0 <= i < |Order| ==>
      (StringDateErrors()[i] == NoMethodError("undefined method 'strftime' for an instance of String") <==> Order[i] == HathifilesRedirects)
  {
    StringDateLog();
  }

  lemma StringDateLog()
    ensures Errors(Rescued(StringDateReports())) == []
    ensures Fatals(Rescued(StringDateReports())) == StringDateErrors()
  {
    OnlyRaised(StringDateErrors());
    RescuedKeepsAll(StringDateReports());
  }

  /** Corrected, a command-line date in the journal's `YYYY-MM-DD` form is
      checked as that date. */
  lemma CommandLineDate(ws: Worlds, d: Date, today: Date)
    requires HasFourDigitYear(d)
    ensures RunVerifiers(ws, Some(Hyphenated(d)), today) == Success(RunAll(ws, d))
  {
    HyphenatedRoundTrip(d);
    assert ParseCompact(Hyphenated(d)).None?;
  }

  /** Corrected, a command-line date that is no date stops the script with
      `Date::Error` before any verifier runs. */
  lemma CommandLineNotADate(ws: Worlds, text: string, today: Date)
    requires ParseCompact(text).None? && ParseHyphenated(text).None?
    ensures RunVerifiers(ws, Some(text), today).Failure?
    ensures RunVerifiers(ws, Some(text), today).error.DateError?
  {
  }
}

=== FILE: template.dfy ===
/** Filename templates (lib/derivative.rb, `datestamped_file`): the first
    case-insensitive `YYYYMMDD` is replaced by the compact datestamp, then the
    first case-insensitive `YYYY-MM-DD` by the hyphenated one, as two
    successive `String#sub` calls. */
module Template {
  import opened Wrappers
  import opened Text
  import opened Calendar
  import opened Datestamp

  const CompactPlaceholder := "YYYYMMDD"
  const HyphenatedPlaceholder := "YYYY-MM-DD"

  /** Case-insensitive match of a subject character against a pattern
      character that is an upper-case letter or punctuation (regex `/i`). */
  predicate CharMatches(c: char, p: char) {
    c == p || (IsUpper(p) && c as int == p as int + 32)
  }

  /** The pattern occurs, ignoring case, at position `i` of `s`. */
  predicate MatchesAt(s: string, i: nat, p: string) {
    i + |p| <= |s| && forall k :: 0 <= k < |p| ==> CharMatches(s[i + k], p[k])
  }

  /** The first occurrence at or after `i`. */
  function FindFrom(s: string, p: string, i: nat): (r: Option<nat>)
    ensures r.Some? ==> i <= r.value && MatchesAt(s, r.value, p)
    ensures r.Some? ==> forall j :: i <= j < r.value ==> !MatchesAt(s, j, p)
    ensures r.None? ==> forall j :: i <= j ==> !MatchesAt(s, j, p)
    decreases |s| - i
  {
    if i + |p| > |s| then None
    else if MatchesAt(s, i, p) then Some(i)
    else FindFrom(s, p, i + 1)
  }

  /** Where `String#sub` with a case-insensitive literal pattern replaces. */
  function FindFirst(s: string, p: string): Option<nat> {
    FindFrom(s, p, 0)
  }

  /** `s.sub(/p/i, repl)`: the first occurrence replaced, nothing else
      touched; no occurrence, no change. */
  function SubFirst(s: string, p: string, repl: string): string {
    match FindFirst(s, p)
    case None => s
    case Some(i) => s[..i] + repl + s[i + |p|..]
  }

  /** `datestamped_file` for a datestamp. */
  function Stamp(template: string, d: Date): string {
    SubFirst(SubFirst(template, CompactPlaceholder, Compact(d)), HyphenatedPlaceholder, Hyphenated(d))
  }

  /** `sub` keeps everything outside the first occurrence, and the replaced
      occurrence is the first one; without an occurrence the text is kept. */
  lemma SubFirstKeepsContext(s: string, p: string, repl: string)
    ensures FindFirst(s, p).None? ==> SubFirst(s, p, repl) == s
    ensures FindFirst(s, p).Some? ==>
      var i := FindFirst(s, p).value;
      && MatchesAt(s, i, p)
      && (forall j :: 0 <= j < i ==> !MatchesAt(s, j, p))
      && SubFirst(s, p, repl)[..i] == s[..i]
      && SubFirst(s, p, repl)[i..i + |repl|] == repl
      && SubFirst(s, p, repl)[i + |repl|..] == s[i + |p|..]
  {
  }

  /** Text without the letter y, in either case. */
  predicate HasNoY(s: string) {
    forall i :: 0 <= i < |s| ==> s[i] != 'Y' && s[i] != 'y'
  }

  lemma NoMatchWithoutY(s: string, p: string)
    requires HasNoY(s) && |p| > 0 && p[0] == 'Y'
    ensures FindFirst(s, p) == None
  {
    forall j: nat ensures !MatchesAt(s, j, p) {
      if j < |s| {
        assert !CharMatches(s[j + 0], p[0]);
      }
    }
  }

  lemma StampLeavesNoY(d: Date)
    ensures HasNoY(Compact(d)) && HasNoY(Hyphenated(d))
  {
    StampsHaveNoLetters(d);
  }

  /** A template without any placeholder is returned unchanged. */
  lemma StampWithoutPlaceholder(t: string, d: Date)
    requires FindFirst(t, CompactPlaceholder).None? && FindFirst(t, HyphenatedPlaceholder).None?
    ensures Stamp(t, d) == t
  {
    SubFirstKeepsContext(t, CompactPlaceholder, Compact(d));
    SubFirstKeepsContext(t, HyphenatedPlaceholder, Hyphenated(d));
  }

  /** In `pre + ph + post` with no y in `pre`, a placeholder `ph` (any case)
      is found right after `pre`. */
  lemma FoundAfterPrefix(pre: string, ph: string, post: string, p: string)
    requires HasNoY(pre) && |p| > 0 && p[0] == 'Y'
    requires |ph| == |p| && MatchesAt(ph, 0, p)
    ensures FindFirst(pre + ph + post, p) == Some(|pre|)
  {
    var t := pre + ph + post;
    forall k | 0 <= k < |p| ensures CharMatches(t[|pre| + k], p[k]) {
      assert t[|pre| + k] == ph[0 + k];
    }
    assert MatchesAt(t, |pre|, p);
    forall j | 0 <= j < |pre| ensures !MatchesAt(t, j, p) {
      assert t[j] == pre[j];
      assert !CharMatches(t[j + 0], p[0]);
    }
  }

  /** A template `pre + YYYYMMDD + post` (the placeholder in any case) becomes
      `pre + compact datestamp + post`. */
  lemma StampCompactTemplate(pre: string, ph: string, post: string, d: Date)
    requires HasNoY(pre) && HasNoY(post)
    requires |ph| == 8 && MatchesAt(ph, 0, CompactPlaceholder)
    ensures Stamp(pre + ph + post, d) == pre + Compact(d) + post
  {
    var t := pre + ph + post;
    FoundAfterPrefix(pre, ph, post, CompactPlaceholder);
    assert t[..|pre|] == pre && t[|pre| + 8..] == post;
    var u := pre + Compact(d) + post;
    assert SubFirst(t, CompactPlaceholder, Compact(d)) == u;
    StampLeavesNoY(d);
    assert HasNoY(u);
    NoMatchWithoutY(u, HyphenatedPlaceholder);
  }

  /** A template `pre + YYYY-MM-DD + post` (the placeholder in any case)
      becomes `pre + hyphenated datestamp + post`: the compact placeholder
      cannot be found inside the hyphenated one. */
  lemma StampHyphenatedTemplate(pre: string, ph: string, post: string, d: Date)
    requires HasNoY(pre) && HasNoY(post)
    requires |ph| == 10 && MatchesAt(ph, 0, HyphenatedPlaceholder)
    ensures Stamp(pre + ph + post, d) == pre + Hyphenated(d) + post
  {
    var t := pre + ph + post;
    assert CharMatches(ph[0 + 4], HyphenatedPlaceholder[4]);
    forall k | 5 <= k < 10 ensures ph[k] != 'Y' && ph[k] != 'y' {
      assert CharMatches(ph[0 + k], HyphenatedPlaceholder[k]);
    }
    forall j: nat ensures !MatchesAt(t, j, CompactPlaceholder) {
      if j + 8 <= |t| {
        if j < |pre| {
          assert t[j] == pre[j];
          assert !CharMatches(t[j + 0], CompactPlaceholder[0]);
        } else if j <= |pre| + 4 {
          var k := j - |pre|;
          assert t[j + (4 - k)] == ph[4];
          assert !CharMatches(t[j + (4 - k)], CompactPlaceholder[4 - k]);
        } else if j < |pre| + 10 {
          assert t[j] == ph[j - |pre|];
          assert !CharMatches(t[j + 0], CompactPlaceholder[0]);
        } else {
          assert t[j] == post[j - |pre| - 10];
          assert !CharMatches(t[j + 0], CompactPlaceholder[0]);
        }
      }
    }
    assert FindFirst(t, CompactPlaceholder) == None;
    FoundAfterPrefix(pre, ph, post, HyphenatedPlaceholder);
    assert t[..|pre|] == pre && t[|pre| + 10..] == post;
  }
}

=== FILE: text.dfy ===
/** The string operations of Ruby's core library that the modelled code relies
    on: decimal and zero-padded formatting (`strftime`, interpolation),
    `chomp`, `strip`, `split` with and without a limit, and `each_line`. */
module Text {

  // ---------------------------------------------------------------------
  // Character classes (ASCII, as Ruby's regex classes are here)
  // ---------------------------------------------------------------------

  /** `\d` */
  predicate IsDigit(c: char) { '0' <= c <= '9' }

  /** `[a-z]` */
  predicate IsLower(c: char) { 'a' <= c <= 'z' }

  /** `[A-Z]` */
  predicate IsUpper(c: char) { 'A' <= c <= 'Z' }

  /** `\s`: space, tab, line feed, vertical tab, form feed, carriage return. */
  predicate IsSpace(c: char) {
    c == ' ' || c == '\t' || c == '\n' || c == '\U{000B}' || c == '\U{000C}' || c == '\r'
  }

  predicate AllDigits(s: string) {
    forall i :: 0 <= i < |s| ==> IsDigit(s[i])
  }

  // ---------------------------------------------------------------------
  // Decimal numerals
  // ---------------------------------------------------------------------

  function Pow10(n: nat): nat {
    if n == 0 then 1 else 10 * Pow10(n - 1)
  }

  function DigitValue(c: char): nat
    requires IsDigit(c)
  {
    c as int - '0' as int
  }

  function DigitChar(n: nat): (c: char)
    requires n < 10
    ensures IsDigit(c) && DigitValue(c) == n
  {
    ('0' as int + n) as char
  }

  /** The number a string of decimal digits denotes (leading zeros allowed). */
  function DigitsValue(s: string): nat
    requires AllDigits(s)
  {
    if |s| == 0 then 0 else 10 * DigitsValue(s[..|s| - 1]) + DigitValue(s[|s| - 1])
  }

  /** The shortest decimal numeral of `n`, as Ruby's `Integer#to_s`. */
  function Decimal(n: nat): (s: string)
    ensures 1 <= |s|
    ensures AllDigits(s) && DigitsValue(s) == n
  {
    if n < 10 then [DigitChar(n)]
    else
      var s := Decimal(n / 10) + [DigitChar(n % 10)];
      assert s[..|s| - 1] == Decimal(n / 10);
      s
  }

  lemma {:induction false} DecimalFits(n: nat, w: nat)
    ensures 1 <= w && n < Pow10(w) ==> |Decimal(n)| <= w
    decreases w
  {
    if 1 <= w && n < Pow10(w) && n >= 10 {
      assert w >= 2;
      DecimalFits(n / 10, w - 1);
    }
  }

  function Zeros(k: nat): (s: string)
    ensures |s| == k && AllDigits(s) && DigitsValue(s) == 0
  {
    if k == 0 then "" else
      var s := Zeros(k - 1) + "0";
      assert s[..|s| - 1] == Zeros(k - 1);
      s
  }

  lemma {:induction false} LeadingZerosValue(k: nat, s: string)
    requires AllDigits(s)
    ensures AllDigits(Zeros(k) + s)
    ensures DigitsValue(Zeros(k) + s) == DigitsValue(s)
    decreases |s|
  {
    var t := Zeros(k) + s;
    if |s| > 0 {
      assert t[..|t| - 1] == Zeros(k) + s[..|s| - 1];
      LeadingZerosValue(k, s[..|s| - 1]);
    } else {
      assert t == Zeros(k);
    }
  }

  /** `n` left-padded with zeros to at least `w` digits, as `%0<w>d`. */
  function Pad(n: nat, w: nat): (s: string)
    ensures AllDigits(s) && DigitsValue(s) == n
    ensures w <= |s|
    ensures 1 <= w && n < Pow10(w) ==> |s| == w
  {
    var d := Decimal(n);
    DecimalFits(n, w);
    if |d| >= w then d
    else
      LeadingZerosValue(w - |d|, d);
      Zeros(w - |d|) + d
  }

  // ---------------------------------------------------------------------
  // chomp, strip
  // ---------------------------------------------------------------------

  /** `String#chomp` with the default separator: drops one trailing
      "\r\n", "\n" or "\r". */
  function Chomp(s: string): (r: string)
    ensures r <= s && |s| - 2 <= |r|
  {
    if |s| >= 2 && s[|s| - 2] == '\r' && s[|s| - 1] == '\n' then s[..|s| - 2]
    else if |s| >= 1 && (s[|s| - 1] == '\n' || s[|s| - 1] == '\r') then s[..|s| - 1]
    else s
  }

  /** Ruby's whitespace for `strip`: NUL and the `\s` characters. */
  predicate IsStrippable(c: char) { c == '\0' || IsSpace(c) }

  function StripLeft(s: string): (r: string)
    ensures |r| <= |s| && r == s[|s| - |r|..]
    ensures |r| > 0 ==> !IsStrippable(r[0])
  {
    if |s| > 0 && IsStrippable(s[0]) then StripLeft(s[1..]) else s
  }

  function StripRight(s: string): (r: string)
    ensures r <= s
    ensures |r| > 0 ==> !IsStrippable(r[|r| - 1])
  {
    if |s| > 0 && IsStrippable(s[|s| - 1]) then StripRight(s[..|s| - 1]) else s
  }

  /** `String#strip`. */
  function Strip(s: string): string {
    StripRight(StripLeft(s))
  }

  // ---------------------------------------------------------------------
  // split
  // ---------------------------------------------------------------------

  /** All the fields of `s` between occurrences of `sep`, empty ones included;
      never empty (the empty string has one empty field). */
  function SplitAll(s: string, sep: char): (r: seq<string>)
    ensures |r| >= 1
    ensures forall i :: 0 <= i < |r| ==> sep !in r[i]
    decreases |s|
  {
    if |s| == 0 then [""]
    else if s[0] == sep then [""] + SplitAll(s[1..], sep)
    else
      var rest := SplitAll(s[1..], sep);
      [[s[0]] + rest[0]] + rest[1..]
  }

  /** The fields joined back together with `sep` between them. */
  function JoinWith(parts: seq<string>, sep: char): string
    requires |parts| >= 1
  {
    if |parts| == 1 then parts[0] else parts[0] + [sep] + JoinWith(parts[1..], sep)
  }

  lemma {:induction false} JoinSplit(s: string, sep: char)
    ensures JoinWith(SplitAll(s, sep), sep) == s
    decreases |s|
  {
    if |s| > 0 {
      JoinSplit(s[1..], sep);
      var rest := SplitAll(s[1..], sep);
      if s[0] != sep {
        if |rest| == 1 {
          assert s == [s[0]] + s[1..];
        } else {
          assert JoinWith(rest, sep) == rest[0] + [sep] + JoinWith(rest[1..], sep);
          var r := [[s[0]] + rest[0]] + rest[1..];
          assert r[1..] == rest[1..];
          assert s == [s[0]] + s[1..];
        }
      } else {
        assert s == [sep] + s[1..];
      }
    }
  }

  /** A field without `sep` splits into itself. */
  lemma {:induction false} SplitField(a: string, sep: char)
    requires sep !in a
    ensures SplitAll(a, sep) == [a]
    decreases |a|
  {
    if |a| > 0 {
      assert sep !in a[1..] by { assert forall i :: 0 <= i < |a| - 1 ==> a[1..][i] == a[i + 1]; }
      SplitField(a[1..], sep);
      assert a == [a[0]] + a[1..];
    }
  }

  /** A field followed by `sep` splits off as the first field. */
  lemma {:induction false} SplitFirstField(a: string, sep: char, b: string)
    requires sep !in a
    ensures SplitAll(a + [sep] + b, sep) == [a] + SplitAll(b, sep)
    decreases |a|
  {
    var s := a + [sep] + b;
    if |a| == 0 {
      assert s == [sep] + b;
      assert s[1..] == b;
    } else {
      assert sep !in a[1..] by { assert forall i :: 0 <= i < |a| - 1 ==> a[1..][i] == a[i + 1]; }
      SplitFirstField(a[1..], sep, b);
      assert s[1..] == a[1..] + [sep] + b;
      assert [a[0]] + a[1..] == a;
    }
  }

  /** Splitting undoes joining when no field holds the separator. */
  lemma {:induction false} SplitJoin(parts: seq<string>, sep: char)
    requires |parts| >= 1
    requires forall i :: 0 <= i < |parts| ==> sep !in parts[i]
    ensures SplitAll(JoinWith(parts, sep), sep) == parts
    decreases |parts|
  {
    if |parts| == 1 {
      SplitField(parts[0], sep);
    } else {
      SplitJoin(parts[1..], sep);
      SplitFirstField(parts[0], sep, JoinWith(parts[1..], sep));
      assert [parts[0]] + parts[1..] == parts;
    }
  }

  /** The joined string ends with the last field. */
  lemma {:induction false} JoinEndsWithLast(parts: seq<string>, sep: char)
    requires |parts| >= 1
    ensures var j := JoinWith(parts, sep); var last := parts[|parts| - 1];
      |last| <= |j| && j[|j| - |last|..] == last
    ensures var j := JoinWith(parts, sep); var last := parts[|parts| - 1];
      |parts| > 1 ==> |last| < |j| && j[|j| - |last| - 1] == sep
    decreases |parts|
  {
    if |parts| > 1 {
      JoinEndsWithLast(parts[1..], sep);
    }
  }

  /** `String#split(sep, -1)`: every field kept, trailing empty ones too;
      the empty string has no fields at all. */
  function SplitKeep(s: string, sep: char): (r: seq<string>)
    ensures s == "" <==> r == []
    ensures r != [] ==> JoinWith(r, sep) == s
    ensures forall i :: 0 <= i < |r| ==> sep !in r[i]
  {
    if s == "" then [] else JoinSplit(s, sep); SplitAll(s, sep)
  }

  function DropTrailingEmpty(parts: seq<string>): (r: seq<string>)
    ensures r <= parts
    ensures |r| > 0 ==> r[|r| - 1] != ""
    ensures forall i :: |r| <= i < |parts| ==> parts[i] == ""
  {
    if |parts| > 0 && parts[|parts| - 1] == "" then DropTrailingEmpty(parts[..|parts| - 1]) else parts
  }

  /** `String#split(sep)` with no limit: trailing empty fields are dropped. */
  function Split(s: string, sep: char): seq<string> {
    DropTrailingEmpty(SplitAll(s, sep))
  }

  // ---------------------------------------------------------------------
  // each_line
  // ---------------------------------------------------------------------

  /** A line as `each_line` yields it: a newline can only be its last
      character. */
  predicate IsLine(l: string) {
    forall i :: 0 <= i < |l| - 1 ==> l[i] != '\n'
  }

  function Concat(parts: seq<string>): string {
    if |parts| == 0 then "" else parts[0] + Concat(parts[1..])
  }

  /** Position just past the first newline of `s`, or `|s|` if it has none. */
  function LineEnd(s: string): (k: nat)
    requires |s| > 0
    ensures 1 <= k <= |s|
    ensures IsLine(s[..k])
    ensures k < |s| ==> s[k - 1] == '\n'
    ensures k == |s| ==> IsLine(s)
  {
    if s[0] == '\n' || |s| == 1 then 1 else 1 + LineEnd(s[1..])
  }

  /** `IO#each_line` with the default separator: every line keeps its "\n";
      only the last one may lack it. */
  function EachLine(s: string): (r: seq<string>)
    ensures Concat(r) == s
    ensures forall i :: 0 <= i < |r| ==> r[i] != "" && IsLine(r[i])
    ensures forall i :: 0 <= i < |r| - 1 ==> r[i][|r[i]| - 1] == '\n'
    decreases |s|
  {
    if s == "" then []
    else
      var k := LineEnd(s);
      var rest := EachLine(s[k..]);
      assert s == s[..k] + s[k..];
      [s[..k]] + rest
  }

  /** A chomped line has no newline left in it. */
  lemma ChompedLineHasNoNewline(l: string)
    requires IsLine(l)
    ensures '\n' !in Chomp(l)
  {
    var c := Chomp(l);
    forall i | 0 <= i < |c|
      ensures c[i] != '\n'
    {
      assert c[i] == l[i];
    }
  }
}

=== FILE: verifier.dfy ===
/** The common superclass of the verifiers (lib/verifier.rb): an error log
    that `error` appends to, the existence and readability checks every
    verifier starts from, line counting, the newline-delimited JSON check,
    and `run`, which verifies every date of the journal.

    A verifier's activity is a `Report`: the messages `error` logged, in
    order, and the exception that ended the run early, if one did. Steps
    are chained with `Then`, which skips what follows an exception, as
    Ruby does. */
module Verifier {
  import opened Wrappers
  import opened Text
  import opened Calendar
  import opened FileSystem
  import opened Datestamp
  import opened DateSeqs
  import J = Journal

  /** The verifier classes, named as `self.class.to_s` names them. */
  datatype Class =
    | PostZephir | PopulateRights | Hathifiles | HathifileContents
    | HathifilesDatabase | HathifilesListing | HathifilesRedirects | CatalogIndex

  function ClassName(c: Class): string {
    match c
    case PostZephir => "PostZephirProcessing::Verifier::PostZephir"
    case PopulateRights => "PostZephirProcessing::Verifier::PopulateRights"
    case Hathifiles => "PostZephirProcessing::Verifier::Hathifiles"
    case HathifileContents => "PostZephirProcessing::Verifier::HathifileContents"
    case HathifilesDatabase => "PostZephirProcessing::Verifier::HathifilesDatabase"
    case HathifilesListing => "PostZephirProcessing::Verifier::HathifilesListing"
    case HathifilesRedirects => "PostZephirProcessing::HathifilesRedirectsVerifier"
    case CatalogIndex => "PostZephirProcessing::Verifier::CatalogIndex"
  }

  datatype Report = Report(errors: seq<string>, raised: Option<Exception>)

  /** `initialize`: nothing logged yet. */
  const Clean: Report := Report([], None)

  /** The log entry `error(message:)` writes. */
  function Entry(c: Class, message: string): string {
    ClassName(c) + ": " + message
  }

  /** `error(message:)` as a step of its own. */
  function Logged(c: Class, message: string): Report {
    Report([Entry(c, message)], None)
  }

  /** An exception, ending the run. */
  function Raised(e: Exception): Report {
    Report([], Some(e))
  }

  /** `a` and then `b`; nothing of `b` happens once `a` has raised. */
  function Then(a: Report, b: Report): Report {
    if a.raised.Some? then a else Report(a.errors + b.errors, b.raised)
  }

  /** Two steps in sequence are silent exactly when both are. */
  lemma ThenClean(a: Report, b: Report)
    ensures Then(a, b) == Clean <==> a == Clean && b == Clean
  {
  }

  /** Five steps in sequence: silent exactly when each is, raising exactly
      when one does, and otherwise logging their errors in order. */
  lemma ThenFive(a: Report, b: Report, c: Report, d: Report, e: Report)
    ensures var r := Then(a, Then(b, Then(c, Then(d, e))));
      && (r == Clean <==> a == Clean && b == Clean && c == Clean && d == Clean && e == Clean)
      && (r.raised.None? <==> a.raised.None? && b.raised.None? && c.raised.None? && d.raised.None? && e.raised.None?)
      && (r.raised.None? ==> r.errors == a.errors + b.errors + c.errors + d.errors + e.errors)
  {
    ThenClean(d, e);
    ThenClean(c, Then(d, e));
    ThenClean(b, Then(c, Then(d, e)));
    ThenClean(a, Then(b, Then(c, Then(d, e))));
    assert a.errors + (b.errors + (c.errors + (d.errors + e.errors))) == a.errors + b.errors + c.errors + d.errors + e.errors;
  }

  /** `xs.each { |x| step(x) }` */
  function ForEach<X>(xs: seq<X>, step: X -> Report): (r: Report)
    ensures r.raised.None? <==> forall i :: 0 <= i < |xs| ==> step(xs[i]).raised.None?
    ensures r.raised.Some? ==>
      exists i :: 0 <= i < |xs| && step(xs[i]).raised == r.raised && forall j :: 0 <= j < i ==> step(xs[j]).raised.None?
  {
    if |xs| == 0 then Clean
    else
      var rest := ForEach(xs[1..], step);
      assert forall i :: 0 <= i < |xs| - 1 ==> xs[1..][i] == xs[i + 1];
      Then(step(xs[0]), rest)
  }

  /** A loop is silent exactly when every step is. */
  lemma {:induction false} ForEachClean<X>(xs: seq<X>, step: X -> Report)
    ensures ForEach(xs, step) == Clean <==> forall i :: 0 <= i < |xs| ==> step(xs[i]) == Clean
    decreases |xs|
  {
    if |xs| > 0 {
      ForEachClean(xs[1..], step);
      assert forall i :: 0 <= i < |xs| - 1 ==> xs[1..][i] == xs[i + 1];
      ThenClean(step(xs[0]), ForEach(xs[1..], step));
    }
  }

  /** The message of an entry, given the class that logged it. */
  function MessageOf(c: Class, entry: string): Option<string> {
    var prefix := ClassName(c) + ": ";
    if prefix <= entry then Some(entry[|prefix|..]) else None
  }

  // ---------------------------------------------------------------------
  // The log

  /** Every entry names its class, and the message is recovered from it:
      two entries of one class are equal only for equal messages. */
  lemma EntryNamesClass(c: Class, message: string)
    ensures ClassName(c) + ": " <= Entry(c, message)
    ensures MessageOf(c, Entry(c, message)) == Some(message)
  {
    var prefix := ClassName(c) + ": ";
    assert Entry(c, message) == prefix + message;
    assert Entry(c, message)[..|prefix|] == prefix;
  }

  /** `error` appends exactly one entry and leaves the earlier ones alone. */
  lemma ErrorAppendsOne(c: Class, before: Report, message: string)
    requires before.raised.None?
    ensures var after := Then(before, Logged(c, message));
      && |after.errors| == |before.errors| + 1
      && after.errors[..|before.errors|] == before.errors
      && MessageOf(c, after.errors[|before.errors|]) == Some(message)
      && after.raised.None?
  {
    EntryNamesClass(c, message);
    var after := Then(before, Logged(c, message));
    assert after.errors == before.errors + [Entry(c, message)];
  }

  /** Nothing follows an exception, and steps group either way. */
  lemma {:induction false} ThenLaws(a: Report, b: Report, c: Report)
    ensures Then(Clean, a) == a && Then(a, Clean) == a
    ensures Then(Then(a, b), c) == Then(a, Then(b, c))
    ensures a.raised.Some? ==> Then(a, b) == a
  {
    if a.raised.None? && b.raised.None? {
      assert (a.errors + b.errors) + c.errors == a.errors + (b.errors + c.errors);
    }
    assert a.errors + [] == a.errors;
  }

  /** A loop over two lists runs the first, then the second. */
  lemma {:induction false} ForEachAppend<X>(xs: seq<X>, ys: seq<X>, step: X -> Report)
    ensures ForEach(xs + ys, step) == Then(ForEach(xs, step), ForEach(ys, step))
    decreases |xs|
  {
    if |xs| == 0 {
      assert xs + ys == ys;
      ThenLaws(ForEach(ys, step), Clean, Clean);
    } else {
      assert (xs + ys)[1..] == xs[1..] + ys;
      ForEachAppend(xs[1..], ys, step);
      ThenLaws(step(xs[0]), ForEach(xs[1..], step), ForEach(ys, step));
    }
  }

  /** A loop over one element is that element's step. */
  lemma ForEachOne<X>(x: X, step: X -> Report)
    ensures ForEach([x], step) == step(x)
  {
    ThenLaws(step(x), Clean, Clean);
  }

  /** A loop whose every step logs `n` entries without raising logs
      `n` entries per element. */
  lemma {:induction false} ForEachCounts<X>(xs: seq<X>, step: X -> Report, n: nat)
    requires forall i :: 0 <= i < |xs| ==> step(xs[i]).raised.None? && |step(xs[i]).errors| == n
    ensures ForEach(xs, step).raised.None?
    ensures |ForEach(xs, step).errors| == n * |xs|
    decreases |xs|
  {
    if |xs| > 0 {
      assert forall i :: 0 <= i < |xs| - 1 ==> xs[1..][i] == xs[i + 1];
      ForEachCounts(xs[1..], step, n);
    }
  }

  /** `error(message:) if bad`, as one step. */
  function Flag(c: Class, bad: bool, message: string): Report {
    if bad then Logged(c, message) else Clean
  }

  /** The entries a loop flagging the bad elements of `xs` logs, in order. */
  function Flagged<X>(c: Class, xs: seq<X>, bad: X -> bool, message: X -> string): (r: seq<string>)
    ensures r == [] <==> forall i :: 0 <= i < |xs| ==> !bad(xs[i])
    ensures |r| <= |xs|
    ensures (forall i :: 0 <= i < |xs| ==> bad(xs[i])) ==> |r| == |xs|
  {
    if |xs| == 0 then []
    else
      var rest := Flagged(c, xs[1..], bad, message);
      assert forall i :: 0 <= i < |xs| - 1 ==> xs[1..][i] == xs[i + 1];
      assert forall i :: 0 < i < |xs| ==> xs[i] == xs[1..][i - 1];
      (if bad(xs[0]) then [Entry(c, message(xs[0]))] else []) + rest
  }

  /** The flags of two lists are the flags of each, in order. */
  lemma {:induction false} FlaggedAppend<X>(c: Class, xs: seq<X>, ys: seq<X>, bad: X -> bool, message: X -> string)
    ensures Flagged(c, xs + ys, bad, message) == Flagged(c, xs, bad, message) + Flagged(c, ys, bad, message)
    decreases |xs|
  {
    if |xs| == 0 {
      assert xs + ys == ys;
      assert Flagged(c, xs, bad, message) == [];
    } else {
      var head := if bad(xs[0]) then [Entry(c, message(xs[0]))] else [];
      assert (xs + ys)[0] == xs[0];
      assert (xs + ys)[1..] == xs[1..] + ys;
      assert Flagged(c, xs + ys, bad, message) == head + Flagged(c, xs[1..] + ys, bad, message);
      FlaggedAppend(c, xs[1..], ys, bad, message);
      assert Flagged(c, xs, bad, message) == head + Flagged(c, xs[1..], bad, message);
      ConcatAssoc(head, Flagged(c, xs[1..], bad, message), Flagged(c, ys, bad, message));
    }
  }

  lemma ConcatAssoc<T>(a: seq<T>, b: seq<T>, d: seq<T>)
    ensures a + (b + d) == (a + b) + d
  {
  }

  /** Every bad element is reported, and every entry reports a bad
      element. */
  lemma {:induction false} FlaggedEntries<X>(c: Class, xs: seq<X>, bad: X -> bool, message: X -> string)
    ensures forall i :: 0 <= i < |xs| && bad(xs[i]) ==> Entry(c, message(xs[i])) in Flagged(c, xs, bad, message)
    ensures forall e :: e in Flagged(c, xs, bad, message) ==> exists i :: 0 <= i < |xs| && bad(xs[i]) && e == Entry(c, message(xs[i]))
    decreases |xs|
  {
    if |xs| > 0 {
      FlaggedEntries(c, xs[1..], bad, message);
      assert forall i :: 0 <= i < |xs| - 1 ==> xs[1..][i] == xs[i + 1];
      assert forall i :: 0 < i < |xs| ==> xs[i] == xs[1..][i - 1];
    }
  }

  /** A loop whose every step flags one element logs exactly the flagged
      entries, and never raises. */
  lemma {:induction false} ForEachFlags<X>(c: Class, xs: seq<X>, bad: X -> bool, message: X -> string, step: X -> Report)
    requires forall i :: 0 <= i < |xs| ==> step(xs[i]) == Flag(c, bad(xs[i]), message(xs[i]))
    ensures ForEach(xs, step) == Report(Flagged(c, xs, bad, message), None)
    decreases |xs|
  {
    if |xs| > 0 {
      assert forall i :: 0 <= i < |xs| - 1 ==> xs[1..][i] == xs[i + 1];
      ForEachFlags(c, xs[1..], bad, message, step);
    }
  }

  /** `0...n`, for the loops that number their lines. */
  function Indices(n: nat): (r: seq<nat>)
    ensures |r| == n && forall i :: 0 <= i < n ==> r[i] == i
  {
    seq(n, i requires 0 <= i < n => i)
  }

  // ---------------------------------------------------------------------
  // Files

  /** `verify_file(path:)`: `verify_file_exists` and then, only for a file
      that exists, `verify_file_readable`; true when both pass. */
  function VerifyFile(c: Class, fs: FileSystem, path: string): (r: (bool, Report))
    ensures r.0 <==> Readable(fs, path)
    ensures r.1.raised.None?
    ensures r.0 <==> r.1.errors == []
    ensures !Exists(fs, path) ==> r.1 == Logged(c, "not found: " + path)
    ensures Exists(fs, path) && !Readable(fs, path) ==> r.1 == Logged(c, "not readable: " + path)
  {
    if !Exists(fs, path) then (false, Logged(c, "not found: " + path))
    else if !Readable(fs, path) then (false, Logged(c, "not readable: " + path))
    else (true, Clean)
  }

  /** `next unless verify_file(path: path)` followed by `rest`; computing the
      path can raise. */
  function WhenVerified(c: Class, fs: FileSystem, path: Result<string>, rest: string -> Report): (r: Report)
    ensures path.Failure? ==> r == Raised(path.error)
    ensures path.Success? && !Readable(fs, path.value) ==> r == VerifyFile(c, fs, path.value).1
    ensures path.Success? && Readable(fs, path.value) ==> r == rest(path.value)
  {
    match path
    case Failure(e) => Raised(e)
    case Success(p) =>
      var (ok, report) := VerifyFile(c, fs, p);
      ThenLaws(rest(p), Clean, Clean);
      if ok then Then(report, rest(p)) else report
  }

  /** A verified step is silent exactly when its file is readable and
      the rest of the step is silent. */
  lemma WhenVerifiedClean(c: Class, fs: FileSystem, path: string, rest: string -> Report)
    ensures WhenVerified(c, fs, Success(path), rest) == Clean <==> Readable(fs, path) && rest(path) == Clean
  {
  }

  /** `verify_file(path:)` with a path that may raise, its result unused. */
  function VerifyPath(c: Class, fs: FileSystem, path: Result<string>): (r: Report)
    ensures path.Failure? ==> r == Raised(path.error)
    ensures path.Success? ==> r == VerifyFile(c, fs, path.value).1
  {
    WhenVerified(c, fs, path, p => Clean)
  }

  /** The error `verify_file` logs for a file that is not readable. */
  function FileProblem(fs: FileSystem, path: string): string {
    if !Exists(fs, path) then "not found: " + path else "not readable: " + path
  }

  /** `verify_file` flags exactly the unreadable file. */
  lemma VerifyFileFlags(c: Class, fs: FileSystem, path: string)
    ensures VerifyFile(c, fs, path).1 == Flag(c, !Readable(fs, path), FileProblem(fs, path))
  {
  }

  /** The elements whose path computes but names no readable file. */
  function Unreadable<X>(fs: FileSystem, path: X -> Result<string>): X -> bool {
    x => path(x).Success? && !Readable(fs, path(x).value)
  }

  function ProblemOf<X>(fs: FileSystem, path: X -> Result<string>): X -> string {
    x => if path(x).Success? then FileProblem(fs, path(x).value) else ""
  }

  /** A loop of `verify_file` calls raises exactly when some path cannot
      be computed; otherwise it logs one error per unreadable file, in
      order, and nothing else. */
  lemma {:induction false} ForEachVerifyPath<X>(c: Class, fs: FileSystem, xs: seq<X>, path: X -> Result<string>, step: X -> Report)
    requires forall i :: 0 <= i < |xs| ==> step(xs[i]) == VerifyPath(c, fs, path(xs[i]))
    ensures ForEach(xs, step).raised.None? <==> forall i :: 0 <= i < |xs| ==> path(xs[i]).Success?
    ensures (forall i :: 0 <= i < |xs| ==> path(xs[i]).Success?) ==>
      ForEach(xs, step) == Report(Flagged(c, xs, Unreadable(fs, path), ProblemOf(fs, path)), None)
  {
    if forall i :: 0 <= i < |xs| ==> path(xs[i]).Success? {
      forall i | 0 <= i < |xs|
        ensures step(xs[i]) == Flag(c, Unreadable(fs, path)(xs[i]), ProblemOf(fs, path)(xs[i]))
      {
        VerifyFileFlags(c, fs, path(xs[i]).value);
      }
      ForEachFlags(c, xs, Unreadable(fs, path), ProblemOf(fs, path), step);
    }
  }

  /** `gzip_linecount(path:)`: raises for a file that cannot be opened. */
  function GzipLineCount(fs: FileSystem, path: string): (r: Result<nat>)
    ensures r.Success? <==> Read(fs, path).Success?
    ensures r.Success? ==> r.value == |EachLine(Read(fs, path).value)|
  {
    LineCount(fs, path)
  }

  /** `verify_parseable_ndj(path:)`: `parses` says which lines `JSON.parse`
      accepts. The first line it rejects logs one error and ends the
      check. */
  function VerifyParseableNdj(c: Class, fs: FileSystem, path: string, parses: string -> bool): (r: (bool, Report))
    ensures Lines(fs, path).Failure? ==> r.1 == Raised(Lines(fs, path).error)
    ensures Lines(fs, path).Success? ==> r.1.raised.None?
    ensures Lines(fs, path).Success? ==> (r.0 <==> forall i :: 0 <= i < |Lines(fs, path).value| ==> parses(Lines(fs, path).value[i]))
    ensures Lines(fs, path).Success? && r.0 ==> r.1.errors == []
    ensures Lines(fs, path).Success? && !r.0 ==> r.1 == Logged(c, "File " + path + " contains unparseable JSON")
  {
    match Lines(fs, path)
    case Failure(e) => (false, Raised(e))
    case Success(lines) =>
      if forall i :: 0 <= i < |lines| ==> parses(lines[i]) then (true, Clean)
      else (false, Logged(c, "File " + path + " contains unparseable JSON"))
  }

  // ---------------------------------------------------------------------
  // run

  /** `run`: `run_for_date` for every date of the journal, as the journal
      holds them; a journal entry that does not parse raises first. */
  function RunJournal(entries: seq<J.Entry>, runForDate: Date -> Report): (r: Report)
    ensures J.New(entries).Failure? ==> r == Raised(J.New(entries).error)
    ensures J.New(entries).Success? ==> r == ForEach(J.New(entries).value, runForDate)
  {
    match J.New(entries)
    case Failure(e) => Raised(e)
    case Success(dates) => ForEach(dates, runForDate)
  }

  /** A journal written by the producing run is verified date by date, in
      ascending order, each date once per time it was written. */
  lemma RunVisitsWrittenDates(dates: seq<Date>, runForDate: Date -> Report)
    requires Ascending(dates)
    requires forall i :: 0 <= i < |dates| ==> HasFourDigitYear(dates[i])
    ensures RunJournal(J.AsEntries(J.Written(dates)), runForDate) == ForEach(dates, runForDate)
  {
    J.WriteThenRead(dates);
  }
}

=== FILE: wrappers.dfy ===
/** Option and Result wrappers, and the Ruby exceptions the modelled code can
    raise. A raised exception is data here: an operation that may raise
    returns a `Result` whose `Failure` carries the exception. */
module Wrappers {

  datatype Option<+T> = None | Some(value: T)

  datatype Result<+R> = Success(value: R) | Failure(error: Exception)
  {
    predicate IsFailure() { Failure? }

    function PropagateFailure<U>(): Result<U>
      requires Failure?
    {
      Failure(error)
    }

    function Extract(): R
      requires Success?
    {
      value
    }
  }

  /** The exceptions of the Ruby runtime the core can run into. */
  datatype Exception =
    | ArgumentError(message: string)   // a constructor guard
    | TypeError(message: string)       // File.join given nil or a Symbol
    | KeyError(key: string)            // ENV.fetch of an unset variable
    | NoMethodError(message: string)   // a method called on nil
    | DateError(text: string)          // Date.parse of an impossible date
    | FileError(path: string)          // opening a missing or unreadable file
    | ParserError(text: string)        // JSON.parse of text that is not JSON

  /** Evaluating a sequence of fallible steps in order: the first failure
      is raised, otherwise every value is collected. */
  function Collect<T>(rs: seq<Result<T>>): (r: Result<seq<T>>)
    ensures r.Success? ==> |r.value| == |rs| && forall i :: 0 <= i < |rs| ==> rs[i] == Success(r.value[i])
    ensures r.Failure? <==> exists i :: 0 <= i < |rs| && rs[i].Failure?
    ensures r.Failure? ==>
      exists i :: 0 <= i < |rs| && rs[i] == Failure(r.error) && forall j :: 0 <= j < i ==> rs[j].Success?
  {
    if |rs| == 0 then Success([])
    else if rs[0].Failure? then Failure(rs[0].error)
    else
      var rest := Collect(rs[1..]);
      if rest.Failure? then
        var i :| 0 <= i < |rs[1..]| && rs[1..][i] == Failure(rest.error) && forall j :: 0 <= j < i ==> rs[1..][j].Success?;
        assert rs[i + 1] == Failure(rest.error);
        Failure(rest.error)
      else Success([rs[0].value] + rest.value)
  }

  /** `Collect` of `f` applied to each element of `xs` in order: the first
      element whose step fails raises, otherwise every value is kept. */
  function CollectMap<X, T>(xs: seq<X>, f: X -> Result<T>): (r: Result<seq<T>>)
    ensures r.Success? ==> |r.value| == |xs| && forall i :: 0 <= i < |xs| ==> f(xs[i]) == Success(r.value[i])
    ensures r.Failure? <==> exists i :: 0 <= i < |xs| && f(xs[i]).Failure?
    ensures r.Failure? ==>
      exists i :: 0 <= i < |xs| && f(xs[i]) == Failure(r.error) && forall j :: 0 <= j < i ==> f(xs[j]).Success?
  {
    var rs := seq(|xs|, i requires 0 <= i < |xs| => f(xs[i]));
    assert forall i :: 0 <= i < |xs| ==> rs[i] == f(xs[i]);
    Collect(rs)
  }
}
